=== FILE: README.md ===
# Robot-car control stack, modelled in Dafny

This project models the decision-making core of a small robot-car control
stack. A phone or ESP32 camera streams MJPEG frames over HTTP. A Python
client cuts JPEG frames out of that byte stream. Navigation controllers find
an ArUco marker or a coloured blob in each frame and turn its position and
size into a throttle and a steering command. Background senders turn those
commands into single-byte BLE writes to the car. Beside the navigation stack
are:

- tkinter control GUIs: manual driving, waypoints picked on a canvas, a mode
  switcher;
- a keyboard and gamepad input layer;
- a frame-processing pipeline and a key-driven camera viewer;
- a process launcher with restart budgets;
- small calibration and utility tools: HSV colour range, focal length,
  marker sheets, stream quality.

Each core source file becomes one Dafny module. The module has the file's own
state: classes whose fields the methods reassign, `seq` and `map` fields for
the lists and dictionaries the source mutates, and `while` loops where the
source loops. Pure rules become functions, and lemmas prove what the
rules promise. Everything the source gets from the outside world is a
parameter:

- camera frames and HTTP responses;
- marker corners, contours and their moments;
- key presses and gamepad events;
- whether a BLE device was found, and the time of day;
- whether a child process is still alive;
- `cv2.imdecode`, and the image filters.

Python semantics are written out where they matter:

- `int()` truncates toward zero (`Common.Trunc`);
- `round()` rounds half to even (`Common.RoundHalfEven`);
- `>>` on an integer is floor division;
- `& 0xFF` keeps the low byte;
- NumPy 8-bit arithmetic wraps modulo 256.

Control values are `real`.

## Model

| member | source | states |
|---|---|---|
| Common.Trunc | on_board_cam/navigation/base_navigation.py:27 | Python `int()` on a float: the integer part, rounded toward zero, never further than 1 from the value |
| Common.RoundHalfEven | on_board_cam/navigation/base_navigation.py:206 | Python `round()`: the nearest integer, within one half; on an exact tie, the even neighbour |
| Common.RoundTenth | waypoint_marker/unified_control_gui.py:563-564 | `round(x, 1)`: a whole number of tenths, within 0.05 of the value |
| Common.Clamp | on_board_cam/navigation/base_navigation.py:187-188 | `max(lo, min(hi, v))`: inside the range; the value itself when already inside, otherwise the bound it crossed |
| ByteSearch.Find | camera_processing/esp_camera_client.py:125-128 | `bytes.find(needle, start)`: -1 or an occurrence at or after the start |
| ByteSearch.FindFirst | camera_processing/esp_camera_client.py:125-128 | `find` returns -1 exactly when there is no occurrence from the start on; otherwise no earlier occurrence exists |
| ByteSearch.RFindBefore | camera_processing/esp_camera_client.py:213 | the right-to-left search returns -1 or an occurrence that ends within the searched prefix |
| ByteSearch.RFindBeforeLast | camera_processing/esp_camera_client.py:213 | -1 exactly when the prefix has no occurrence; otherwise no later occurrence fits in the prefix |
| ByteSearch.RFind | camera_processing/esp_camera_client.py:213 | `bytes.rfind`: -1 or an occurrence |
| ByteSearch.RFindLast | camera_processing/esp_camera_client.py:213 | `rfind` returns -1 exactly when there is no occurrence, and otherwise the last occurrence |
| CameraClient.FirstKeyMatch | camera_processing/esp_camera_client.py:93 | the first position where `boundary=` is followed by a token character, or None exactly when there is none |
| CameraClient.TokenRun | camera_processing/esp_camera_client.py:93 | the maximal run of characters that are neither whitespace nor `;`, like `[^\s;]+` |
| CameraClient.SpaceRun | camera_processing/esp_camera_client.py:95 | the maximal run of leading whitespace |
| CameraClient.SpaceRunBefore | camera_processing/esp_camera_client.py:95 | the maximal run of trailing whitespace |
| CameraClient.Strip | camera_processing/esp_camera_client.py:95 | `str.strip()`: the input is leading whitespace, then the result, then trailing whitespace; the result neither starts nor ends with whitespace, is empty exactly when the input is all whitespace, and is the input itself when it has none |
| CameraClient.DashRun | camera_processing/esp_camera_client.py:97 | the maximal run of leading dashes |
| CameraClient.LStripDash | camera_processing/esp_camera_client.py:97 | `lstrip('-')`: a suffix of the input, everything cut off is a dash, and the result does not start with a dash |
| CameraClient.Group | camera_processing/esp_camera_client.py:93 | the regex group: the characters of the header from the match on, all token characters, ending at the end of the header or before a separator |
| CameraClient.Utf8Char | camera_processing/esp_camera_client.py:98 | `str.encode()` of one character: an ASCII character is its own code as one byte; otherwise two, three or four bytes by code-point range, with the lead byte marking the length and every other byte a continuation byte |
| CameraClient.Utf8 | camera_processing/esp_camera_client.py:98 | the encoding is between one and four bytes per character |
| CameraClient.Utf8CharRoundTrip | camera_processing/esp_camera_client.py:98 | decoding the payload bits of a character's bytes gives back its code point |
| CameraClient.Utf8Ascii | camera_processing/esp_camera_client.py:98 | ASCII text encodes to its own character codes, one byte each |
| CameraClient.Utf8Append | camera_processing/esp_camera_client.py:98 | encoding a concatenation concatenates the encodings |
| CameraClient.ParseBoundary | camera_processing/esp_camera_client.py:93-98 | a boundary is found exactly when the header contains `boundary=` followed by a token character |
| CameraClient.BoundaryTextSpec | camera_processing/esp_camera_client.py:93-97 | the boundary text is the token after the first `boundary=` match |
| CameraClient.TokenAfterSpec | camera_processing/esp_camera_client.py:93-97 | the token is the regex group with its leading dashes removed: token characters only, not starting with a dash, preceded in the header only by dashes, and followed by the end or a separator |
| CameraClient.TokenAfterIsRunWithoutDashes | camera_processing/esp_camera_client.py:95-97 | stripping whitespace from a group of token characters changes nothing, so the token is the dash-stripped group |
| CameraClient.NoMatchMeansNoToken | camera_processing/esp_camera_client.py:93-94 | without a `boundary=` match no boundary is parsed |
| CameraClient.BoundaryCut | camera_processing/esp_camera_client.py:123-141 | a cut on the boundary path lies inside the buffer and keeps the buffer from the second delimiter on |
| CameraClient.Delimiters | camera_processing/esp_camera_client.py:125-129 | the two delimiter positions are ordered, and the second is a real delimiter |
| CameraClient.SectionCut | camera_processing/esp_camera_client.py:131-141 | the JPEG is cut from the section between the delimiters, and the buffer restarts at the second delimiter |
| CameraClient.BoundaryCutAt | camera_processing/esp_camera_client.py:125-141 | with delimiters at p and q and the first FF D8 and FF D9 of the section at s and e, the JPEG is `buf[s..e+2]` (empty when e+2 <= s, since this path has no order check) and the rest starts at q |
| CameraClient.DelimitersAt | camera_processing/esp_camera_client.py:125-129 | the first delimiter and the next one searched from `p + len(token)` are exactly the ones found |
| CameraClient.SectionCutAt | camera_processing/esp_camera_client.py:131-141 | the marker searches inside the section give the cut at the first FF D8 and first FF D9 |
| ByteSearch.FindInSection | camera_processing/esp_camera_client.py:134-135 | a search inside the section finds the first occurrence in the whole buffer, shifted by the section start |
| CameraClient.BoundaryCutNeedsTwoDelimiters | camera_processing/esp_camera_client.py:125-129 | with no delimiter, or with only one, the boundary path finds nothing |
| CameraClient.FallbackCut | camera_processing/esp_camera_client.py:155-163 | a fallback cut lies in the buffer, and the buffer continues right after the JPEG |
| CameraClient.FallbackCutAt | camera_processing/esp_camera_client.py:155-163 | when the first FF D8 comes before the first FF D9, the JPEG is `buf[s..e+2]`: it starts with FF D8 and ends with FF D9, and the buffer continues after it |
| CameraClient.FallbackNeedsOrderedMarkers | camera_processing/esp_camera_client.py:158 | a missing marker, or an FF D9 not after the first FF D8, means no fallback cut |
| CameraClient.BoundaryStep | camera_processing/esp_camera_client.py:123-141 | without a boundary token the boundary path is skipped, and any cut keeps a position inside the buffer |
| CameraClient.TrimBuffer | camera_processing/esp_camera_client.py:211-218 | the trimmed buffer is a suffix of the buffer, unchanged up to 500,000 bytes |
| CameraClient.TrimBufferSpec | camera_processing/esp_camera_client.py:211-218 | an over-long buffer is kept from its last FF D8 when that is past index 0, and otherwise only its last 100,000 bytes are kept |
| CameraClient.TrimMayStayOverLimit | camera_processing/esp_camera_client.py:211-218 | one trim does not always bring the buffer under the limit |
| CameraClient.AppendChunk | camera_processing/esp_camera_client.py:207-218 | an empty chunk is not appended; a chunk is appended at the end and the result is a suffix of buffer plus chunk |
| CameraClient.AppendKeepsSuffix | camera_processing/esp_camera_client.py:207-218 | appending keeps the buffer a suffix of all bytes received |
| CameraClient.CutFacts | camera_processing/esp_camera_client.py:138-141 | the rest after a cut is a suffix of the buffer, and a decoded frame came from bytes of the buffer |
| CameraClient.ReadLoop | camera_processing/esp_camera_client.py:196-227 | the read loop: a frame exactly when the stream is still open; a stopped stream has an empty buffer; the reads left are a tail of the reads given; a frame already in the buffer is returned before anything is read |
| CameraClient.ReadLoopStopsAtFrame | camera_processing/esp_camera_client.py:196-202 | once a frame is found no further read is taken, whatever reads follow |
| CameraClient.ReadLoopErrorStops | camera_processing/esp_camera_client.py:224-227 | a failed read after chunks that gave no frame ends the loop with no frame, an empty buffer and the stream stopped, whatever follows |
| CameraClient.ReadLoopDecodes | camera_processing/esp_camera_client.py:196-227 | with an extraction step that only cuts frames from its buffer, a returned frame is the decoding of a contiguous run of the bytes seen before the loop followed by the chunks it read (the witnesses are returned) |
| CameraClient.ExtractorSound | camera_processing/esp_camera_client.py:115-176 | the buffer extraction only leaves a tail of its buffer and only returns frames decoded from a contiguous run of it |
| CameraClient.ReceivedAppend | camera_processing/esp_camera_client.py:207-209 | the bytes delivered by two runs of reads are those of the first followed by those of the second |
| CameraClient.CameraStreamClient.constructor | camera_processing/esp_camera_client.py:23-30 | a new client has no stream, is not connected, has an empty buffer and no boundary |
| CameraClient.CameraStreamClient.StartStream | camera_processing/esp_camera_client.py:66-113 | succeeds exactly on status 200: it stores the parsed boundary (keeping the old one when none is parsed), keeps the body iterator and empties the buffer; a non-200 response leaves the stream set and the rest unchanged; a failed request changes nothing |
| CameraClient.CameraStreamClient.ExtractFrame | camera_processing/esp_camera_client.py:115-176 | the boundary cut when it decodes, otherwise the fallback cut on the buffer left by the boundary path, otherwise None; the buffer only loses a prefix, and a returned frame decodes from bytes of the old buffer |
| CameraClient.CameraStreamClient.StopStream | camera_processing/esp_camera_client.py:246-256 | with a stream open: closes it, drops the iterator and empties the buffer; otherwise changes nothing |
| CameraClient.CameraStreamClient.Disconnect | camera_processing/esp_camera_client.py:262-266 | afterwards the client is not connected and no stream is open |
| CameraClient.CameraStreamClient.ReadChunk | camera_processing/esp_camera_client.py:205-227 | one `next()` of the iterator: a chunk is appended and trimmed; exhaustion or a read error stops the stream |
| CameraClient.CameraStreamClient.ReadUntilFrame | camera_processing/esp_camera_client.py:196-227 | the loop does exactly what `ReadLoop` says on the old buffer and the pending reads; a frame comes with the stream still open and the reads not taken still pending, and is the decoding of a contiguous run of the old buffer followed by the chunks read; otherwise the stream is stopped with an empty buffer; boundary and connection are unchanged |
| CameraClient.CameraStreamClient.GetFrame | camera_processing/esp_camera_client.py:178-232 | with a stream open it is the read loop on the buffer and the pending reads; otherwise the stream starts from the response: the boundary changes as in `StartStream`, a failed or non-200 response gives None with the buffer, pending reads and connection unchanged (a non-200 leaves the stream set, a failed request leaves it as it was), and a 200 connects and runs the read loop on the fresh body; a frame is the decoding of a contiguous run of the bytes received, and None leaves the stream stopped |
| CameraClient.CameraStreamClient.TakeUntilFrame | camera_processing/esp_camera_client.py:196-227 | the `while True` loop computes exactly `ReadLoop` on the old buffer and the pending reads, and the stream stays open exactly when a frame is returned |
| CameraClient.CameraStreamClient.StartAndRead | camera_processing/esp_camera_client.py:188-227 | the restart path of `get_frame`: the boundary changes as in `StartStream`; a failed or non-200 response gives None and leaves the buffer, pending reads and connection unchanged, with the stream set after a non-200 and as it was after a failed request; a 200 connects and gives the read loop on the body from an empty buffer, and a frame is the decoding of a contiguous run of the chunks it read |
| BaseNavigation.ToByte | on_board_cam/navigation/base_navigation.py:25-27 | `int((v+1)*127.5)` maps [-1, 1] into [0, 255], with -1 to 0, 0 to 127 and 1 to 255 |
| BaseNavigation.ToByteMonotone | on_board_cam/navigation/base_navigation.py:25-27 | a larger command never gives a smaller byte |
| BaseNavigation.RawSteering | on_board_cam/navigation/base_navigation.py:195-198 | with a positive gain, the raw term is positive exactly right of centre and negative exactly left of it |
| BaseNavigation.ClampSteering | on_board_cam/navigation/base_navigation.py:203 | within the maximum steering, and unchanged when already within it |
| BaseNavigation.Quantize | on_board_cam/navigation/base_navigation.py:205-206 | `round(s / q) * q` applied only to a nonzero value |
| BaseNavigation.CalculateSteering | on_board_cam/navigation/base_navigation.py:190-208 | no frame width gives 0; a centred target gives 0; a raw steering inside the dead zone gives 0 |
| BaseNavigation.QuantizeIsMultiple | on_board_cam/navigation/base_navigation.py:205-206 | the quantised steering is a whole multiple of the quantisation step |
| BaseNavigation.SteeringIsMultipleOfStep | on_board_cam/navigation/base_navigation.py:190-208 | every steering output is a multiple of the step |
| BaseNavigation.QuantizeNear | on_board_cam/navigation/base_navigation.py:206 | quantising moves the value by at most half a step |
| BaseNavigation.QuantizeSign | on_board_cam/navigation/base_navigation.py:206 | quantising never flips the sign |
| BaseNavigation.QuantizeWithinMultiple | on_board_cam/navigation/base_navigation.py:203-206 | a value within a whole number of steps stays within it after quantising |
| BaseNavigation.SteeringFollowsError | on_board_cam/navigation/base_navigation.py:195-206 | a target right of centre never steers left, and one left of centre never steers right |
| BaseNavigation.SteeringBounded | on_board_cam/navigation/base_navigation.py:203-206 | the clamp keeps the steering within the maximum; quantising can exceed it by up to half a step, and cannot when the maximum is a multiple of the step |
| BaseNavigation.DefaultSteeringWithinMax | on_board_cam/navigation/base_navigation.py:52-59 | with the default maximum 0.6 and step 0.05, steering stays within 0.6 |
| BaseNavigation.ManualInput | on_board_cam/navigation/base_navigation.py:210-222 | w/s and a/d move one channel by at most 0.1 and keep it in [-1, 1]; space zeroes both; other keys change nothing |
| BaseNavigation.ModeKey | on_board_cam/navigation/base_navigation.py:307-315 | `p` toggles autonomous mode only outside manual mode; `m` toggles manual mode and entering it switches autonomous off; manual and autonomous are never both on |
| BaseNavigation.ModesAfter | on_board_cam/navigation/base_navigation.py:307-315 | the modes after a run of keys stay exclusive, and keys other than `p` and `m` leave them unchanged |
| BaseNavigation.LeavingManualPauses | on_board_cam/navigation/base_navigation.py:311-315 | leaving manual mode lands in the paused state, not in autonomous mode |
| BaseNavigation.FrameCommand | on_board_cam/navigation/base_navigation.py:276-296 | manual mode sends the manual command, autonomous mode the detector's command, paused sends zero |
| BaseNavigation.Controller.constructor | on_board_cam/navigation/base_navigation.py:68-82 | starts autonomous, not manual, running, with zero commands |
| BaseNavigation.Controller.SendMotorCommand | on_board_cam/navigation/base_navigation.py:185-188 | stores both commands clamped to [-1, 1] and changes nothing else |
| BaseNavigation.Controller.ProcessManualInput | on_board_cam/navigation/base_navigation.py:210-222 | the manual command becomes `ManualInput` of the old one |
| BaseNavigation.Controller.Step | on_board_cam/navigation/base_navigation.py:276-318 | one frame: the command for the current mode is sent clamped, the key updates the modes, and in manual mode the manual command; quits exactly on `q` |
| BaseNavigation.Controller.Run | on_board_cam/navigation/base_navigation.py:267-330 | frames are processed until a read fails or up to and including the first `q`; the modes are those the processed keys lead to (`ModesAfter`); on exit the loop is stopped and the command is zero |
| BaseNavigation.GatedSender | on_board_cam/navigation/base_navigation.py:162-183 | the sender loop writes exactly the change-gated byte pairs |
| BaseNavigation.Encode | on_board_cam/navigation/base_navigation.py:170-175 | commands in [-1, 1] become two bytes, and a zero command becomes 127, 127 |
| BaseNavigation.GatedWritesNoRepeat | on_board_cam/navigation/base_navigation.py:173-178 | no write repeats the pair written just before it |
| BaseNavigation.GatedWritesLatest | on_board_cam/navigation/base_navigation.py:169-178 | the last pair written is the encoding of the last command seen while connected, or nothing was written because that pair was already the last one sent |
| BaseNavigation.NothingWrittenWhenDisconnected | on_board_cam/navigation/base_navigation.py:169 | without a connection nothing is written |
| BaseNavigation.GatedWritesAreBytes | on_board_cam/navigation/base_navigation.py:170-175 | commands in [-1, 1] are written as bytes |
| ArucoDetector.IndexOf | on_board_cam/camera_processing/aruco_detector.py:66 | the position of a name in the list, or None exactly when it is absent |
| ArucoDetector.NewDetector | on_board_cam/camera_processing/aruco_detector.py:66-88 | a detector exists exactly for the 16 known dictionary names, and it stores the settings as given |
| ArucoDetector.DictionaryExamples | on_board_cam/camera_processing/aruco_detector.py:29-46 | the default 6x6 dictionary is accepted, an 8x8 one is not, and there are 16 names |
| ArucoDetector.PerceivedWidth | on_board_cam/camera_processing/aruco_detector.py:122-124 | the mean of the top and bottom edges: between them, and positive when both are |
| ArucoDetector.EstimateDistance | on_board_cam/camera_processing/aruco_detector.py:109-129 | distance times perceived width equals marker size times focal length |
| ArucoDetector.DistanceInverselyProportional | on_board_cam/camera_processing/aruco_detector.py:122-127 | a marker that looks wider is estimated no farther, and estimates are positive |
| ArucoDetector.Center | on_board_cam/camera_processing/aruco_detector.py:262 | the corner mean lies within the corners' bounding box |
| ArucoDetector.MarkerInfos | on_board_cam/camera_processing/aruco_detector.py:254-278 | no ids gives no entries; otherwise one entry per marker, in order, with its own id and corners |
| ArucoDetector.GetMarkerInfo | on_board_cam/camera_processing/aruco_detector.py:239-278 | the loop builds exactly `MarkerInfos` |
| ArucoDetector.MarkerInfoDescribesMarker | on_board_cam/camera_processing/aruco_detector.py:259-273 | each entry's distance satisfies the distance formula for its marker, and its centre is the mean of the four corners |
| ArucoDetector.Padding | on_board_cam/camera_processing/aruco_detector.py:303 | `max(20, size // 10)`: at least 20, at least a tenth of the size, and one of the two |
| ArucoDetector.PaddedMarkerSide | on_board_cam/camera_processing/aruco_detector.py:294-311 | only known dictionaries give a marker; the padded side is at least size + 40, and at most 1.2 times the size from 200 up |
| TargetDetectors.ArucoTargetDefaults | on_board_cam/navigation/target_detectors.py:59-60 | the default target distance is 50 cm and the tolerance 3 cm |
| TargetDetectors.ArucoDetect | on_board_cam/navigation/target_detectors.py:62-100 | detected exactly when ids are present; then the first marker's id, distance and centre (the mean of its corners) are reported with the target settings |
| TargetDetectors.LargestIndex | on_board_cam/navigation/target_detectors.py:127 | `max(contours, key=area)`: an index whose area is at least every other |
| TargetDetectors.LargestIndexIsFirst | on_board_cam/navigation/target_detectors.py:127 | on ties the first largest contour is chosen |
| TargetDetectors.ColorDetect | on_board_cam/navigation/target_detectors.py:115-166 | None (the mask inset raising) exactly when the largest contour qualifies and the frame is smaller than the inset; otherwise detected exactly when the largest contour reaches the minimum area and has a nonzero `m00`, with its truncated centroid, its area and its area ratio `area / (rows * cols)` |
| TargetDetectors.AreaRatioInUnit | on_board_cam/navigation/target_detectors.py:154 | with a positive minimum area and contours no bigger than the frame, a detected target's area ratio is in (0, 1] |
| TargetDetectors.InsetFits | on_board_cam/navigation/target_detectors.py:142-144 | the 240 x 320 mask inset fits exactly when the frame has at least 250 rows and 330 columns |
| TargetDetectors.SliceLen | on_board_cam/navigation/target_detectors.py:144 | a Python slice of an axis is never longer than the axis |
| UnifiedNavigation.DetectorIndex | on_board_cam/navigation/unified_navigation.py:54-55 | `list.index`: the detector's position, or None exactly for an unknown name |
| UnifiedNavigation.NextDetector | on_board_cam/navigation/unified_navigation.py:78-80 | the next index is always a valid detector index |
| UnifiedNavigation.SwitchTwiceRestores | on_board_cam/navigation/unified_navigation.py:78-80 | with two detectors, switching always changes the detector and switching twice restores it |
| UnifiedNavigation.Decide | on_board_cam/navigation/unified_navigation.py:88-195 | no detection gives a zero command |
| UnifiedNavigation.ArucoRule | on_board_cam/navigation/unified_navigation.py:107-124 | too far drives forward at base throttle; too near reverses at base times multiplier with steering inverted; within tolerance stops but keeps steering |
| UnifiedNavigation.ColorRule | on_board_cam/navigation/unified_navigation.py:140-154 | an area ratio below target by more than 0.01 drives forward; above it by more than 0.01 reverses at half of base times multiplier with steering inverted; otherwise stops |
| UnifiedNavigation.SteeringFlipsOnlyBackward | on_board_cam/navigation/unified_navigation.py:107-154 | the steering keeps its size and is inverted exactly when reversing |
| UnifiedNavigation.UnifiedController.constructor | on_board_cam/navigation/unified_navigation.py:43-66 | starts with the given detector index, navigation parameters and frame width |
| UnifiedNavigation.UnifiedController.SwitchDetector | on_board_cam/navigation/unified_navigation.py:78-80 | the index advances cyclically |
| UnifiedNavigation.UnifiedController.Step | on_board_cam/navigation/unified_navigation.py:227-280 | one frame: the current detector's decision (or the manual or zero command) is sent clamped, `t` switches detector and `p`/`m` update the modes |
| ArucoNavigation.ToByteUnclamped | aruco_navigation.py:45-47 | this `to_byte` does not clamp: 1.5 gives 318 and -1.5 gives -63 |
| ArucoNavigation.CalculateSteering | aruco_navigation.py:212-236 | no width gives 0; otherwise the proportional steering clamped to the maximum, without dead zone or quantisation |
| ArucoNavigation.NoDeadZone | aruco_navigation.py:225-236 | any off-centre target steers toward it |
| ArucoNavigation.Throttle | aruco_navigation.py:270-281 | beyond tolerance and too far: base throttle; beyond tolerance and too near: minus half of it; within tolerance: stop |
| ArucoNavigation.ProcessFrame | aruco_navigation.py:238-321 | no marker gives a zero command; a marker before any frame width is known fails, as the overlay raises; otherwise throttle and steering from the first marker's distance and centre |
| ArucoNavigation.AutonomousCommandInUnit | aruco_navigation.py:238-321 | with throttle and maximum steering in [0, 1], any autonomous command produced and its bytes are in range even though `send_motor_command` does not clamp |
| ArucoNavigation.CommandStore.constructor | aruco_navigation.py:100-101 | both commands start at zero |
| ArucoNavigation.CommandStore.SendMotorCommand | aruco_navigation.py:196-210 | the clamped values are overwritten: the raw commands are stored |
| ArucoNavigation.AllWrites | aruco_navigation.py:180-191 | at most one write per sender cycle |
| ArucoNavigation.UngatedSender | aruco_navigation.py:178-194 | the loop writes the current pair on every connected cycle |
| ArucoNavigation.OneWritePerConnectedCycle | aruco_navigation.py:180-191 | exactly one write per connected cycle, and never fewer than the change-gated sender |
| ColorNavigation.DetectColorTarget | navigation/color_navigation.py:248-287 | no contours, an area under the minimum or `m00 == 0` give no target; otherwise the largest contour's area |
| ColorNavigation.AgreesWithTargetDetector | navigation/color_navigation.py:269-287 | finds a target exactly when the colour target detector does, with the same centroid and area; the detector raises (None) exactly when a target is found on a frame too small for the inset |
| ColorNavigation.Throttle | navigation/color_navigation.py:317-324 | too small drives forward; too large reverses at 0.3 of base; within 0.01 stops |
| ColorNavigation.ProcessFrame | navigation/color_navigation.py:289-367 | None exactly when the mask inset does not fit, or a target is found while the frame size is unknown or zero (the source raises); with the inset fitting, no target gives the zero command |
| ColorNavigation.SteeringNeverInverted | navigation/color_navigation.py:312-324 | with a known frame size and the inset fitting, the steering is the quantised steering even when reversing, and the throttle follows the area ratio |
| BleClient.ToByte | waypoint_marker/ble_client.py:26-30 | `int(v*128+128)` clamped to [0, 255]: -1 to 0, 0 to 128, and 255 from 0.9921875 up |
| BleClient.ToByteMonotone | waypoint_marker/ble_client.py:26-30 | a larger command never gives a smaller byte |
| BleClient.Normalize | waypoint_marker/ble_client.py:78-84 | an int becomes one byte, a list its bytes; other types raise TypeError and out-of-range values ValueError |
| BleClient.AfterSetChar | waypoint_marker/ble_client.py:86-103 | a call either changes nothing or writes the value and records it with its time |
| BleClient.SimulationWritesNothing | waypoint_marker/ble_client.py:87-89 | without a client nothing is written or cached |
| BleClient.ForcedWriteGoesOut | waypoint_marker/ble_client.py:92-101 | a forced write on a connected client always goes out |
| BleClient.RepeatIsSkipped | waypoint_marker/ble_client.py:92-93 | after a write, sending the same bytes again unforced is skipped |
| BleClient.TooSoonIsSkipped | waypoint_marker/ble_client.py:96-99 | an unforced write within the minimum interval of the last one is skipped |
| BleClient.WriteIsLocal | waypoint_marker/ble_client.py:101-103 | a write touches only its own characteristic's cache entries |
| BleClient.LastSent | waypoint_marker/ble_client.py:102 | the last bytes sent to a characteristic, None exactly when none were sent |
| BleClient.LastSentAppend | waypoint_marker/ble_client.py:101-103 | a new write becomes the last value of its own characteristic and no other |
| BleClient.CacheAgreesPreserved | waypoint_marker/ble_client.py:101-103 | the value cache always holds the last bytes actually written to each characteristic |
| BleClient.PackInt16 | waypoint_marker/ble_client.py:113-117 | two bytes, little-endian |
| BleClient.UnpackInt16 | waypoint_marker/ble_client.py:113-117 | the receiver's int16 reading of two bytes lies in the int16 range |
| BleClient.Int16RoundTrip | waypoint_marker/ble_client.py:113-117 | unpacking a packed int16 value gives it back |
| BleClient.Int16Wraps | waypoint_marker/ble_client.py:113-117 | a value just past the range wraps: 32768 arrives as -32768 |
| BleClient.PackWaypoint | waypoint_marker/ble_client.py:105-117 | six bytes: x, y and omega, each truncated after scaling by 10 and packed little-endian |
| BleClient.WaypointRoundTrip | waypoint_marker/ble_client.py:105-117 | the receiver reads back the three scaled values when they fit in int16 |
| BleClient.CarBleClient.constructor | waypoint_marker/ble_client.py:33-41 | not connected, empty caches |
| BleClient.CarBleClient.Connect | waypoint_marker/ble_client.py:55-68 | connected exactly when the device was found, and the caches are untouched |
| BleClient.CarBleClient.SetChar | waypoint_marker/ble_client.py:77-103 | the value is normalised first; on success the caches and writes follow `AfterSetChar`, and an error changes nothing |
| BleClient.CarBleClient.SetWaypoint | waypoint_marker/ble_client.py:105-123 | the packed waypoint is written forced to characteristic 5 whenever connected |
| BleClient.CarBleClient.SetLed | waypoint_marker/ble_client.py:125-126 | the state goes to characteristic 1, and a state outside a byte raises ValueError |
| BleClient.CarBleClient.SetCommand | waypoint_marker/ble_client.py:128-141 | throttle, steering and omega go as `to_byte` of the value to characteristics 2, 3 and 4 |
| ControlGuiV2.WithCommands | waypoint_marker/unified_control_gui_v2.py:657-669 | the three commands are stored clamped to [-1, 1], and nothing else changes |
| ControlGuiV2.ChangeModeSpec | waypoint_marker/unified_control_gui_v2.py:487-574 | the state after `change_mode` (its properties are the lemmas below) |
| ControlGuiV2.SameModeIsNoOp | waypoint_marker/unified_control_gui_v2.py:489-490 | changing to the current mode changes nothing |
| ControlGuiV2.ChangeZeroesCommands | waypoint_marker/unified_control_gui_v2.py:506-508 | every real mode change zeroes the three commands |
| ControlGuiV2.CameraKeptBetweenCameraModes | waypoint_marker/unified_control_gui_v2.py:511-531 | moving between ArUco, colour and filter modes keeps the open camera and its frame size |
| ControlGuiV2.CameraReleasedOnlyLeavingCameraModes | waypoint_marker/unified_control_gui_v2.py:511-523 | an open camera is released exactly when leaving a camera mode for a mode without one |
| ControlGuiV2.CoherentPreserved | waypoint_marker/unified_control_gui_v2.py:487-574 | a task runs exactly in the looping modes; the new mode is the requested one, or stopped when the camera failed to open |
| ControlGuiV2.ControlWindow.constructor | waypoint_marker/unified_control_gui_v2.py:90-113 | starts stopped, without task or camera, with zero commands |
| ControlGuiV2.ControlWindow.SendMotorCommand | waypoint_marker/unified_control_gui_v2.py:657-669 | the window's state becomes `WithCommands` |
| ControlGuiV2.ControlWindow.InitCamera | waypoint_marker/unified_control_gui_v2.py:609-644 | succeeds exactly when the camera opens, and records the frame size when a frame is read |
| ControlGuiV2.ControlWindow.ChangeMode | waypoint_marker/unified_control_gui_v2.py:487-574 | the window follows the mode-change rule, including the fall back to stopped |
| ControlGuiV2.Steering | waypoint_marker/unified_control_gui_v2.py:752-761 | dead zone, then clamp: within the maximum, zero inside the dead zone, otherwise the raw or the clamped value |
| ControlGuiV2.ArucoLoopCommand | waypoint_marker/unified_control_gui_v2.py:733-795 | no marker gives zero; a marker without a frame width gives no command; within tolerance stop; otherwise forward or half-speed reverse, with steering inverted exactly when reversing |
| ControlGuiV2.ArucoThrottleAsNavigator | waypoint_marker/unified_control_gui_v2.py:763-769 | the GUI's throttle equals the standalone ArUco navigator's |
| ControlGuiV2.ColorLoopCommand | waypoint_marker/unified_control_gui_v2.py:836-888 | no usable contour (area not above the minimum, or `m00` not positive) gives zero; a usable one without a frame width gives no command; otherwise base throttle with dead-zone steering toward the centroid |
| ControlGuiV2.ColorLoopDiffersFromDetector | waypoint_marker/unified_control_gui_v2.py:849-852 | a contour of exactly the minimum area is ignored here but detected by the colour target detector |
| ControlGuiV2.ColorLoopNeverReverses | waypoint_marker/unified_control_gui_v2.py:870-871 | the colour loop only drives forward or stops |
| ControlGuiV2.BleSender | waypoint_marker/unified_control_gui_v2.py:1126-1181 | the loop writes exactly the change-gated triples |
| ControlGuiV2.SenderWrites | waypoint_marker/unified_control_gui_v2.py:1126-1181 | at most one triple written per sender cycle |
| ControlGuiV2.SenderWritesAreBytes | waypoint_marker/unified_control_gui_v2.py:1137-1148 | every written triple is three bytes |
| ControlGuiV2.SenderWritesNoRepeat | waypoint_marker/unified_control_gui_v2.py:1141-1156 | a connected sender never repeats the triple it wrote last |
| ControlGuiV2.ClickToCm | waypoint_marker/unified_control_gui_v2.py:1008-1009 | the click scales to the workspace with the y axis flipped |
| ControlGuiV2.ClickCorners | waypoint_marker/unified_control_gui_v2.py:1008-1009 | the bottom-left corner maps to the origin, the top-right to the workspace size, and canvas clicks stay in the workspace |
| ControlGuiV2.SendWaypoint | waypoint_marker/unified_control_gui_v2.py:1027-1055 | bytes are sent exactly when connected: six of them, with a zero omega |
| ControlGuiV2.ClickArrives | waypoint_marker/unified_control_gui_v2.py:1008-1053 | the receiver decodes the clicked point, scaled by 10 and truncated, with omega 0 |
| ControlGui.Steps | waypoint_marker/unified_control_gui.py:496-498 | the forward distance from one mode to another around the cycle of four |
| ControlGui.CycleMode | waypoint_marker/unified_control_gui.py:494-512 | the next available mode after the current one, skipping exactly the unavailable ones between them |
| ControlGui.ClickToCm | waypoint_marker/unified_control_gui.py:556-564 | the click scales to the 180 by 120 cm workspace with the y axis flipped, and rounding to one decimal moves it by at most 0.05 |
| ControlGui.ClickCorners | waypoint_marker/unified_control_gui.py:556-564 | the bottom-left corner maps to the origin, the top-right to the workspace size |
| ControlGui.OnWaypointClick | waypoint_marker/unified_control_gui.py:550-609 | without a car nothing happens; otherwise the rounded point is sent as a forced waypoint write |
| ControlGui.TickCalls | waypoint_marker/unified_control_gui.py:781-818 | each pass ends with the LED call; on Escape three zero commands follow |
| ControlGui.TickCallsOnChange | waypoint_marker/unified_control_gui.py:793-807 | each channel is sent exactly when it changed from the last sent value, and the LED is always sent |
| ControlGui.ManualPass | waypoint_marker/unified_control_gui.py:781-818 | one pass makes exactly the calls of `TickCalls` and updates the last sent values |
| ControlGui.ManualControlLoop | waypoint_marker/unified_control_gui.py:770-823 | the loop makes exactly the calls of its passes |
| ControlGui.SteadyInputOnlyLed | waypoint_marker/unified_control_gui.py:793-808 | steady input sends only the LED |
| ControlGui.EscapeResendsHeldCommand | waypoint_marker/unified_control_gui.py:810-818 | after Escape a held throttle is sent again on the next pass |
| ControlGui.InactiveSendsNothing | waypoint_marker/unified_control_gui.py:781 | outside manual mode or without a car nothing is sent |
| CombinedInput.KeyPress | waypoint_marker/combined_input.py:167-178 | the key becomes held; it is a press edge only if it was not held; a toggle key flips |
| CombinedInput.KeyRelease | waypoint_marker/combined_input.py:180-187 | the key is no longer held and is a release edge |
| CombinedInput.PressReleaseRoundTrip | waypoint_marker/combined_input.py:167-187 | pressing and releasing restores the held set and leaves both edges |
| CombinedInput.AutoRepeatIsNotAnEdge | waypoint_marker/combined_input.py:170-173 | an auto-repeated press adds no new edge |
| CombinedInput.TwoPressesRestoreToggle | waypoint_marker/combined_input.py:175-178 | one press flips a toggle and a second press flips it back |
| CombinedInput.ButtonDown | waypoint_marker/combined_input.py:87-97 | a button becomes held; a press edge and a toggle flip happen only when it was not held |
| CombinedInput.ButtonUp | waypoint_marker/combined_input.py:87-97 | a button is released, with a release edge only when it was held |
| CombinedInput.ButtonName | waypoint_marker/combined_input.py:59-61 | the friendly name of a known code, the code itself otherwise |
| CombinedInput.HandleEvent | waypoint_marker/combined_input.py:87-158 | a key event holds its button exactly on state 1; a known axis records its raw value; other events and unknown axes change nothing |
| CombinedInput.HandleEvents | waypoint_marker/combined_input.py:86-158 | the events of one batch, applied in order |
| CombinedInput.HandleEventsAppend | waypoint_marker/combined_input.py:86-158 | handling two batches in turn is handling their concatenation |
| CombinedInput.DpadHorizontal | waypoint_marker/combined_input.py:120-139 | negative holds left, positive holds right, and the raw value is recorded |
| CombinedInput.DpadVertical | waypoint_marker/combined_input.py:140-158 | negative holds up, positive holds down, and the raw value is recorded |
| CombinedInput.ButtonToggleOnDownEdgeOnly | waypoint_marker/combined_input.py:89-97 | a repeated down event changes nothing; a new one flips the toggle |
| CombinedInput.OtherEventsIgnored | waypoint_marker/combined_input.py:87-158 | events of other types change nothing |
| CombinedInput.ConsumeEdge | waypoint_marker/combined_input.py:213-237 | reports an edge seen on either device and removes it from the gamepad first, else from the keyboard |
| CombinedInput.EdgeReportedAtMostOncePerDevice | waypoint_marker/combined_input.py:213-237 | a third query always reports no edge; a second one reports an edge only if both devices had it |
| CombinedInput.IsPressed | waypoint_marker/combined_input.py:193-200 | held on the gamepad or else on the keyboard |
| CombinedInput.GetAxis | waypoint_marker/combined_input.py:239-255 | the raw value without normalising; normalised, a stick axis lies in [-1, 1], a trigger in [0, 1], and any other axis is passed through |
| CombinedInput.StickRoundInRange | waypoint_marker/combined_input.py:245-247 | rounding to one decimal keeps a stick value in [-1, 1] |
| CombinedInput.StickEnds | waypoint_marker/combined_input.py:245-247 | a stick reads 0 at rest, 1 at 32767 and -1 at -32768 |
| CombinedInput.GameSide | waypoint_marker/combined_input.py:262-265 | an axis name reads the normalised axis; any other name (or none) reads 1 exactly while held and 0 otherwise |
| CombinedInput.BipolarCtrl | waypoint_marker/combined_input.py:258-269 | the combined control always lies in [-1, 1] |
| CombinedInput.KeysDriveBipolarCtrl | waypoint_marker/combined_input.py:258-269 | with no gamepad, holding only the high key gives 1 and only the low key gives -1 |
| CombinedInput.InputState.constructor | waypoint_marker/combined_input.py:9-19 | nothing held, no edges, no toggles |
| CombinedInput.InputState.OnPress | waypoint_marker/combined_input.py:167-178 | the keyboard state becomes `KeyPress` and the gamepad is untouched |
| CombinedInput.InputState.OnRelease | waypoint_marker/combined_input.py:180-187 | the keyboard state becomes `KeyRelease` and the gamepad is untouched |
| CombinedInput.InputState.OnGamepadEvents | waypoint_marker/combined_input.py:66-158 | the gamepad state follows the events in order |
| CombinedInput.InputState.OnGamepadLost | waypoint_marker/combined_input.py:71-80 | losing the gamepad clears its held buttons and axes |
| CombinedInput.InputState.IsToggled | waypoint_marker/combined_input.py:202-211 | the gamepad toggle first, then the keyboard's; an unknown keyboard name is registered as off |
| CombinedInput.InputState.RisingEdge | waypoint_marker/combined_input.py:213-224 | reports and consumes one press edge |
| CombinedInput.InputState.FallingEdge | waypoint_marker/combined_input.py:226-237 | reports and consumes one release edge |
| FrameProcessing.Next | camera_processing/frame_processor.py:62-71 | a failing step leaves the frame as it was, a working one replaces it |
| FrameProcessing.RunSteps | camera_processing/frame_processor.py:62-71 | the steps in insertion order, each on the output of the one before |
| FrameProcessing.RunStepsAppend | camera_processing/frame_processor.py:62-71 | running two pipelines one after the other is running them joined |
| FrameProcessing.AllFailingIsIdentity | camera_processing/frame_processor.py:66-71 | a pipeline whose every step fails returns the frame unchanged |
| FrameProcessing.FailingStepSkipped | camera_processing/frame_processor.py:66-71 | a failing step is as if it were not in the pipeline |
| FrameProcessing.ProcessSpec | camera_processing/frame_processor.py:49-71 | disabled or without a frame: the input is returned; a frame always gives a frame |
| FrameProcessing.FrameProcessor.constructor | camera_processing/frame_processor.py:29-32 | empty pipeline, enabled |
| FrameProcessing.FrameProcessor.AddStep | camera_processing/frame_processor.py:34-42 | the step goes at the end of the pipeline |
| FrameProcessing.FrameProcessor.ClearPipeline | camera_processing/frame_processor.py:44-47 | the pipeline becomes empty |
| FrameProcessing.FrameProcessor.Enable | camera_processing/frame_processor.py:73-75 | enables and keeps the pipeline |
| FrameProcessing.FrameProcessor.Disable | camera_processing/frame_processor.py:77-79 | disables and keeps the pipeline |
| FrameProcessing.FrameProcessor.Process | camera_processing/frame_processor.py:49-71 | the loop computes exactly `ProcessSpec` |
| FrameProcessing.PresetSteps | camera_processing/frame_processor.py:244-276 | the original mode has no step, and every other mode exactly one |
| FrameProcessing.PresetDefaults | camera_processing/frame_processor.py:251-273 | missing keyword arguments take the defaults 100/200, 5, 30, 1.5 and 127; given ones are used |
| FrameProcessing.CreateProcessor | camera_processing/frame_processor.py:230-276 | a fresh enabled processor holding the preset's steps |
| FrameProcessing.OriginalIsPassthrough | camera_processing/frame_processor.py:244-247 | the original mode returns every frame unchanged |
| Launch.ProcessNode.constructor | launch.py:30-49 | not started, not alive, no restarts |
| Launch.ProcessNode.Start | launch.py:51-69 | when `Popen` succeeds the node has a running process; when it raises the node is as it was; the restart count never changes |
| Launch.ProcessNode.Stop | launch.py:71-80 | acts exactly when the node was alive; afterwards it is not alive |
| Launch.ProcessNode.Exited | launch.py:82-84 | the environment ends the process: not alive any more |
| Launch.ProcessNode.CheckAndRestart | launch.py:86-93 | acts exactly on a dead node with restart on and fewer than 3 restarts so far: the count goes up by one, then the start either succeeds (restarted, alive) or raises (the exception escapes with the node still dead); otherwise nothing changes |
| Launch.StopOrder | launch.py:122-133 | the indices stopped are node indices |
| Launch.StopOrderIsReverse | launch.py:124-133 | exactly the live nodes are stopped, in strictly decreasing index order |
| Launch.NoneAliveStopsNothing | launch.py:124-133 | with nothing alive nothing is stopped |
| Launch.AliveFlags | launch.py:82-84 | one liveness flag per node |
| Launch.CountAlive | launch.py:141-157 | zero exactly when no node is alive |
| Launch.LaunchSystem.constructor | launch.py:99-101 | no nodes, not running |
| Launch.LaunchSystem.AddNode | launch.py:103-105 | the node goes at the end of the list |
| Launch.LaunchSystem.StartAll | launch.py:107-120 | the system is running; the nodes before the first whose `Popen` raises are all alive, that one and the later ones are untouched, and no restart count changes |
| Launch.LaunchSystem.StopAt | launch.py:124-126 | stops one node, and the others keep their liveness |
| Launch.LaunchSystem.StopNodes | launch.py:124-133 | stops exactly the live nodes in reverse order, and leaves none alive |
| Launch.LaunchSystem.StopAll | launch.py:122-133 | not running, every node stopped in reverse order, restart counts kept |
| Launch.LaunchSystem.ApplyExits | launch.py:82-84 | between checks the processes at the chosen positions end: those nodes are no longer alive, the others are unchanged, and no restart count changes |
| Launch.LaunchSystem.CheckNodes | launch.py:142-146 | each node changes exactly as `CheckNode` says: a dead node with restart on and budget left is started again with one more restart, and no other node changes |
| Launch.LaunchSystem.MonitorLoop | launch.py:135-157 | the rounds stop after the first one that leaves no node alive, or when the rounds (standing for the interrupt) run out, and never start when the system is not running; `stop_all` then stops exactly what is still alive in reverse order (nothing after the all-dead exit); the system is not running and every restart count is the one the rounds give |
| Launch.LaunchSystem.RunRounds | launch.py:138-152 | the `while` loop: its outcome is `MonitorRounds` of the node states, and each node ends as `NodeAfter` says for the rounds completed |
| Launch.LaunchSystem.Round | launch.py:139-152 | one round: each node ends as `NodeAfter` says one round later, and the liveness flags are `AliveAfter` for that round |
| Launch.LaunchSystem.CheckAt | launch.py:142-146 | the check of one node, its start succeeding; every other node is untouched |
| Launch.LaunchSystem.ExitAt | launch.py:82-84 | the process of one node ends; every other node is untouched |
| Launch.MonitorRounds | launch.py:138-152 | the loop ends after the first round that leaves no node alive and reports that, or runs every round; no earlier round left all nodes dead |
| Launch.RoundsKeepBudget | launch.py:86-93 | monitoring never lowers a restart count, never takes it past 3, and never changes whether the node restarts |
| Launch.CrashingNodeGivesUp | launch.py:86-93 | a node whose process ends every round is restarted once per round until three restarts are spent, then stays dead; a node without restart is never restarted |
| Launch.FirstFailure | launch.py:115-116 | the position of the first node whose start raises, or the number of nodes: every earlier start succeeds |
| Launch.FirstFailureFrom | launch.py:115-116 | the first failing position from a given one on, with none failing before it |
| CalibrateColorMask.AsWrittenExcludesSample | on_board_cam/utils/calibrate_color_mask.py:98-103 | a hue of 5 or a saturation of 250 gives a range that excludes the clicked colour |
| CalibrateColorMask.SampleRangeAsWritten | on_board_cam/utils/calibrate_color_mask.py:86-103 | the 8-bit click rule: bounds in the channel limits, and the lower bound is at or below the sample exactly when the sample is at least the tolerance, the upper bound at or above it exactly when sample plus tolerance does not pass 255 (and, for hue, the sample is a valid hue) |
| CalibrateColorMask.SampleRange | on_board_cam/utils/calibrate_color_mask.py:93-103 | the range contains the sample (the hue when it is a valid OpenCV hue) and lies in the channel limits; each bound is at most its tolerance from the sample on its side, and is either exactly a tolerance away or the channel's end |
| CalibrateColorMask.AgreesAwayFromWrap | on_board_cam/utils/calibrate_color_mask.py:98-103 | samples at least a tolerance away from 0 and 255 give the same range both ways |
| CalibrateColorMask.LoadRange | on_board_cam/utils/calibrate_color_mask.py:59-75 | no file, or no `color_tracking` section, keeps the defaults |
| CalibrateColorMask.SavedSection | on_board_cam/utils/calibrate_color_mask.py:146-151 | the section gains `hsv_lower` and `hsv_upper` for the range and keeps every other key |
| CalibrateColorMask.SaveLoadRoundTrip | on_board_cam/utils/calibrate_color_mask.py:59-75 | loading the saved configuration gives back the saved range |
| CalibrateColorMask.ColorCalibrator.constructor | on_board_cam/utils/calibrate_color_mask.py:36-57 | the configured range, or the defaults |
| CalibrateColorMask.ColorCalibrator.MouseCallback | on_board_cam/utils/calibrate_color_mask.py:77-103 | a left click sets the sample's range; other events change nothing |
| CalibrateColorMask.ColorCalibrator.Reset | on_board_cam/utils/calibrate_color_mask.py:260-264 | back to H 0 to 10, S and V 100 to 255 |
| CalibrateColorMask.ColorCalibrator.SaveToConfig | on_board_cam/utils/calibrate_color_mask.py:134-155 | only the two range lists of the section are set; the section is created if missing, and every other key and section is kept |
| CalibrateColorMask.ColorCalibrator.HandleKey | on_board_cam/utils/calibrate_color_mask.py:253-270 | `q` quits, `s` saves, `r` resets; nothing else changes the range |
| CalibrateFocalLength.FocalLength | utils/calibrate_focal_length.py:135-138 | focal length times marker size equals perceived width times distance |
| CalibrateFocalLength.FocalLengthRoundTrip | utils/calibrate_focal_length.py:135-138 | a detector with the computed focal length estimates exactly the measured distance |
| CalibrateFocalLength.PassRecord | utils/calibrate_focal_length.py:111-144 | a pass records one measurement exactly on space with a marker in view and a number typed |
| CalibrateFocalLength.RecordedAreConsistent | utils/calibrate_focal_length.py:130-144 | every recorded focal length satisfies the formula for its own width and distance |
| CalibrateFocalLength.Recorded | utils/calibrate_focal_length.py:111-144 | the measurements of the passes before the first quit, at most one per pass |
| CalibrateFocalLength.UnusablePassesRecordNothing | utils/calibrate_focal_length.py:114-127 | passes without a marker or without a number record nothing |
| CalibrateFocalLength.Focals | utils/calibrate_focal_length.py:167 | the focal lengths of the measurements, in order |
| CalibrateFocalLength.MeanFocal | utils/calibrate_focal_length.py:159-168 | None exactly when nothing was recorded |
| CalibrateFocalLength.SumBounds | utils/calibrate_focal_length.py:167-168 | a sum of values between two bounds lies between the count times each bound |
| CalibrateFocalLength.MeanWithinMeasurements | utils/calibrate_focal_length.py:167-168 | the mean lies between the smallest and largest recorded focal length |
| CalibrateFocalLength.RecordPass | utils/calibrate_focal_length.py:111-144 | one pass records exactly `PassRecord` |
| CalibrateFocalLength.Calibrate | utils/calibrate_focal_length.py:62-188 | the measurements are those of the passes before `q`, and the result is their mean or None |
| MarkerSheet.DictionaryFor | on_board_cam/utils/generate_aruco_markers.py:33-41 | after stripping whitespace, "1" gives 4x4, "3" gives 7x7, and anything else (empty included) gives 6x6 |
| MarkerSheet.ChoiceIsAccepted | on_board_cam/utils/generate_aruco_markers.py:35-41 | every choice names a dictionary the detector accepts |
| MarkerSheet.NumSheets | on_board_cam/utils/generate_aruco_markers.py:76 | `(n + 5) // 6` sheets |
| MarkerSheet.NumSheetsIsCeiling | on_board_cam/utils/generate_aruco_markers.py:73-77 | `(n + 5) // 6` is the ceiling of n / 6: enough sheets, with no empty one |
| MarkerSheet.PlacementOf | on_board_cam/utils/generate_aruco_markers.py:79-104 | each marker index has a slot on a sheet whose slot index is that marker |
| MarkerSheet.SlotDecomposition | on_board_cam/utils/generate_aruco_markers.py:94 | an index splits into sheet, row and column |
| MarkerSheet.SlotIndexBijection | on_board_cam/utils/generate_aruco_markers.py:79-97 | slots and indices correspond one to one |
| MarkerSheet.SlotX | on_board_cam/utils/generate_aruco_markers.py:103 | a square in any of the three columns lies inside the side margins |
| MarkerSheet.SlotY | on_board_cam/utils/generate_aruco_markers.py:104 | a square in either of the two rows lies inside the top and bottom margins |
| MarkerSheet.SquaresInsideSheet | on_board_cam/utils/generate_aruco_markers.py:81-112 | every 260-pixel square and its label lie inside the sheet, and neighbouring squares do not overlap |
| MarkerSheet.LayOutSheets | on_board_cam/utils/generate_aruco_markers.py:79-97 | the nested loops place markers 0 to n-1, each exactly once and in order |
| MarkerSheet.LayOutRow | on_board_cam/utils/generate_aruco_markers.py:93-97 | the column loop of one row appends the markers of that row's slots in order, stopping at the count |
| StreamQuality.Pow256 | utils/check_stream_quality.py:35 | powers of 256 are positive |
| StreamQuality.FourCCChar | utils/check_stream_quality.py:35 | each codec character is one byte of the code |
| StreamQuality.FourCCCode | utils/check_stream_quality.py:35 | four byte characters make a 32-bit code |
| StreamQuality.FourCCString | utils/check_stream_quality.py:35 | the codec name is four characters, byte i of the code at position i |
| StreamQuality.FourCCRoundTrip | utils/check_stream_quality.py:35 | decoding the code of a four-byte name gives the name back |
| StreamQuality.TierOf | utils/check_stream_quality.py:61-68 | the tier of a width: up to 640, 1280, 1920, above |
| StreamQuality.TierMonotone | utils/check_stream_quality.py:61-68 | a wider stream never gets a lower tier, and each tier is exactly its width band |
| StreamQuality.Assess | utils/check_stream_quality.py:54-73 | megapixels are the pixels over a million; the free-version note appears exactly at up to 640 by 480 and implies standard definition |
| StreamQuality.FreeVersion | utils/check_stream_quality.py:73 | at most 640 wide and 480 high |
| StreamQuality.FreeVersionPixelBound | utils/check_stream_quality.py:73 | a free-version stream has at most 640 * 480 pixels |
| StreamQuality.CheckStream | utils/check_stream_quality.py:29-78 | fails exactly on a zero height; otherwise truncated sizes, their aspect ratio, the decoded codec, and an assessment exactly when a frame was read |
| StreamQuality.ExampleStreams | utils/check_stream_quality.py:61-73 | 640 by 480 is free-version standard definition at 0.3072 MP; 1920 by 1080 is full HD |
| CameraViewer.StepsCarrySettings | viewer/simple_camera_viewer.py:119-157 | each mode's pipeline carries the viewer's current parameters |
| CameraViewer.ModeForKey | viewer/simple_camera_viewer.py:119-157 | no mode key is also a quit or adjust key |
| CameraViewer.EveryModeHasAKey | viewer/simple_camera_viewer.py:119-157 | every processing mode can be selected by some key |
| CameraViewer.ModeKeysKeepSettings | viewer/simple_camera_viewer.py:119-157 | a mode key changes the mode and no parameter; only mode keys change the mode |
| CameraViewer.Increase | viewer/simple_camera_viewer.py:160-181 | `+` raises the current mode's parameter by its step, capped at its upper limit |
| CameraViewer.Decrease | viewer/simple_camera_viewer.py:183-204 | `-` lowers the current mode's parameter by its step, floored at its lower limit |
| CameraViewer.KeyStep | viewer/simple_camera_viewer.py:113-204 | the effect of one key: quit, mode select, adjust, or nothing |
| CameraViewer.AdjustTouchesOnlyCurrentMode | viewer/simple_camera_viewer.py:160-204 | `+` and `-` change only the current mode's parameters |
| CameraViewer.AdjustKeepsRange | viewer/simple_camera_viewer.py:160-204 | adjusting keeps thresholds ordered in [0, 255], the kernel odd in [1, 15], brightness, contrast and threshold in range |
| CameraViewer.KeyStepKeepsRange | viewer/simple_camera_viewer.py:113-204 | every key keeps the parameters in range |
| CameraViewer.DecreaseUndoesIncrease | viewer/simple_camera_viewer.py:160-204 | away from the upper limits, `-` undoes `+` |
| CameraViewer.IncreaseUndoesDecrease | viewer/simple_camera_viewer.py:160-204 | away from the lower limits, `+` undoes `-` |
| CameraViewer.Displayed | viewer/simple_camera_viewer.py:77-117 | the processed frames, up to the first missing frame or through the frame on which `q` is pressed |
| CameraViewer.FinalState | viewer/simple_camera_viewer.py:77-204 | the mode and parameters when the loop ends |
| CameraViewer.FinalStateInRange | viewer/simple_camera_viewer.py:77-204 | the parameters stay in range through the whole loop |
| CameraViewer.DisplayedLength | viewer/simple_camera_viewer.py:77-117 | at most one frame shown per pass, one for every pass while frames arrive and `q` is not pressed, none when the first read fails |
| CameraViewer.Viewer.constructor | viewer/simple_camera_viewer.py:60-69 | the original mode with the initial parameters, no frames counted |
| CameraViewer.Viewer.HandleKey | viewer/simple_camera_viewer.py:113-204 | the state follows `KeyStep`, the processor is rebuilt for it, and the call quits exactly on `q` |
| CameraViewer.Viewer.SelectMode | viewer/simple_camera_viewer.py:119-157 | the mode changes and the parameters are kept |
| CameraViewer.Viewer.IncreaseParameter | viewer/simple_camera_viewer.py:160-181 | the current mode's parameter goes up, within its limit |
| CameraViewer.Viewer.DecreaseParameter | viewer/simple_camera_viewer.py:183-204 | the current mode's parameter goes down, within its limit |
| CameraViewer.Viewer.ShowFrame | viewer/simple_camera_viewer.py:86-204 | the frame is processed with the state before the key, the frame count goes up by one, and the key updates the state |
| CameraViewer.Viewer.Run | viewer/simple_camera_viewer.py:77-210 | shows exactly `Displayed`, ends in `FinalState`, and counts one per frame shown |

## Left out

- Opening the HTTP stream (`connect`, `requests.get`), BLE scanning and connecting, OpenCV capture, `cv2.imdecode` and the image filters are outside the model. Their results are parameters: responses, chunk reads, `found` flags, a decode function, a step-application function.
- The client's `connect` (camera_processing/esp_camera_client.py:32-64) and `read_stream` (234-244) are not modelled. The first only probes the server; the second only wraps `get_frame`.
- Locks, listener threads and asyncio scheduling are not modelled: sleeps, 4 Hz and 20 Hz cadences, task cancellation. The shutdown race in on_board_cam/navigation/base_navigation.py:325-330 is not modelled either: `running` is cleared before the final zero command has been sent. Sender loops are modelled as runs over a sequence of observed cycles.
- The sender's exception path (error print and back-off) is not modelled.
- Floating point is modelled with exact reals; IEEE rounding is not captured. Python `int()` and `round()` are modelled exactly on reals.
- GUI rendering is not modelled: tkinter panels, canvases, OpenCV windows, overlays and `putText`. Trackbar reads in the calibrator are not modelled either. Key presses and clicks are inputs.
- YAML loading, default configurations and file writes are not modelled; configurations are values. The saved configuration is returned instead of written.
- `estimate_pose` and `draw_detections` (on_board_cam/camera_processing/aruco_detector.py:131-237) are left out. They depend on OpenCV's pose solver and drawing.
- `control_loop` and `debug_loop` (waypoint_marker/ble_client.py:143-189) are interactive demos and are not modelled.
- The mode keys and manual input of aruco_navigation.py and navigation/color_navigation.py are not modelled separately. They are identical to on_board_cam/navigation/base_navigation.py:210-222 and 307-315, which `BaseNavigation.ManualInput` and `BaseNavigation.ModeKey` model.
- The marker-sheet image writes and marker drawing (on_board_cam/utils/generate_aruco_markers.py:100-107) are not modelled. Only the index and position arithmetic is.
- tests/test_navigation.py is not used as a reference. Its expected values contradict the code it prints for.
- ArucoDetector.EstimateDistance: requires a nonzero perceived width. The source's width is a NumPy float, so a zero width gives an infinite distance with a runtime warning; the model does not represent infinities.
- CalibrateColorMask.ColorCalibrator.MouseCallback: stores the range of the integer click rule (`SampleRange`), not that of the 8-bit rule the source computes (`SampleRangeAsWritten`); see Findings.
- CameraClient.CameraStreamClient.StartStream: closing the previous response before the new request (camera_processing/esp_camera_client.py:74-78) is not modelled. Responses are values, and the old body reads stay in `pending` until a 200 replaces them; on a failed request the source keeps the closed response object, which the model represents by leaving the stream state as it was.
- TargetDetectors.ColorDetect: None stands for the `ValueError` of the mask inset on a frame smaller than 250 rows by 330 columns; the exception itself is not modelled.
- ColorNavigation.ProcessFrame: requires a nonzero quantisation step, while the source divides by it only for a nonzero steering (navigation/color_navigation.py:243-244); a zero step with zero steering is not modelled.
- FrameProcessing.Next: a failing step leaves the frame as it was. A step that changes the frame in place before raising (camera_processing/frame_processor.py:64-69) is not modelled, because steps are functions on values.
- Launch.LaunchSystem.CheckNodes: the restarts in the monitoring loop always succeed. A restart whose `Popen` raises ends `monitor_loop` through `stop_all`, which is not modelled; `CheckAndRestart` models that exception on its own.
- Launch.LaunchSystem.StartAll: when a start raises, the launch functions never reach `monitor_loop` or `stop_all` (launch.py:178-179); the model returns the number of nodes started and stops there.
- BaseNavigation.CalculateSteering: requires a nonzero quantisation step; the source divides by it.
- UnifiedNavigation.Decide: requires a nonzero quantisation step, and a detection shaped like the chosen detector's output.
- CalibrateFocalLength.FocalLength: requires a nonzero marker size; the source divides by it.
- ControlGuiV2.ClickToCm: requires a canvas with a positive width and height; the source divides by them.
- ControlGuiV2.ControlWindow.InitCamera: requires a closed camera; the source's early return for an already-open camera is folded into `ChangeMode`, which only calls it without one.
- Launch.LaunchSystem.AddNode: requires a node not already in the list. Adding the same node object twice is not modelled.
- ArucoDetector.MarkerInfos: requires at least as many ids as corners, as OpenCV returns them.
- CameraViewer.Increase: contrast steps of 0.1 are exact reals, not binary floats.
- CameraViewer.Viewer.Run: the loop runs over the passes it is given, which bounds the otherwise endless `while True`.
- CombinedInput.GetAxis: the normalised ranges are stated for stick axes with 16-bit raw values and trigger axes with raw values in [0, 1023]; other raw values are not bounded.

## Findings

| source | as written | input that shows it | evidently intended | confidence | as-written member | corrected member |
|---|---|---|---|---|---|---|
| on_board_cam/utils/calibrate_color_mask.py:98-103 | the sampled `h`, `s`, `v` are NumPy 8-bit values (line 86), so `h - 10` and `s + 50` wrap around before `max(0, ...)` and `min(limit, ...)` apply | a hue of 5 gives a lower hue bound of 251; a saturation of 250 gives an upper bound of 44 | the tolerance added and subtracted in integer arithmetic, then clamped to the channel range | not executed | CalibrateColorMask.AsWrittenExcludesSample | CalibrateColorMask.SampleRange |

=== FILE: aruco_detector.dfy ===
/** The ArUco detector's own arithmetic: dictionary-name validation, the
    pinhole distance estimate, the per-marker information list and the
    padding of generated marker images. Marker detection itself, drawing and
    pose estimation are OpenCV calls; detected markers arrive as values. */
module ArucoDetector {
  import opened Common

  /** The sixteen dictionary names the detector accepts. */
  const DictionaryNames: seq<string> := [
    "DICT_4X4_50", "DICT_4X4_100", "DICT_4X4_250", "DICT_4X4_1000",
    "DICT_5X5_50", "DICT_5X5_100", "DICT_5X5_250", "DICT_5X5_1000",
    "DICT_6X6_50", "DICT_6X6_100", "DICT_6X6_250", "DICT_6X6_1000",
    "DICT_7X7_50", "DICT_7X7_100", "DICT_7X7_250", "DICT_7X7_1000"]

  /** Position of `name` in `names`, or None. */
  function IndexOf(names: seq<string>, name: string): (r: Option<nat>)
    ensures r.None? <==> name !in names
    ensures r.Some? ==> r.value < |names| && names[r.value] == name
  {
    if names == [] then None
    else if names[0] == name then Some(0)
    else match IndexOf(names[1..], name)
      case None => None
      case Some(i) => Some(i + 1)
  }

  /** The detector's settings once constructed. */
  datatype Detector = Detector(dictionary: string, markerSizeCm: real, focalLengthPx: real)

  /** The constructor: an unknown dictionary name raises `ValueError` (None);
      otherwise the settings are stored as given. */
  function NewDetector(dictionary: string, markerSizeCm: real, focalLengthPx: real): (r: Option<Detector>)
    ensures r.Some? <==> dictionary in DictionaryNames
    ensures r.Some? ==> r.value == Detector(dictionary, markerSizeCm, focalLengthPx)
  {
    if IndexOf(DictionaryNames, dictionary).None? then None
    else Some(Detector(dictionary, markerSizeCm, focalLengthPx))
  }

  /** Exactly the sixteen listed names are accepted; a sample. */
  lemma DictionaryExamples()
    ensures NewDetector("DICT_6X6_250", 10.0, 1000.0).Some?
    ensures NewDetector("DICT_8X8_50", 10.0, 1000.0).None?
    ensures |DictionaryNames| == 16
  {
    assert DictionaryNames[10] == "DICT_6X6_250";
    assert "DICT_8X8_50" !in DictionaryNames by {
      forall i | 0 <= i < |DictionaryNames| ensures DictionaryNames[i] != "DICT_8X8_50" {
        assert DictionaryNames[i][5] != '8';
      }
    }
  }

  datatype Point = Point(x: real, y: real)

  /** A detected marker: its id, its four corners in OpenCV order, and the
      lengths of its top (c0-c1) and bottom (c2-c3) edges and its contour
      area, which the source obtains from `np.linalg.norm` and
      `cv2.contourArea`. */
  datatype Marker = Marker(c0: Point, c1: Point, c2: Point, c3: Point, topEdge: real, bottomEdge: real, area: real)

  /** The marker's width in pixels: the mean of its top and bottom edges. */
  function PerceivedWidth(m: Marker): (r: real)
    ensures MinReal(m.topEdge, m.bottomEdge) <= r <= MaxReal(m.topEdge, m.bottomEdge)
    ensures m.topEdge > 0.0 && m.bottomEdge > 0.0 ==> r > 0.0
  {
    (m.topEdge + m.bottomEdge) / 2.0
  }

  /** `estimate_distance`: `size * focal / width`. */
  function EstimateDistance(d: Detector, m: Marker): (r: real)
    requires PerceivedWidth(m) != 0.0
    ensures r * PerceivedWidth(m) == d.markerSizeCm * d.focalLengthPx
  {
    (d.markerSizeCm * d.focalLengthPx) / PerceivedWidth(m)
  }

  /** Positive settings and a positive width give a positive distance, and a
      marker that looks wider is estimated closer (inverse proportion). */
  lemma DistanceInverselyProportional(d: Detector, m: Marker, n: Marker)
    requires d.markerSizeCm > 0.0 && d.focalLengthPx > 0.0
    requires 0.0 < PerceivedWidth(m) <= PerceivedWidth(n)
    ensures EstimateDistance(d, m) > 0.0
    ensures EstimateDistance(d, n) <= EstimateDistance(d, m)
  {
    var k := d.markerSizeCm * d.focalLengthPx;
    var wm, wn := PerceivedWidth(m), PerceivedWidth(n);
    var a, b := EstimateDistance(d, m), EstimateDistance(d, n);
    assert k > 0.0;
    assert a * wm == k && b * wn == k;
    assert a > 0.0 && b > 0.0;
    ScalePositive(b, wm, wn);
    calc {
      b * wm;
    <=
      b * wn;
    ==
      k;
    ==
      a * wm;
    }
    CancelPositive(b, a, wm);
  }

  /** Multiplying by a nonnegative factor keeps `<=`. */
  lemma ScalePositive(x: real, v: real, w: real)
    requires x >= 0.0 && v <= w
    ensures x * v <= x * w
  {
    assert x * w - x * v == x * (w - v);
  }

  /** A positive factor can be cancelled from both sides of `<=`. */
  lemma CancelPositive(x: real, y: real, w: real)
    requires w > 0.0 && x * w <= y * w
    ensures x <= y
  {
  }

  /** The marker centre: the mean of its four corners. */
  function Center(m: Marker): (r: Point)
    ensures MinReal(MinReal(m.c0.x, m.c1.x), MinReal(m.c2.x, m.c3.x)) <= r.x <= MaxReal(MaxReal(m.c0.x, m.c1.x), MaxReal(m.c2.x, m.c3.x))
    ensures MinReal(MinReal(m.c0.y, m.c1.y), MinReal(m.c2.y, m.c3.y)) <= r.y <= MaxReal(MaxReal(m.c0.y, m.c1.y), MaxReal(m.c2.y, m.c3.y))
  {
    Point((m.c0.x + m.c1.x + m.c2.x + m.c3.x) / 4.0, (m.c0.y + m.c1.y + m.c2.y + m.c3.y) / 4.0)
  }

  /** One entry of the `get_marker_info` list. */
  datatype MarkerInfo = MarkerInfo(id: int, distanceCm: real, centerX: real, centerY: real, marker: Marker, areaPx: real)

  predicate Measurable(corners: seq<Marker>)
  {
    forall i :: 0 <= i < |corners| ==> PerceivedWidth(corners[i]) != 0.0
  }

  function InfoOf(d: Detector, id: int, m: Marker): MarkerInfo
    requires PerceivedWidth(m) != 0.0
  {
    var c := Center(m);
    MarkerInfo(id, EstimateDistance(d, m), c.x, c.y, m, m.area)
  }

  /** What `get_marker_info` returns: nothing when `ids` is None or empty,
      otherwise one entry per detected marker, in detection order. */
  function MarkerInfos(d: Detector, corners: seq<Marker>, ids: Option<seq<int>>): (r: seq<MarkerInfo>)
    requires Measurable(corners)
    requires ids.Some? && ids.value != [] ==> |corners| <= |ids.value|
    ensures ids.None? || ids.value == [] ==> r == []
    ensures ids.Some? && ids.value != [] ==> |r| == |corners|
    ensures forall i :: 0 <= i < |r| ==> r[i].id == ids.value[i] && r[i].marker == corners[i]
  {
    if ids.None? || ids.value == [] then []
    else seq(|corners|, i requires 0 <= i < |corners| => InfoOf(d, ids.value[i], corners[i]))
  }

  /** `get_marker_info` as the loop that builds the list. */
  method GetMarkerInfo(d: Detector, corners: seq<Marker>, ids: Option<seq<int>>) returns (infos: seq<MarkerInfo>)
    requires Measurable(corners)
    requires ids.Some? && ids.value != [] ==> |corners| <= |ids.value|
    ensures infos == MarkerInfos(d, corners, ids)
  {
    if ids.None? || |ids.value| == 0 {
      return [];
    }
    infos := [];
    var i := 0;
    while i < |corners|
      invariant i <= |corners|
      invariant |infos| == i
      invariant forall j :: 0 <= j < i ==> infos[j] == InfoOf(d, ids.value[j], corners[j])
    {
      var c := Center(corners[i]);
      var info := MarkerInfo(ids.value[i], EstimateDistance(d, corners[i]), c.x, c.y, corners[i], corners[i].area);
      infos := infos + [info];
      i := i + 1;
    }
  }

  /** Every entry reports the distance and centre of its own marker. */
  lemma MarkerInfoDescribesMarker(d: Detector, corners: seq<Marker>, ids: Option<seq<int>>, i: nat)
    requires Measurable(corners)
    requires ids.Some? && ids.value != [] && |corners| <= |ids.value|
    requires i < |corners|
    ensures var info := MarkerInfos(d, corners, ids)[i];
      info.distanceCm * PerceivedWidth(corners[i]) == d.markerSizeCm * d.focalLengthPx &&
      4.0 * info.centerX == corners[i].c0.x + corners[i].c1.x + corners[i].c2.x + corners[i].c3.x &&
      4.0 * info.centerY == corners[i].c0.y + corners[i].c1.y + corners[i].c2.y + corners[i].c3.y
  {
  }

  /** `generate_aruco_marker`'s padding: `max(20, marker_size // 10)` on every side. */
  function Padding(markerSize: int): (r: int)
    ensures r >= 20 && r >= markerSize / 10
    ensures r == 20 || r == markerSize / 10
  {
    MaxInt(20, markerSize / 10)
  }

  /** The padded image side, or None for an unknown dictionary (`ValueError`). */
  function PaddedMarkerSide(markerSize: int, dictionary: string): (r: Option<int>)
    ensures r.Some? <==> dictionary in DictionaryNames
    ensures r.Some? ==> r.value >= markerSize + 40
    ensures r.Some? && markerSize >= 200 ==> 10 * r.value <= 12 * markerSize
  {
    if IndexOf(DictionaryNames, dictionary).None? then None
    else Some(markerSize + 2 * Padding(markerSize))
  }
}

=== FILE: aruco_navigation.dfy ===
/** The stand-alone ArUco navigation controller. It shares the command
    encoding, manual keys and operator modes of the base controller, but its
    steering has no dead zone and no quantisation, it never inverts steering
    when reversing, it stores commands unclamped, and its sender writes on
    every cycle. */
module ArucoNavigation {
  import opened Common
  import BN = BaseNavigation
  import AD = ArucoDetector

  /** The encoding (the same `int((v + 1) * 127.5)`) has no clamp, so
      commands outside [-1, 1] leave the byte range. */
  lemma ToByteUnclamped()
    ensures BN.ToByte(1.5) == 318
    ensures BN.ToByte(-1.5) == -63
  {
    assert (1.5 + 1.0) * 127.5 == 318.75;
    assert (-1.5 + 1.0) * 127.5 == -63.75;
  }

  /** The `max_steering`, `steering_kp`, `target_distance_cm`,
      `distance_tolerance_cm` and `base_throttle` settings. */
  datatype Params = Params(maxSteering: real, kp: real, targetDistanceCm: real, toleranceCm: real, baseThrottle: real)

  const Defaults := Params(0.6, 0.003, 25.0, 3.0, 0.3)

  /** `calculate_steering`: 0 without a frame width, otherwise `kp * error`
      clamped to `±max_steering`. */
  function CalculateSteering(p: Params, frameWidth: Option<int>, x: real): (r: real)
    ensures frameWidth.None? ==> r == 0.0
    ensures frameWidth.Some? && p.maxSteering >= 0.0 ==> -p.maxSteering <= r <= p.maxSteering
    ensures frameWidth.Some? && p.maxSteering >= 0.0 ==>
      var raw := (x - frameWidth.value as real / 2.0) * p.kp;
      (-p.maxSteering <= raw <= p.maxSteering ==> r == raw) &&
      (raw > p.maxSteering ==> r == p.maxSteering) &&
      (raw < -p.maxSteering ==> r == -p.maxSteering)
  {
    match frameWidth
    case None => 0.0
    case Some(w) =>
      var raw := (x - w as real / 2.0) * p.kp;
      MaxReal(-p.maxSteering, MinReal(p.maxSteering, raw))
  }

  /** Unlike the base law, a small error is not rounded away: any target off
      centre with `kp > 0` gets a nonzero command of the same sign. */
  lemma NoDeadZone(p: Params, w: int, x: real)
    requires p.kp > 0.0 && p.maxSteering > 0.0
    ensures x > w as real / 2.0 ==> CalculateSteering(p, Some(w), x) > 0.0
    ensures x < w as real / 2.0 ==> CalculateSteering(p, Some(w), x) < 0.0
  {
    var raw := (x - w as real / 2.0) * p.kp;
    if x > w as real / 2.0 {
      assert raw > 0.0;
    }
    if x < w as real / 2.0 {
      assert (w as real / 2.0 - x) * p.kp > 0.0;
      assert raw < 0.0;
    }
  }

  /** The throttle rule: forward at base throttle when farther than the
      tolerance, backward at half of it when nearer, stopped within it. */
  function Throttle(p: Params, distanceCm: real): (r: real)
    ensures distanceCm - p.targetDistanceCm > p.toleranceCm && distanceCm > p.targetDistanceCm ==> r == p.baseThrottle
    ensures p.targetDistanceCm - distanceCm > p.toleranceCm && distanceCm <= p.targetDistanceCm ==> r == -p.baseThrottle * 0.5
    ensures Abs(distanceCm - p.targetDistanceCm) <= p.toleranceCm ==> r == 0.0
  {
    var error := distanceCm - p.targetDistanceCm;
    if Abs(error) > p.toleranceCm then
      if error > 0.0 then p.baseThrottle else -p.baseThrottle * 0.5
    else 0.0
  }

  /** `process_frame_autonomous`: with any marker, the first one of
      `get_marker_info` sets steering (never inverted) and throttle; with
      none the car stops. A marker seen while the frame width is unknown
      (the first camera read failed) makes the status overlay divide None
      by 2, which raises: no command (None). */
  function ProcessFrame(p: Params, d: AD.Detector, frameWidth: Option<int>, corners: seq<AD.Marker>, ids: Option<seq<int>>): (r: Option<(real, real)>)
    requires AD.Measurable(corners)
    requires ids.Some? && ids.value != [] ==> 0 < |corners| <= |ids.value|
    ensures ids.None? || ids.value == [] ==> r == Some((0.0, 0.0))
    ensures r.None? <==> (ids.Some? && ids.value != [] && frameWidth.None?)
    ensures r.Some? && ids.Some? && ids.value != [] ==>
      var m := AD.MarkerInfos(d, corners, ids)[0];
      r.value == (Throttle(p, m.distanceCm), CalculateSteering(p, frameWidth, m.centerX))
  {
    if ids.Some? && |ids.value| > 0 then
      if frameWidth.None? then None
      else
        var m := AD.MarkerInfos(d, corners, ids)[0];
        Some((Throttle(p, m.distanceCm), CalculateSteering(p, frameWidth, m.centerX)))
    else Some((0.0, 0.0))
  }

  /** With base throttle and steering limit in [0, 1], every autonomous
      command lies in [-1, 1], so it encodes into [0, 255] even though
      nothing clamps it on the way. */
  lemma AutonomousCommandInUnit(p: Params, d: AD.Detector, frameWidth: Option<int>, corners: seq<AD.Marker>, ids: Option<seq<int>>)
    requires AD.Measurable(corners)
    requires ids.Some? && ids.value != [] ==> 0 < |corners| <= |ids.value|
    requires 0.0 <= p.baseThrottle <= 1.0 && 0.0 <= p.maxSteering <= 1.0
    ensures var r := ProcessFrame(p, d, frameWidth, corners, ids);
      r.Some? ==> BN.InUnit(r.value.0) && BN.InUnit(r.value.1) && 0 <= BN.ToByte(r.value.0) <= 255 && 0 <= BN.ToByte(r.value.1) <= 255
  {
    if ids.Some? && |ids.value| > 0 && frameWidth.Some? {
      var m := AD.MarkerInfos(d, corners, ids)[0];
      var t := Throttle(p, m.distanceCm);
      assert -1.0 <= t <= 1.0;
    }
  }

  /** The stored commands: `send_motor_command` computes clamped values and
      then overwrites them with the raw arguments. */
  class CommandStore {
    var currentThrottle: real
    var currentSteering: real

    constructor ()
      ensures currentThrottle == 0.0 && currentSteering == 0.0
    {
      currentThrottle, currentSteering := 0.0, 0.0;
    }

    method SendMotorCommand(throttle: real, steering: real)
      modifies this
      ensures currentThrottle == throttle && currentSteering == steering
    {
      currentThrottle := MaxReal(-1.0, MinReal(1.0, throttle));
      currentSteering := MaxReal(-1.0, MinReal(1.0, steering));
      currentThrottle := throttle;
      currentSteering := steering;
    }
  }

  /** The pairs the sender writes: every connected cycle writes both
      characteristics, changed or not. */
  function AllWrites(obs: seq<BN.Observation>): (r: seq<(int, int)>)
    ensures |r| <= |obs|
  {
    if obs == [] then []
    else match obs[0]
      case None => AllWrites(obs[1..])
      case Some(c) => [BN.Encode(c)] + AllWrites(obs[1..])
  }

  /** The number of cycles that found the client connected. */
  function ConnectedCycles(obs: seq<BN.Observation>): nat
  {
    if obs == [] then 0 else (if obs[0].Some? then 1 else 0) + ConnectedCycles(obs[1..])
  }

  /** `_ble_sender_task` as a loop over its cycles. */
  method UngatedSender(obs: seq<BN.Observation>) returns (writes: seq<(int, int)>)
    ensures writes == AllWrites(obs)
  {
    writes := [];
    var i := 0;
    while i < |obs|
      invariant i <= |obs|
      invariant writes + AllWrites(obs[i..]) == AllWrites(obs)
    {
      assert obs[i..][1..] == obs[i + 1..];
      if obs[i].Some? {
        writes := writes + [BN.Encode(obs[i].value)];
      }
      i := i + 1;
    }
    assert obs[i..] == [];
  }

  /** One write per connected cycle, however often the command repeats;
      the send-on-change sender never writes more. */
  lemma {:induction false} OneWritePerConnectedCycle(obs: seq<BN.Observation>, last: Option<(int, int)>)
    ensures |AllWrites(obs)| == ConnectedCycles(obs)
    ensures |BN.GatedWrites(obs, last)| <= |AllWrites(obs)|
    decreases |obs|
  {
    if obs != [] {
      OneWritePerConnectedCycle(obs[1..], last);
      if obs[0].Some? {
        OneWritePerConnectedCycle(obs[1..], Some(BN.Encode(obs[0].value)));
      }
    }
  }
}

=== FILE: base_navigation.dfy ===
/** The shared navigation controller: the byte encoding of commands, the
    proportional steering law with dead zone, clamp and quantisation, the
    clamped manual increments, the `p`/`m` operator modes, the per-frame
    command choice and the send-on-change BLE sender. */
module BaseNavigation {
  import opened Common

  // ---------------------------------------------------------------------
  // Command encoding

  /** `to_byte(v) = int((v + 1) * 127.5)`, with no clamp of its own. */
  function ToByte(v: real): (r: int)
    ensures -1.0 <= v <= 1.0 ==> 0 <= r <= 255
    ensures v == -1.0 ==> r == 0
    ensures v == 0.0 ==> r == 127
    ensures v == 1.0 ==> r == 255
  {
    Trunc((v + 1.0) * 127.5)
  }

  /** The encoding never reverses the order of two commands. */
  lemma ToByteMonotone(u: real, v: real)
    requires -1.0 <= u <= v
    ensures ToByte(u) <= ToByte(v)
  {
    var a, b := (u + 1.0) * 127.5, (v + 1.0) * 127.5;
    assert 0.0 <= a <= b;
    assert Trunc(a) == a.Floor && Trunc(b) == b.Floor;
  }

  predicate InUnit(v: real)
  {
    -1.0 <= v <= 1.0
  }

  // ---------------------------------------------------------------------
  // Steering law

  /** The `max_steering`, `steering_kp`, `steering_dead_zone` and
      `steering_quantization` settings. */
  datatype SteeringParams = SteeringParams(maxSteering: real, kp: real, deadZone: real, quantization: real)

  /** The proportional term `(x - width / 2) * kp`. */
  function RawSteering(p: SteeringParams, width: int, x: real): (r: real)
    ensures p.kp > 0.0 ==> (r > 0.0 <==> x > width as real / 2.0) && (r < 0.0 <==> x < width as real / 2.0)
  {
    (x - width as real / 2.0) * p.kp
  }

  /** `max(-m, min(m, s))`, literally (so a negative `m` is not excluded). */
  function ClampSteering(p: SteeringParams, s: real): (r: real)
    ensures p.maxSteering >= 0.0 ==> -p.maxSteering <= r <= p.maxSteering
    ensures -p.maxSteering <= s <= p.maxSteering ==> r == s
  {
    MaxReal(-p.maxSteering, MinReal(p.maxSteering, s))
  }

  /** `round(s / q) * q` applied only to a nonzero value. */
  function Quantize(s: real, q: real): real
    requires q != 0.0
  {
    if s != 0.0 then RoundHalfEven(s / q) as real * q else s
  }

  /** The raw term after the dead zone. */
  function LiveSteering(p: SteeringParams, w: int, x: real): real
  {
    var s := RawSteering(p, w, x);
    if Abs(s) < p.deadZone then 0.0 else s
  }

  /** `calculate_steering`: 0 without a known frame width; otherwise the raw
      term is zeroed inside the dead zone (checked before clamping), clamped to
      `±max_steering`, and quantised when nonzero. */
  function CalculateSteering(p: SteeringParams, frameWidth: Option<int>, x: real): (r: real)
    requires p.quantization != 0.0
    ensures frameWidth.None? ==> r == 0.0
    ensures p.maxSteering >= 0.0 && frameWidth.Some? && x == frameWidth.value as real / 2.0 ==> r == 0.0
    ensures p.maxSteering >= 0.0 && frameWidth.Some? && Abs(RawSteering(p, frameWidth.value, x)) < p.deadZone ==> r == 0.0
  {
    match frameWidth
    case None => 0.0
    case Some(w) => Quantize(ClampSteering(p, LiveSteering(p, w, x)), p.quantization)
  }

  /** `v` is a whole number of steps `q`. */
  predicate MultipleOf(v: real, q: real)
    requires q != 0.0
  {
    (v / q).Floor as real == v / q
  }

  lemma MulDiv(n: real, q: real)
    requires q != 0.0
    ensures (n * q) / q == n
  {
  }

  /** A rounded value is a whole number of steps. */
  lemma QuantizeIsMultiple(s: real, q: real)
    requires q != 0.0
    ensures MultipleOf(Quantize(s, q), q)
  {
    if s != 0.0 {
      var n := RoundHalfEven(s / q);
      MulDiv(n as real, q);
      var r := Quantize(s, q);
      assert r == n as real * q;
      assert r / q == n as real;
      assert (r / q).Floor == n;
    }
  }

  /** The steering command is always an integer multiple of the step. */
  lemma SteeringIsMultipleOfStep(p: SteeringParams, frameWidth: Option<int>, x: real)
    requires p.quantization != 0.0
    ensures MultipleOf(CalculateSteering(p, frameWidth, x), p.quantization)
  {
    match frameWidth
    case None =>
    case Some(w) => QuantizeIsMultiple(ClampSteering(p, LiveSteering(p, w, x)), p.quantization);
  }

  /** `(a / q) * q == a` and a product with a positive factor keeps its bounds. */
  lemma ScaleBack(a: real, q: real)
    requires q != 0.0
    ensures (a / q) * q == a
  {
  }

  lemma SubMul(a: real, b: real, q: real)
    ensures (a - b) * q == a * q - b * q
  {
  }

  /** Rounding `s / q` moves `s` by at most half a step. */
  lemma QuantizeNear(s: real, q: real)
    requires q > 0.0
    ensures -q / 2.0 <= Quantize(s, q) - s <= q / 2.0
  {
    if s != 0.0 {
      var t := s / q;
      ScaleBack(s, q);
      NearStep(Quantize(s, q), s, RoundHalfEven(t) as real, t, q);
    }
  }

  /** The step of `QuantizeNear` with the quotient and the rounded value as
      plain reals: `n` within half of `t` puts `n * q` within half a step of
      `t * q`. */
  lemma NearStep(r: real, s: real, n: real, t: real, q: real)
    requires q > 0.0 && r == n * q && t * q == s && -0.5 <= n - t <= 0.5
    ensures -q / 2.0 <= r - s <= q / 2.0
  {
    NonNegProduct(n - t + 0.5, q);
    NonNegProduct(0.5 - (n - t), q);
    SubMul(n, t, q);
  }

  lemma NonNegProduct(a: real, b: real)
    requires a >= 0.0 && b >= 0.0
    ensures a * b >= 0.0
  {
  }

  /** Rounding keeps the sign of a value (zero included). */
  lemma QuantizeSign(s: real, q: real)
    requires q > 0.0
    ensures s >= 0.0 ==> Quantize(s, q) >= 0.0
    ensures s <= 0.0 ==> Quantize(s, q) <= 0.0
  {
    if s != 0.0 {
      var n := RoundHalfEven(s / q);
      if s > 0.0 {
        assert s / q > 0.0;
        assert n >= 0;
        assert n as real * q >= 0.0;
      } else {
        assert s / q < 0.0;
        assert n <= 0;
        assert (-n) as real * q >= 0.0;
      }
    }
  }

  lemma DivMonotone(a: real, b: real, q: real)
    requires q > 0.0 && a <= b
    ensures a / q <= b / q
  {
  }

  /** Rounding a value bounded by a whole number of steps stays within it. */
  lemma QuantizeWithinMultiple(s: real, q: real, k: int)
    requires q > 0.0 && k >= 0
    requires -(k as real * q) <= s <= k as real * q
    ensures -(k as real * q) <= Quantize(s, q) <= k as real * q
  {
    if s != 0.0 {
      var t := s / q;
      StepsWithin(s, q, k);
      RoundWithin(t, k);
      ProductWithin(Quantize(s, q), RoundHalfEven(t), q, k);
    }
  }

  /** A value within k steps is within k after division by the step. */
  lemma StepsWithin(s: real, q: real, k: int)
    requires q > 0.0 && k >= 0
    requires -(k as real * q) <= s <= k as real * q
    ensures -(k as real) <= s / q <= k as real
  {
    DivMonotone(s, k as real * q, q);
    DivMonotone(-(k as real * q), s, q);
    MulDiv(k as real, q);
    assert (-(k as real * q)) / q == -(k as real);
  }

  /** Rounding a value within the integers -k to k stays within them. */
  lemma RoundWithin(t: real, k: int)
    requires -(k as real) <= t <= k as real
    ensures -k <= RoundHalfEven(t) <= k
  {
    var n := RoundHalfEven(t);
    assert n as real < (k + 1) as real && n as real > (-k - 1) as real;
  }

  /** At most k steps in either direction. */
  lemma ProductWithin(r: real, n: int, q: real, k: int)
    requires q > 0.0 && -k <= n <= k && r == n as real * q
    ensures -(k as real * q) <= r <= k as real * q
  {
    assert (k - n) as real * q >= 0.0;
    assert (k + n) as real * q >= 0.0;
  }

  /** With `kp > 0` the command never steers away from the target: a target
      right of centre gives a non-negative command, left of centre a
      non-positive one. */
  lemma SteeringFollowsError(p: SteeringParams, w: int, x: real)
    requires p.quantization > 0.0 && p.kp > 0.0 && p.maxSteering >= 0.0
    ensures x >= w as real / 2.0 ==> CalculateSteering(p, Some(w), x) >= 0.0
    ensures x <= w as real / 2.0 ==> CalculateSteering(p, Some(w), x) <= 0.0
  {
    var s := RawSteering(p, w, x);
    var c := ClampSteering(p, LiveSteering(p, w, x));
    if x >= w as real / 2.0 {
      assert s >= 0.0;
      assert c >= 0.0;
    }
    if x <= w as real / 2.0 {
      assert (w as real / 2.0 - x) * p.kp >= 0.0;
      assert s <= 0.0;
      assert c <= 0.0;
    }
    QuantizeSign(c, p.quantization);
  }

  /** Before quantisation the command is within `±max_steering`; after it,
      within half a step more, and within `±max_steering` exactly when the
      bound is a whole number of steps. */
  lemma SteeringBounded(p: SteeringParams, w: int, x: real)
    requires p.quantization > 0.0 && p.maxSteering >= 0.0
    ensures -p.maxSteering <= ClampSteering(p, LiveSteering(p, w, x)) <= p.maxSteering
    ensures -p.maxSteering - p.quantization / 2.0 <= CalculateSteering(p, Some(w), x)
    ensures CalculateSteering(p, Some(w), x) <= p.maxSteering + p.quantization / 2.0
    ensures MultipleOf(p.maxSteering, p.quantization) ==>
              -p.maxSteering <= CalculateSteering(p, Some(w), x) <= p.maxSteering
  {
    var m, q := p.maxSteering, p.quantization;
    var c := ClampSteering(p, LiveSteering(p, w, x));
    QuantizeNear(c, q);
    if MultipleOf(m, q) {
      var k := (m / q).Floor;
      ScaleBack(m, q);
      assert m == k as real * q;
      QuantizeWithinMultiple(c, q, k);
    }
  }

  /** With the shipped settings (0.6, 0.05) the command never exceeds 0.6. */
  lemma DefaultSteeringWithinMax(w: int, x: real)
    ensures -0.6 <= CalculateSteering(DefaultSteering, Some(w), x) <= 0.6
  {
    SteeringBounded(DefaultSteering, w, x);
    assert DefaultSteering.maxSteering / DefaultSteering.quantization == 12.0;
  }

  const DefaultSteering := SteeringParams(0.6, 0.003, 0.1, 0.05)

  // ---------------------------------------------------------------------
  // Manual input and operator modes

  const KeyW := 'w' as int
  const KeyS := 's' as int
  const KeyA := 'a' as int
  const KeyD := 'd' as int
  const KeySpace := ' ' as int
  const KeyP := 'p' as int
  const KeyM := 'm' as int
  const KeyQ := 'q' as int

  /** The manual throttle and steering set by the keyboard. */
  datatype Manual = Manual(throttle: real, steering: real)

  predicate ManualInUnit(m: Manual)
  {
    InUnit(m.throttle) && InUnit(m.steering)
  }

  /** `process_manual_input`: `w`/`s` move throttle and `a`/`d` move steering
      by 0.1 towards the limit they are clamped at, space zeros both, and any
      other key changes nothing. */
  function ManualInput(m: Manual, key: int): (r: Manual)
    ensures ManualInUnit(m) ==> ManualInUnit(r)
    ensures key == KeySpace ==> r == Manual(0.0, 0.0)
    ensures key !in {KeyW, KeyS, KeyA, KeyD, KeySpace} ==> r == m
    ensures ManualInUnit(m) && key in {KeyW, KeyS} ==> r.steering == m.steering && -0.1 <= r.throttle - m.throttle <= 0.1
    ensures ManualInUnit(m) && key in {KeyA, KeyD} ==> r.throttle == m.throttle && -0.1 <= r.steering - m.steering <= 0.1
  {
    if key == KeyW then m.(throttle := MinReal(1.0, m.throttle + 0.1))
    else if key == KeyS then m.(throttle := MaxReal(-1.0, m.throttle - 0.1))
    else if key == KeyA then m.(steering := MaxReal(-1.0, m.steering - 0.1))
    else if key == KeyD then m.(steering := MinReal(1.0, m.steering + 0.1))
    else if key == KeySpace then Manual(0.0, 0.0)
    else m
  }

  /** The `autonomous_mode` and `manual_mode` flags. */
  datatype Modes = Modes(autonomous: bool, manual: bool)

  predicate Exclusive(m: Modes)
  {
    !(m.autonomous && m.manual)
  }

  /** The mode-key branch of the frame loop: `p` toggles autonomous mode only
      outside manual mode; `m` toggles manual mode and entering it clears
      autonomous mode; other keys (and `q`, which ends the loop) change
      nothing. */
  function ModeKey(m: Modes, key: int): (r: Modes)
    ensures Exclusive(m) ==> Exclusive(r)
    ensures key == KeyP && !m.manual ==> r == Modes(!m.autonomous, false)
    ensures key == KeyP && m.manual ==> r == m
    ensures key == KeyM && !m.manual ==> r == Modes(false, true)
    ensures key == KeyM && m.manual ==> r == Modes(m.autonomous, false)
    ensures key != KeyP && key != KeyM ==> r == m
  {
    if key == KeyQ then m
    else if key == KeyP then (if !m.manual then m.(autonomous := !m.autonomous) else m)
    else if key == KeyM then
      var manual := !m.manual;
      Modes(if manual then false else m.autonomous, manual)
    else m
  }

  /** Leaving manual mode always leaves the controller paused. */
  lemma LeavingManualPauses(m: Modes)
    requires Exclusive(m) && m.manual
    ensures ModeKey(m, KeyM) == Modes(false, false)
  {
  }

  /** The command of one frame: the manual pair in manual mode, the
      detector's pair in autonomous mode, and a stop otherwise. */
  function FrameCommand(m: Modes, manual: Manual, autonomous: (real, real)): (r: (real, real))
    ensures m.manual ==> r == (manual.throttle, manual.steering)
    ensures !m.manual && m.autonomous ==> r == autonomous
    ensures !m.manual && !m.autonomous ==> r == (0.0, 0.0)
  {
    if m.manual then (manual.throttle, manual.steering)
    else if m.autonomous then autonomous
    else (0.0, 0.0)
  }

  // ---------------------------------------------------------------------
  // The controller object

  /** One frame of the main loop: whether a frame was read, what the
      autonomous detector commands for it, and the key read afterwards. */
  datatype Tick = Tick(frameRead: bool, autonomous: (real, real), key: int)

  /** The modes after the keys of the first `n` frames. */
  function ModesAfter(m: Modes, ticks: seq<Tick>, n: nat): (r: Modes)
    requires n <= |ticks|
    ensures Exclusive(m) ==> Exclusive(r)
    ensures (forall j :: 0 <= j < n ==> ticks[j].key != KeyP && ticks[j].key != KeyM) ==> r == m
  {
    if n == 0 then m else ModeKey(ModesAfter(m, ticks, n - 1), ticks[n - 1].key)
  }


  class Controller {
    var autonomousMode: bool
    var manualMode: bool
    var running: bool
    var manualThrottle: real
    var manualSteering: real
    var currentThrottle: real
    var currentSteering: real

    ghost predicate Valid()
      reads this
    {
      Exclusive(Modes(autonomousMode, manualMode)) &&
      ManualInUnit(Manual(manualThrottle, manualSteering)) &&
      InUnit(currentThrottle) && InUnit(currentSteering)
    }

    /** A new controller starts autonomous, running, with zero commands. */
    constructor ()
      ensures Valid()
      ensures autonomousMode && !manualMode && running
      ensures manualThrottle == 0.0 && manualSteering == 0.0
      ensures currentThrottle == 0.0 && currentSteering == 0.0
    {
      autonomousMode, manualMode, running := true, false, true;
      manualThrottle, manualSteering := 0.0, 0.0;
      currentThrottle, currentSteering := 0.0, 0.0;
    }

    /** `send_motor_command`: stores both commands clamped to [-1, 1]. */
    method SendMotorCommand(throttle: real, steering: real)
      modifies this
      ensures currentThrottle == Clamp(throttle, -1.0, 1.0)
      ensures currentSteering == Clamp(steering, -1.0, 1.0)
      ensures autonomousMode == old(autonomousMode) && manualMode == old(manualMode)
      ensures running == old(running)
      ensures manualThrottle == old(manualThrottle) && manualSteering == old(manualSteering)
    {
      currentThrottle := MaxReal(-1.0, MinReal(1.0, throttle));
      currentSteering := MaxReal(-1.0, MinReal(1.0, steering));
    }

    /** `process_manual_input`. */
    method ProcessManualInput(key: int)
      modifies this
      ensures Manual(manualThrottle, manualSteering) == ManualInput(Manual(old(manualThrottle), old(manualSteering)), key)
      ensures autonomousMode == old(autonomousMode) && manualMode == old(manualMode)
      ensures running == old(running)
      ensures currentThrottle == old(currentThrottle) && currentSteering == old(currentSteering)
    {
      if key == KeyW {
        manualThrottle := MinReal(1.0, manualThrottle + 0.1);
      } else if key == KeyS {
        manualThrottle := MaxReal(-1.0, manualThrottle - 0.1);
      } else if key == KeyA {
        manualSteering := MaxReal(-1.0, manualSteering - 0.1);
      } else if key == KeyD {
        manualSteering := MinReal(1.0, manualSteering + 0.1);
      } else if key == KeySpace {
        manualThrottle, manualSteering := 0.0, 0.0;
      }
    }

    /** One pass of the frame loop after a frame was read: command selection,
        then the key (`q` quits before anything else happens), then manual
        input when in manual mode. */
    method Step(autonomous: (real, real), key: int) returns (quit: bool)
      requires Valid()
      modifies this
      ensures Valid()
      ensures quit <==> key == KeyQ
      ensures (currentThrottle, currentSteering) ==
        (var c := FrameCommand(Modes(old(autonomousMode), old(manualMode)), Manual(old(manualThrottle), old(manualSteering)), autonomous);
         (Clamp(c.0, -1.0, 1.0), Clamp(c.1, -1.0, 1.0)))
      ensures Modes(autonomousMode, manualMode) == ModeKey(Modes(old(autonomousMode), old(manualMode)), key)
      ensures Manual(manualThrottle, manualSteering) ==
        if quit || !manualMode then Manual(old(manualThrottle), old(manualSteering))
        else ManualInput(Manual(old(manualThrottle), old(manualSteering)), key)
      ensures running == old(running)
    {
      var throttle, steering;
      if manualMode {
        throttle, steering := manualThrottle, manualSteering;
      } else if autonomousMode {
        throttle, steering := autonomous.0, autonomous.1;
      } else {
        throttle, steering := 0.0, 0.0;
      }
      SendMotorCommand(throttle, steering);
      if key == KeyQ {
        return true;
      } else if key == KeyP {
        if !manualMode {
          autonomousMode := !autonomousMode;
        }
      } else if key == KeyM {
        manualMode := !manualMode;
        if manualMode {
          autonomousMode := false;
        }
      }
      if manualMode {
        ProcessManualInput(key);
      }
      return false;
    }

    /** `run_async` without the camera, window and BLE set-up: frames are
        handled until one cannot be read or `q` is pressed, and on the way out
        the loop stops and a zero command is stored. Returns the number of
        frames processed. */
    method Run(ticks: seq<Tick>) returns (frames: nat)
      requires Valid()
      modifies this
      ensures Valid()
      ensures frames <= |ticks|
      ensures forall i :: 0 <= i < frames ==> ticks[i].frameRead
      ensures old(running) && frames < |ticks| ==> !ticks[frames].frameRead || (frames > 0 && ticks[frames - 1].key == KeyQ)
      ensures !running && currentThrottle == 0.0 && currentSteering == 0.0
      ensures !old(running) ==> frames == 0
      ensures forall j :: 0 <= j < frames - 1 ==> ticks[j].key != KeyQ
      ensures Modes(autonomousMode, manualMode) == ModesAfter(Modes(old(autonomousMode), old(manualMode)), ticks, frames)
    {
      var i := 0;
      frames := 0;
      while i < |ticks| && running
        invariant Valid()
        invariant i <= |ticks| && frames == i
        invariant forall j :: 0 <= j < i ==> ticks[j].frameRead
        invariant !running ==> !old(running) || (i > 0 && ticks[i - 1].key == KeyQ)
        invariant i == 0 ==> running == old(running)
        invariant !old(running) ==> i == 0
        invariant running ==> forall j :: 0 <= j < i ==> ticks[j].key != KeyQ
        invariant forall j :: 0 <= j < i - 1 ==> ticks[j].key != KeyQ
        invariant Modes(autonomousMode, manualMode) == ModesAfter(Modes(old(autonomousMode), old(manualMode)), ticks, i)
      {
        if !ticks[i].frameRead {
          break;
        }
        frames := frames + 1;
        var quit := Step(ticks[i].autonomous, ticks[i].key);
        i := i + 1;
        if quit {
          running := false;
        }
      }
      running := false;
      SendMotorCommand(0.0, 0.0);
    }
  }

  // ---------------------------------------------------------------------
  // Send-on-change BLE sender

  /** What one sender cycle sees: nothing when the BLE client is absent or
      disconnected, otherwise the stored throttle and steering commands. */
  type Observation = Option<(real, real)>

  function Encode(c: (real, real)): (r: (int, int))
    ensures -1.0 <= c.0 <= 1.0 && -1.0 <= c.1 <= 1.0 ==> 0 <= r.0 <= 255 && 0 <= r.1 <= 255
    ensures c == (0.0, 0.0) ==> r == (127, 127)
  {
    (ToByte(c.0), ToByte(c.1))
  }

  /** The pairs `_ble_sender_task` writes: a connected cycle writes both
      characteristics when either encoded byte differs from the last pair
      written (`None` before any write), then records the pair. */
  function GatedWrites(obs: seq<Observation>, last: Option<(int, int)>): seq<(int, int)>
    decreases |obs|
  {
    if obs == [] then []
    else match obs[0]
      case None => GatedWrites(obs[1..], last)
      case Some(c) =>
        if last == Some(Encode(c)) then GatedWrites(obs[1..], last)
        else [Encode(c)] + GatedWrites(obs[1..], Some(Encode(c)))
  }

  /** `_ble_sender_task` as a loop over the cycles it runs while the
      controller is running. */
  method GatedSender(obs: seq<Observation>) returns (writes: seq<(int, int)>)
    ensures writes == GatedWrites(obs, None)
  {
    var last: Option<(int, int)> := None;
    writes := [];
    var i := 0;
    while i < |obs|
      invariant i <= |obs|
      invariant writes + GatedWrites(obs[i..], last) == GatedWrites(obs, None)
    {
      assert obs[i..][1..] == obs[i + 1..];
      match obs[i] {
        case None =>
        case Some(c) =>
          var bytes := Encode(c);
          if last != Some(bytes) {
            writes := writes + [bytes];
            last := Some(bytes);
          }
      }
      i := i + 1;
    }
    assert obs[i..] == [];
  }

  /** No two successive writes carry the same pair, and the first differs
      from what was last written before. */
  lemma {:induction false} GatedWritesNoRepeat(obs: seq<Observation>, last: Option<(int, int)>)
    ensures var w := GatedWrites(obs, last);
      (w != [] ==> last != Some(w[0])) &&
      forall i :: 0 < i < |w| ==> w[i] != w[i - 1]
    decreases |obs|
  {
    if obs != [] {
      GatedWritesNoRepeat(obs[1..], last);
      if obs[0].Some? {
        GatedWritesNoRepeat(obs[1..], Some(Encode(obs[0].value)));
      }
    }
  }

  /** The last pair written is the encoding of the last connected cycle's
      commands: after any sequence of cycles the car holds the latest value. */
  lemma {:induction false} GatedWritesLatest(obs: seq<Observation>, last: Option<(int, int)>, i: nat)
    requires i < |obs| && obs[i].Some?
    requires forall j :: i < j < |obs| ==> obs[j].None?
    ensures var w := GatedWrites(obs, last);
      (w != [] && w[|w| - 1] == Encode(obs[i].value)) || (w == [] && last == Some(Encode(obs[i].value)))
    decreases |obs|
  {
    var c := obs[0];
    if i == 0 {
      NothingWrittenWhenDisconnected(obs[1..], if last == Some(Encode(c.value)) then last else Some(Encode(c.value)));
    } else {
      if c.Some? && last != Some(Encode(c.value)) {
        GatedWritesLatest(obs[1..], Some(Encode(c.value)), i - 1);
      } else {
        GatedWritesLatest(obs[1..], last, i - 1);
      }
    }
  }

  /** Cycles without a connection write nothing. */
  lemma {:induction false} NothingWrittenWhenDisconnected(obs: seq<Observation>, last: Option<(int, int)>)
    requires forall j :: 0 <= j < |obs| ==> obs[j].None?
    ensures GatedWrites(obs, last) == []
    decreases |obs|
  {
    if obs != [] {
      NothingWrittenWhenDisconnected(obs[1..], last);
    }
  }

  /** Commands kept in [-1, 1] (as `send_motor_command` ensures) are always
      transmitted as bytes in [0, 255]. */
  lemma {:induction false} GatedWritesAreBytes(obs: seq<Observation>, last: Option<(int, int)>)
    requires forall j :: 0 <= j < |obs| && obs[j].Some? ==> InUnit(obs[j].value.0) && InUnit(obs[j].value.1)
    ensures forall w <- GatedWrites(obs, last) :: 0 <= w.0 <= 255 && 0 <= w.1 <= 255
    decreases |obs|
  {
    if obs != [] {
      GatedWritesAreBytes(obs[1..], last);
      if obs[0].Some? {
        GatedWritesAreBytes(obs[1..], Some(Encode(obs[0].value)));
      }
    }
  }
}

=== FILE: ble_client.dfy ===
/** The BLE car client of the waypoint marker: the byte encoding of a
    bipolar command, the per-characteristic write cache of `set_char`, the
    little-endian waypoint packing and the routing of each command to its
    characteristic. The radio is a log of the writes made; the clock is a
    parameter. */
module BleClient {
  import opened Common

  /** `to_byte`: `int(v * 128 + 128)` clamped to [0, 255]. */
  function ToByte(v: real): (r: int)
    ensures 0 <= r <= 255
    ensures -1.0 <= v < 0.9921875 ==> r == Trunc(v * 128.0 + 128.0)
    ensures v == -1.0 ==> r == 0
    ensures v == 0.0 ==> r == 128
    ensures v >= 0.9921875 ==> r == 255
  {
    MaxInt(0, MinInt(255, Trunc(v * 128.0 + 128.0)))
  }

  /** The encoding never reverses the order of two commands. */
  lemma ToByteMonotone(u: real, v: real)
    requires u <= v
    ensures ToByte(u) <= ToByte(v)
  {
    var a, b := u * 128.0 + 128.0, v * 128.0 + 128.0;
    assert a <= b;
    if a >= 0.0 && b >= 0.0 {
      assert a.Floor <= b.Floor;
    } else if a < 0.0 && b < 0.0 {
      assert (-b).Floor <= (-a).Floor;
    }
  }

  /** What `set_char` may be handed: an int, a bytes-like list of ints, or
      anything else. */
  datatype Value = IntValue(n: int) | ListValue(items: seq<int>) | OtherValue

  /** The bytes a value stands for, or the exception `bytes(...)` raises:
      `TypeError` for an unsupported type, `ValueError` for an int outside
      [0, 255]. */
  datatype Normalized = Ok(bytes: seq<Byte>) | TypeError | ValueError

  predicate AllBytes(items: seq<int>)
  {
    forall i :: 0 <= i < |items| ==> 0 <= items[i] < 256
  }

  function Normalize(v: Value): (r: Normalized)
    ensures r.TypeError? <==> v.OtherValue?
    ensures v.IntValue? ==> (r.Ok? <==> 0 <= v.n < 256) && (r.Ok? ==> r.bytes == [v.n])
    ensures v.ListValue? ==> (r.Ok? <==> AllBytes(v.items)) && (r.Ok? ==> r.bytes == v.items)
  {
    match v
    case IntValue(n) => if 0 <= n < 256 then Ok([n]) else ValueError
    case ListValue(items) => if AllBytes(items) then Ok(items) else ValueError
    case OtherValue => TypeError
  }

  /** The two caches and the log of GATT writes. */
  datatype Caches = Caches(values: map<string, seq<Byte>>, times: map<string, real>, sent: seq<(string, seq<Byte>)>)

  /** `_cached_char_timestamps.get(uuid, 0)`. */
  function LastTime(times: map<string, real>, uuid: string): real
  {
    if uuid in times then times[uuid] else 0.0
  }

  /** A write goes out when forced, or when the bytes differ from the cached
      ones and at least `min_interval` has passed since the last write. */
  predicate WriteDue(c: Caches, uuid: string, bs: seq<Byte>, force: bool, minInterval: real, now: real)
  {
    force || (!(uuid in c.values && c.values[uuid] == bs) && !(now - LastTime(c.times, uuid) < minInterval))
  }

  /** The caches after `set_char` handed normalised bytes: unchanged in
      simulation mode or when the write is skipped; otherwise the write is
      logged and that characteristic's value and time are recorded. */
  function AfterSetChar(c: Caches, connected: bool, uuid: string, bs: seq<Byte>, force: bool, minInterval: real, now: real): (r: Caches)
    ensures r == c || r == Caches(c.values[uuid := bs], c.times[uuid := now], c.sent + [(uuid, bs)])
  {
    if connected && WriteDue(c, uuid, bs, force, minInterval, now) then
      Caches(c.values[uuid := bs], c.times[uuid := now], c.sent + [(uuid, bs)])
    else c
  }

  /** In simulation mode nothing is written and the caches stay as they were. */
  lemma SimulationWritesNothing(c: Caches, uuid: string, bs: seq<Byte>, force: bool, minInterval: real, now: real)
    ensures AfterSetChar(c, false, uuid, bs, force, minInterval, now) == c
  {
  }

  /** A forced write always goes out when connected. */
  lemma ForcedWriteGoesOut(c: Caches, uuid: string, bs: seq<Byte>, minInterval: real, now: real)
    ensures AfterSetChar(c, true, uuid, bs, true, minInterval, now).sent == c.sent + [(uuid, bs)]
  {
  }

  /** Once bytes are written, sending the same bytes again without force is
      dropped, however much later it comes. */
  lemma RepeatIsSkipped(c: Caches, uuid: string, bs: seq<Byte>, force: bool, minInterval: real, now: real, later: real)
    requires WriteDue(c, uuid, bs, force, minInterval, now)
    ensures var c1 := AfterSetChar(c, true, uuid, bs, force, minInterval, now);
      c1.sent == c.sent + [(uuid, bs)] && AfterSetChar(c1, true, uuid, bs, false, minInterval, later) == c1
  {
  }

  /** New bytes arriving less than `min_interval` after a write are dropped,
      not queued. */
  lemma TooSoonIsSkipped(c: Caches, uuid: string, bs: seq<Byte>, bs2: seq<Byte>, minInterval: real, now: real, later: real)
    requires WriteDue(c, uuid, bs, false, minInterval, now)
    requires later - now < minInterval
    ensures var c1 := AfterSetChar(c, true, uuid, bs, false, minInterval, now);
      AfterSetChar(c1, true, uuid, bs2, false, minInterval, later) == c1
  {
    var c1 := AfterSetChar(c, true, uuid, bs, false, minInterval, now);
    assert LastTime(c1.times, uuid) == now;
  }

  /** A write touches only its own characteristic's cache entries. */
  lemma WriteIsLocal(c: Caches, connected: bool, uuid: string, bs: seq<Byte>, force: bool, minInterval: real, now: real, other: string)
    requires other != uuid
    ensures var r := AfterSetChar(c, connected, uuid, bs, force, minInterval, now);
      (other in r.values <==> other in c.values) && (other in c.values ==> r.values[other] == c.values[other]) &&
      LastTime(r.times, other) == LastTime(c.times, other)
  {
  }

  /** The bytes last written to a characteristic, if any. */
  function LastSent(sent: seq<(string, seq<Byte>)>, uuid: string): (r: Option<seq<Byte>>)
    ensures r.None? <==> forall i :: 0 <= i < |sent| ==> sent[i].0 != uuid
  {
    if sent == [] then None
    else if sent[|sent| - 1].0 == uuid then Some(sent[|sent| - 1].1)
    else LastSent(sent[..|sent| - 1], uuid)
  }

  /** The value cache holds, for each characteristic, exactly the bytes last
      written to it. */
  ghost predicate CacheAgrees(c: Caches)
  {
    forall u :: (u in c.values <==> LastSent(c.sent, u).Some?) &&
                (u in c.values ==> c.values[u] == LastSent(c.sent, u).value)
  }

  lemma LastSentAppend(sent: seq<(string, seq<Byte>)>, uuid: string, bs: seq<Byte>, u: string)
    ensures LastSent(sent + [(uuid, bs)], u) == if u == uuid then Some(bs) else LastSent(sent, u)
  {
    assert (sent + [(uuid, bs)])[..|sent|] == sent;
  }

  /** `set_char` keeps the value cache in agreement with the write log. */
  lemma CacheAgreesPreserved(c: Caches, connected: bool, uuid: string, bs: seq<Byte>, force: bool, minInterval: real, now: real)
    requires CacheAgrees(c)
    ensures CacheAgrees(AfterSetChar(c, connected, uuid, bs, force, minInterval, now))
  {
    var r := AfterSetChar(c, connected, uuid, bs, force, minInterval, now);
    if r != c {
      forall u
        ensures (u in r.values <==> LastSent(r.sent, u).Some?) &&
                (u in r.values ==> r.values[u] == LastSent(r.sent, u).value)
      {
        LastSentAppend(c.sent, uuid, bs, u);
      }
    }
  }

  /** `x & 0xFF, (x >> 8) & 0xFF` on a Python int (two's complement). */
  function PackInt16(n: int): (r: seq<Byte>)
    ensures |r| == 2
  {
    [n % 256, (n / 256) % 256]
  }

  /** The receiver's little-endian signed 16-bit read. */
  function UnpackInt16(lo: Byte, hi: Byte): (r: int)
    ensures -32768 <= r <= 32767
  {
    var u := lo + 256 * hi;
    if u >= 32768 then u - 65536 else u
  }

  /** The pair decodes back to the packed value on the whole int16 range. */
  lemma Int16RoundTrip(n: int)
    requires -32768 <= n <= 32767
    ensures UnpackInt16(PackInt16(n)[0], PackInt16(n)[1]) == n
  {
    var q, r := n / 256, n % 256;
    assert n == 256 * q + r;
    assert -128 <= q <= 127;
    if q >= 0 {
      assert q % 256 == q;
    } else {
      assert q % 256 == q + 256;
    }
  }

  /** Outside that range the value wraps: 32768 arrives as -32768. */
  lemma Int16Wraps()
    ensures UnpackInt16(PackInt16(32768)[0], PackInt16(32768)[1]) == -32768
  {
  }

  /** `set_waypoint`'s six bytes: `int(v * 10)` of x, y and omega, each as a
      little-endian int16. */
  function PackWaypoint(x: real, y: real, omega: real): (r: seq<Byte>)
    ensures |r| == 6
    ensures r[..2] == PackInt16(Trunc(x * 10.0)) && r[2..4] == PackInt16(Trunc(y * 10.0)) &&
            r[4..] == PackInt16(Trunc(omega * 10.0))
  {
    PackInt16(Trunc(x * 10.0)) + PackInt16(Trunc(y * 10.0)) + PackInt16(Trunc(omega * 10.0))
  }

  /** The car's reading of a waypoint packet, in tenths. */
  function UnpackWaypoint(data: seq<Byte>): (r: (int, int, int))
    requires |data| == 6
  {
    (UnpackInt16(data[0], data[1]), UnpackInt16(data[2], data[3]), UnpackInt16(data[4], data[5]))
  }

  predicate InInt16(v: int)
  {
    -32768 <= v <= 32767
  }

  /** A waypoint whose scaled coordinates fit in int16 arrives intact (to the
      tenth, truncated toward zero). */
  lemma WaypointRoundTrip(x: real, y: real, omega: real)
    requires InInt16(Trunc(x * 10.0)) && InInt16(Trunc(y * 10.0)) && InInt16(Trunc(omega * 10.0))
    ensures UnpackWaypoint(PackWaypoint(x, y, omega)) == (Trunc(x * 10.0), Trunc(y * 10.0), Trunc(omega * 10.0))
  {
    Int16RoundTrip(Trunc(x * 10.0));
    Int16RoundTrip(Trunc(y * 10.0));
    Int16RoundTrip(Trunc(omega * 10.0));
  }

  /** The characteristic suffixes. */
  const LedSuffix := "1"
  const ThrottleSuffix := "2"
  const SteeringSuffix := "3"
  const OmegaSuffix := "4"
  const WaypointSuffix := "5"
  const MinInterval := 0.1

  /** `CarBLEClient`: whether a client is connected (None in simulation
      mode), the two caches, and the writes made. */
  class CarBleClient {
    const baseUuid: string
    var connected: bool
    var cachedValues: map<string, seq<Byte>>
    var cachedTimes: map<string, real>
    var sent: seq<(string, seq<Byte>)>

    function State(): Caches
      reads this
    {
      Caches(cachedValues, cachedTimes, sent)
    }

    ghost predicate Valid()
      reads this
    {
      CacheAgrees(State())
    }

    constructor (baseUuid: string)
      ensures Valid() && !connected && this.baseUuid == baseUuid
      ensures cachedValues == map[] && cachedTimes == map[] && sent == []
    {
      this.baseUuid := baseUuid;
      connected := false;
      cachedValues, cachedTimes, sent := map[], map[], [];
    }

    /** `connect`: a found device gives a client, otherwise simulation mode. */
    method Connect(found: bool)
      requires Valid()
      modifies this
      ensures Valid() && connected == found && State() == old(State())
    {
      connected := found;
    }

    /** `set_char`: normalise, then write unless in simulation mode or the
        cache says the write is not due. Returns the exception, if any. */
    method SetChar(uuid: string, value: Value, force: bool, minInterval: real, now: real) returns (r: Normalized)
      requires Valid()
      modifies this
      ensures Valid() && connected == old(connected)
      ensures r == Normalize(value)
      ensures r.Ok? ==> State() == AfterSetChar(old(State()), connected, uuid, r.bytes, force, minInterval, now)
      ensures !r.Ok? ==> State() == old(State())
    {
      r := Normalize(value);
      if !r.Ok? {
        return;
      }
      if !connected {
        return;
      }
      if !force && uuid in cachedValues && cachedValues[uuid] == r.bytes {
        return;
      }
      var lastTime := if uuid in cachedTimes then cachedTimes[uuid] else 0.0;
      if !force && now - lastTime < minInterval {
        return;
      }
      CacheAgreesPreserved(State(), connected, uuid, r.bytes, force, minInterval, now);
      sent := sent + [(uuid, r.bytes)];
      cachedValues := cachedValues[uuid := r.bytes];
      cachedTimes := cachedTimes[uuid := now];
    }

    /** `set_waypoint`: the six packed bytes, forced, to characteristic 5. */
    method SetWaypoint(x: real, y: real, omega: real, now: real)
      requires Valid()
      modifies this
      ensures Valid() && connected == old(connected)
      ensures connected ==> sent == old(sent) + [(baseUuid + WaypointSuffix, PackWaypoint(x, y, omega))]
      ensures State() == AfterSetChar(old(State()), connected, baseUuid + WaypointSuffix, PackWaypoint(x, y, omega), true, MinInterval, now)
    {
      var data := PackWaypoint(x, y, omega);
      var r := SetChar(baseUuid + WaypointSuffix, ListValue(data), true, MinInterval, now);
    }

    /** `set_led`: one byte, 0 or 1 for a boolean state, to characteristic 1. */
    method SetLed(state: int, now: real) returns (r: Normalized)
      requires Valid()
      modifies this
      ensures Valid() && connected == old(connected)
      ensures r.ValueError? <==> !(0 <= state < 256)
      ensures r.Ok? ==> State() == AfterSetChar(old(State()), connected, baseUuid + LedSuffix, [state], false, MinInterval, now)
      ensures !r.Ok? ==> State() == old(State())
    {
      r := SetChar(baseUuid + LedSuffix, IntValue(state), false, MinInterval, now);
    }

    /** `set_throttle`, `set_steering` and `set_omega`: the encoded command
        to characteristic 2, 3 or 4. */
    method SetCommand(suffix: string, v: real, now: real)
      requires Valid() && suffix in {ThrottleSuffix, SteeringSuffix, OmegaSuffix}
      modifies this
      ensures Valid() && connected == old(connected)
      ensures sent == old(sent) || sent == old(sent) + [(baseUuid + suffix, [ToByte(v)])]
      ensures State() == AfterSetChar(old(State()), connected, baseUuid + suffix, [ToByte(v)], false, MinInterval, now)
    {
      var r := SetChar(baseUuid + suffix, IntValue(ToByte(v)), false, MinInterval, now);
    }
  }
}

=== FILE: byte_search.dfy ===
/** Python `bytes.find(sub, start)` and `bytes.rfind(sub)`: the index of the
    first (last) occurrence of a byte string, or -1 when there is none. */
module ByteSearch {
  import opened Common

  /** `needle` occurs in `hay` at index `k`. */
  predicate OccursAt(hay: seq<Byte>, needle: seq<Byte>, k: int)
  {
    0 <= k && k + |needle| <= |hay| && hay[k..k + |needle|] == needle
  }

  /** `hay.find(needle, from)`: the first occurrence at or after `from`
      (see `FindFirst`), or -1. */
  function Find(hay: seq<Byte>, needle: seq<Byte>, from: nat): (r: int)
    ensures r == -1 || (from <= r && OccursAt(hay, needle, r))
    decreases |hay| - from
  {
    if from + |needle| > |hay| then -1
    else if hay[from..from + |needle|] == needle then from
    else Find(hay, needle, from + 1)
  }

  /** `Find` reports -1 exactly when there is no occurrence at or after
      `from`, and otherwise none is skipped. */
  lemma {:induction false} FindFirst(hay: seq<Byte>, needle: seq<Byte>, from: nat)
    ensures Find(hay, needle, from) == -1 <==> forall k :: from <= k ==> !OccursAt(hay, needle, k)
    ensures forall k :: from <= k < Find(hay, needle, from) ==> !OccursAt(hay, needle, k)
    decreases |hay| - from
  {
    if from + |needle| > |hay| {
    } else if hay[from..from + |needle|] == needle {
    } else {
      FindFirst(hay, needle, from + 1);
    }
  }

  /** `hay.rfind(needle)` restricted to occurrences that end by `upto`. */
  function RFindBefore(hay: seq<Byte>, needle: seq<Byte>, upto: nat): (r: int)
    requires upto <= |hay|
    ensures r == -1 || (OccursAt(hay, needle, r) && r + |needle| <= upto)
    decreases upto
  {
    if upto < |needle| then -1
    else if hay[upto - |needle|..upto] == needle then upto - |needle|
    else if upto == 0 then -1
    else RFindBefore(hay, needle, upto - 1)
  }

  /** `RFindBefore` reports -1 exactly when no occurrence ends by `upto`, and
      otherwise no later one does. */
  lemma {:induction false} RFindBeforeLast(hay: seq<Byte>, needle: seq<Byte>, upto: nat)
    requires upto <= |hay|
    ensures RFindBefore(hay, needle, upto) == -1 <==> forall k :: 0 <= k && k + |needle| <= upto ==> !OccursAt(hay, needle, k)
    ensures forall k :: RFindBefore(hay, needle, upto) < k && k + |needle| <= upto ==> !OccursAt(hay, needle, k)
    decreases upto
  {
    if upto < |needle| {
    } else if hay[upto - |needle|..upto] == needle {
    } else if upto == 0 {
    } else {
      RFindBeforeLast(hay, needle, upto - 1);
    }
  }

  /** `hay.rfind(needle)`: the last occurrence (see `RFindLast`), or -1. */
  function RFind(hay: seq<Byte>, needle: seq<Byte>): (r: int)
    ensures r == -1 || OccursAt(hay, needle, r)
  {
    RFindBefore(hay, needle, |hay|)
  }

  /** `RFind` reports -1 exactly when there is no occurrence, and otherwise
      none comes after it. */
  lemma RFindLast(hay: seq<Byte>, needle: seq<Byte>)
    ensures RFind(hay, needle) == -1 <==> forall k :: !OccursAt(hay, needle, k)
    ensures forall k :: RFind(hay, needle) < k ==> !OccursAt(hay, needle, k)
  {
    RFindBeforeLast(hay, needle, |hay|);
  }

  /** An occurrence inside a suffix is an occurrence in the whole, shifted. */
  lemma OccursInSuffix(hay: seq<Byte>, needle: seq<Byte>, d: nat, k: int)
    requires d <= |hay|
    ensures OccursAt(hay[d..], needle, k) <==> (0 <= k && OccursAt(hay, needle, k + d))
  {
    if 0 <= k && k + |needle| <= |hay| - d {
      assert hay[d..][k..k + |needle|] == hay[k + d..k + d + |needle|];
    }
  }

  /** An occurrence inside a prefix is an occurrence in the whole. */
  lemma OccursInPrefix(hay: seq<Byte>, needle: seq<Byte>, n: nat, k: int)
    requires n <= |hay|
    ensures OccursAt(hay[..n], needle, k) <==> (OccursAt(hay, needle, k) && k + |needle| <= n)
  {
    if 0 <= k && k + |needle| <= n {
      SliceOfSlice(hay, 0, n, k, k + |needle|);
      assert hay[..n] == hay[0..n];
    }
  }

  /** An occurrence inside `hay[lo..hi]` is an occurrence in `hay` that fits before `hi`. */
  lemma OccursInSlice(hay: seq<Byte>, needle: seq<Byte>, lo: nat, hi: nat, k: int)
    requires lo <= hi <= |hay|
    ensures OccursAt(hay[lo..hi], needle, k) <==> (0 <= k && OccursAt(hay, needle, lo + k) && lo + k + |needle| <= hi)
  {
    if 0 <= k && k + |needle| <= hi - lo {
      SliceOfSlice(hay, lo, hi, k, k + |needle|);
    }
  }

  /** The first occurrence at or after `from` is what `Find` returns. */
  lemma FindIs(hay: seq<Byte>, needle: seq<Byte>, from: nat, r: nat)
    requires from <= r && OccursAt(hay, needle, r)
    requires forall k :: from <= k < r ==> !OccursAt(hay, needle, k)
    ensures Find(hay, needle, from) == r
  {
    FindFirst(hay, needle, from);
  }

  /** The first occurrence of a marker inside `buf[p..q]`, found on the section. */
  lemma FindInSection(buf: seq<Byte>, marker: seq<Byte>, p: nat, q: nat, s: nat)
    requires p <= s && s + |marker| <= q <= |buf| && OccursAt(buf, marker, s)
    requires forall k :: p <= k < s ==> !OccursAt(buf, marker, k)
    ensures Find(buf[p..q], marker, 0) == s - p
  {
    OccursInSlice(buf, marker, p, q, s - p);
    NoneInSliceBefore(buf, marker, p, q, s);
    FindIs(buf[p..q], marker, 0, s - p);
  }

  /** No occurrence in `buf` between `p` and `s` means none in `buf[p..q]`
      before `s - p`. */
  lemma NoneInSliceBefore(buf: seq<Byte>, marker: seq<Byte>, p: nat, q: nat, s: nat)
    requires p <= s && q <= |buf| && p <= q
    requires forall k :: p <= k < s ==> !OccursAt(buf, marker, k)
    ensures forall k :: 0 <= k < s - p ==> !OccursAt(buf[p..q], marker, k)
  {
    forall k | 0 <= k < s - p ensures !OccursAt(buf[p..q], marker, k) {
      OccursInSlice(buf, marker, p, q, k);
    }
  }
}

=== FILE: calibrate_color_mask.dfy ===
/** The HSV colour calibrator: a range of hue, saturation and value that a
    click on the camera image centres on the sampled pixel, a reset key
    that restores the default red range, loading the range from the
    configuration and saving it back into the `color_tracking` section.
    Sampled pixels are 8-bit; the subtraction and addition of the
    tolerances are modelled both as written (in 8-bit arithmetic) and with
    integers. */
module CalibrateColorMask {
  import opened Common

  /** An HSV range, `[h, s, v]` lower and upper bounds. */
  datatype HsvRange = HsvRange(hMin: int, hMax: int, sMin: int, sMax: int, vMin: int, vMax: int)

  /** The default red range: H 0 to 10, S and V 100 to 255. */
  const DefaultRange := HsvRange(0, 10, 100, 255, 100, 255)

  const HTolerance := 10
  const STolerance := 50
  const VTolerance := 50
  /** OpenCV hue runs over 0 to 179. */
  const HLimit := 179
  const SLimit := 255
  const VLimit := 255

  /** A pixel of the HSV frame: three 8-bit channels. */
  datatype Hsv = Hsv(h: Byte, s: Byte, v: Byte)

  // ---------------------------------------------------------------------
  // The click rule

  /** 8-bit subtraction, wrapping below 0. */
  function U8Sub(a: Byte, b: Byte): Byte
  {
    (a - b) % 256
  }

  /** 8-bit addition, wrapping above 255. */
  function U8Add(a: Byte, b: Byte): Byte
  {
    (a + b) % 256
  }

  /** The click rule as written: the tolerance arithmetic happens on the
      8-bit samples before `max(0, ...)` and `min(limit, ...)` apply. */
  function SampleRangeAsWritten(p: Hsv): (r: HsvRange)
    ensures 0 <= r.hMin <= 255 && 0 <= r.hMax <= HLimit
    ensures 0 <= r.sMin <= 255 && 0 <= r.sMax <= SLimit
    ensures 0 <= r.vMin <= 255 && 0 <= r.vMax <= VLimit
    ensures r.hMin <= p.h <==> HTolerance <= p.h
    ensures r.sMin <= p.s <==> STolerance <= p.s
    ensures r.vMin <= p.v <==> VTolerance <= p.v
    ensures p.h <= r.hMax <==> p.h <= HLimit && p.h + HTolerance <= 255
    ensures p.s <= r.sMax <==> p.s + STolerance <= 255
    ensures p.v <= r.vMax <==> p.v + VTolerance <= 255
  {
    HsvRange(MaxInt(0, U8Sub(p.h, HTolerance)), MinInt(HLimit, U8Add(p.h, HTolerance)),
             MaxInt(0, U8Sub(p.s, STolerance)), MinInt(SLimit, U8Add(p.s, STolerance)),
             MaxInt(0, U8Sub(p.v, VTolerance)), MinInt(VLimit, U8Add(p.v, VTolerance)))
  }

  /** A hue of 5 gives a lower hue bound of 251, above the sample and above
      every hue; a saturation of 250 gives an upper bound of 44, below the
      sample. Either range excludes the colour that was clicked. */
  lemma AsWrittenExcludesSample()
    ensures var r := SampleRangeAsWritten(Hsv(5, 120, 120));
      r.hMin == 251 && r.hMax == 15 && !(r.hMin <= 5 <= r.hMax)
    ensures var r := SampleRangeAsWritten(Hsv(100, 250, 120));
      r.sMin == 200 && r.sMax == 44 && !(r.sMin <= 250 <= r.sMax)
  {
  }

  /** The click rule with integer arithmetic: each bound is the sample
      minus or plus its tolerance, clipped to the channel's range, so each
      bound is either a tolerance away from the sample or the channel's
      end. A hue sample lies in its range when it is a valid OpenCV hue;
      saturation and value samples always lie in theirs. */
  function SampleRange(p: Hsv): (r: HsvRange)
    ensures 0 <= r.hMin <= p.h && (p.h <= HLimit ==> p.h <= r.hMax <= HLimit)
    ensures 0 <= r.sMin <= p.s <= r.sMax <= SLimit
    ensures 0 <= r.vMin <= p.v <= r.vMax <= VLimit
    ensures r.hMax - r.hMin <= 2 * HTolerance && r.sMax - r.sMin <= 2 * STolerance && r.vMax - r.vMin <= 2 * VTolerance
    ensures p.h - r.hMin <= HTolerance && p.s - r.sMin <= STolerance && p.v - r.vMin <= VTolerance
    ensures r.hMax - p.h <= HTolerance && r.sMax - p.s <= STolerance && r.vMax - p.v <= VTolerance
    ensures (r.hMin == 0 || r.hMin == p.h - HTolerance) && (r.hMax == HLimit || r.hMax == p.h + HTolerance)
    ensures (r.sMin == 0 || r.sMin == p.s - STolerance) && (r.sMax == SLimit || r.sMax == p.s + STolerance)
    ensures (r.vMin == 0 || r.vMin == p.v - VTolerance) && (r.vMax == VLimit || r.vMax == p.v + VTolerance)
  {
    HsvRange(MaxInt(0, p.h - HTolerance), MinInt(HLimit, p.h + HTolerance),
             MaxInt(0, p.s - STolerance), MinInt(SLimit, p.s + STolerance),
             MaxInt(0, p.v - VTolerance), MinInt(VLimit, p.v + VTolerance))
  }

  /** Away from the ends of the 8-bit range the two rules agree: the
      wrap-around only shows for samples within a tolerance of 0 or 255. */
  lemma AgreesAwayFromWrap(p: Hsv)
    requires HTolerance <= p.h <= 255 - HTolerance
    requires STolerance <= p.s <= 255 - STolerance
    requires VTolerance <= p.v <= 255 - VTolerance
    ensures SampleRangeAsWritten(p) == SampleRange(p)
  {
    NoWrap(p.h, HTolerance);
    NoWrap(p.s, STolerance);
    NoWrap(p.v, VTolerance);
  }

  /** 8-bit arithmetic is exact when the result stays within 0 to 255. */
  lemma NoWrap(a: Byte, t: Byte)
    requires t <= a <= 255 - t
    ensures U8Sub(a, t) == a - t && U8Add(a, t) == a + t
  {
  }

  // ---------------------------------------------------------------------
  // Configuration

  /** The configuration file: sections of named integer lists. */
  type Config = map<string, map<string, seq<int>>>

  const Section := "color_tracking"
  const LowerKey := "hsv_lower"
  const UpperKey := "hsv_upper"

  /** `load_existing_config`: without a file the defaults stay. Otherwise
      each of the lower and upper lists (defaulting to the default range)
      is unpacked in turn; a list that is not three long raises, which
      leaves it and everything after it at the defaults. */
  function LoadRange(file: Option<Config>): (r: HsvRange)
    ensures file.None? ==> r == DefaultRange
    ensures file.Some? && Section !in file.value ==> r == DefaultRange
  {
    if file.None? then DefaultRange
    else
      var section := if Section in file.value then file.value[Section] else map[];
      var lower := if LowerKey in section then section[LowerKey] else [0, 100, 100];
      var upper := if UpperKey in section then section[UpperKey] else [10, 255, 255];
      if |lower| != 3 then DefaultRange
      else
        var withLower := DefaultRange.(hMin := lower[0], sMin := lower[1], vMin := lower[2]);
        if |upper| != 3 then withLower
        else withLower.(hMax := upper[0], sMax := upper[1], vMax := upper[2])
  }

  /** The section `save_to_config` writes. */
  function SavedSection(existing: map<string, seq<int>>, r: HsvRange): (m: map<string, seq<int>>)
    ensures m.Keys == existing.Keys + {LowerKey, UpperKey}
    ensures m[LowerKey] == [r.hMin, r.sMin, r.vMin] && m[UpperKey] == [r.hMax, r.sMax, r.vMax]
    ensures forall k :: k in existing && k != LowerKey && k != UpperKey ==> m[k] == existing[k]
  {
    existing[LowerKey := [r.hMin, r.sMin, r.vMin]][UpperKey := [r.hMax, r.sMax, r.vMax]]
  }

  /** Loading what was saved gives back the saved range. */
  lemma SaveLoadRoundTrip(file: Option<Config>, r: HsvRange)
    ensures var base := if file.Some? then file.value else map[];
      var sec := if Section in base then base[Section] else map[];
      LoadRange(Some(base[Section := SavedSection(sec, r)])) == r
  {
  }

  // ---------------------------------------------------------------------
  // The calibrator

  /** Mouse events: only a left-button press samples. */
  datatype MouseEvent = LeftButtonDown | OtherMouseEvent

  /** `ColorCalibrator`, without the camera and windows. */
  class ColorCalibrator {
    var range: HsvRange

    /** The defaults, replaced by the configured range if there is one. */
    constructor (file: Option<Config>)
      ensures range == LoadRange(file)
    {
      range := LoadRange(file);
    }

    /** `mouse_callback`: a left click centres the range on the sampled
        pixel; any other event changes nothing. */
    method MouseCallback(event: MouseEvent, sample: Hsv)
      modifies this
      ensures event == LeftButtonDown ==> range == SampleRange(sample)
      ensures event != LeftButtonDown ==> range == old(range)
    {
      if event == LeftButtonDown {
        var h, s, v := sample.h, sample.s, sample.v;
        range := HsvRange(MaxInt(0, h - HTolerance), MinInt(HLimit, h + HTolerance),
                          MaxInt(0, s - STolerance), MinInt(SLimit, s + STolerance),
                          MaxInt(0, v - VTolerance), MinInt(VLimit, v + VTolerance));
      }
    }

    /** The `r` key: back to the default range. */
    method Reset()
      modifies this
      ensures range == DefaultRange
    {
      range := HsvRange(0, 10, 100, 255, 100, 255);
    }

    /** `save_to_config`: the file's configuration (empty when there is no
        file) with only `color_tracking.hsv_lower` and `hsv_upper` set; the
        section is created if missing, and every other section and key is
        kept. */
    method SaveToConfig(file: Option<Config>) returns (out: Config)
      ensures var base := if file.Some? then file.value else map[];
        out.Keys == base.Keys + {Section} &&
        (forall k :: k in base && k != Section ==> out[k] == base[k]) &&
        LowerKey in out[Section] && UpperKey in out[Section] &&
        out[Section][LowerKey] == [range.hMin, range.sMin, range.vMin] &&
        out[Section][UpperKey] == [range.hMax, range.sMax, range.vMax] &&
        (forall k :: k in out[Section] && k != LowerKey && k != UpperKey ==> Section in base && k in base[Section] && out[Section][k] == base[Section][k]) &&
        (Section in base ==> out[Section].Keys == base[Section].Keys + {LowerKey, UpperKey})
    {
      var config: Config := if file.Some? then file.value else map[];
      if Section !in config {
        config := config[Section := map[]];
      }
      var section := config[Section];
      section := section[LowerKey := [range.hMin, range.sMin, range.vMin]];
      section := section[UpperKey := [range.hMax, range.sMax, range.vMax]];
      config := config[Section := section];
      return config;
    }

    /** One key of the calibration loop: `q` quits, `s` saves (returning
        the configuration written), `r` resets; other keys do nothing. */
    method HandleKey(key: char, file: Option<Config>) returns (quit: bool, saved: Option<Config>)
      modifies this
      ensures quit <==> key == 'q'
      ensures saved.Some? <==> key == 's'
      ensures key == 'r' ==> range == DefaultRange
      ensures key != 'r' ==> range == old(range)
    {
      quit, saved := false, None;
      if key == 'q' {
        quit := true;
      } else if key == 's' {
        var out := SaveToConfig(file);
        saved := Some(out);
      } else if key == 'r' {
        Reset();
      }
    }
  }
}

=== FILE: calibrate_focal_length.dfy ===
/** The focal-length calibration tool: each time the operator presses
    space with a marker in view and types the true distance, the focal
    length that would make the distance estimate exact is recorded; at the
    end the recorded focal lengths are averaged. The camera, windows and
    console are inputs: a sequence of loop passes, each with the markers
    detected and the key pressed (and, for space, the parsed distance). */
module CalibrateFocalLength {
  import opened Common
  import AD = ArucoDetector

  /** The rearranged distance formula:
      `focal = perceived width * distance / marker size`. */
  function FocalLength(width: real, distanceCm: real, markerSizeCm: real): (r: real)
    requires markerSizeCm != 0.0
    ensures r * markerSizeCm == width * distanceCm
  {
    (width * distanceCm) / markerSizeCm
  }

  /** The formula inverts the detector's distance estimate: a detector
      configured with the computed focal length estimates exactly the
      measured distance for the same marker. */
  lemma FocalLengthRoundTrip(dictionary: string, markerSizeCm: real, distanceCm: real, m: AD.Marker)
    requires markerSizeCm != 0.0 && AD.PerceivedWidth(m) != 0.0
    ensures var f := FocalLength(AD.PerceivedWidth(m), distanceCm, markerSizeCm);
      AD.EstimateDistance(AD.Detector(dictionary, markerSizeCm, f), m) == distanceCm
  {
    var w := AD.PerceivedWidth(m);
    var f := FocalLength(w, distanceCm, markerSizeCm);
    var d := AD.EstimateDistance(AD.Detector(dictionary, markerSizeCm, f), m);
    assert d * w == markerSizeCm * f;
    assert markerSizeCm * f == w * distanceCm;
    assert d * w == distanceCm * w;
  }

  /** One recorded measurement. */
  datatype Measurement = Measurement(actualDistance: real, perceivedWidth: real, focalLength: real)

  /** The key of one loop pass; for space, the typed distance when it
      parses as a number. */
  datatype Key = QuitKey | SpaceKey(distance: Option<real>) | OtherKey

  /** One pass of the loop: a failed read, or a frame with its detected
      markers and the key pressed. */
  datatype Pass = ReadFailed | Shown(markers: seq<AD.Marker>, key: Key)

  /** Whether the pass ends the loop. */
  predicate Quits(p: Pass)
  {
    p.Shown? && p.key == QuitKey
  }

  /** What one pass records: space with a marker in view and a number
      typed records the first marker's width and its focal length;
      anything else records nothing. */
  function PassRecord(markerSizeCm: real, p: Pass): (r: seq<Measurement>)
    requires markerSizeCm != 0.0
    ensures |r| <= 1
    ensures r != [] <==> p.Shown? && p.key.SpaceKey? && p.markers != [] && p.key.distance.Some?
  {
    if p.Shown? && p.key.SpaceKey? && p.markers != [] && p.key.distance.Some? then
      var w := AD.PerceivedWidth(p.markers[0]);
      var d := p.key.distance.value;
      [Measurement(d, w, FocalLength(w, d, markerSizeCm))]
    else []
  }

  /** The measurements of the passes up to the first quit. */
  function Recorded(markerSizeCm: real, passes: seq<Pass>): (r: seq<Measurement>)
    requires markerSizeCm != 0.0
    ensures |r| <= |passes|
    decreases |passes|
  {
    if passes == [] || Quits(passes[0]) then []
    else PassRecord(markerSizeCm, passes[0]) + Recorded(markerSizeCm, passes[1..])
  }

  /** Every recorded focal length is the rearranged formula for its own
      width and distance. */
  lemma {:induction false} RecordedAreConsistent(markerSizeCm: real, passes: seq<Pass>)
    requires markerSizeCm != 0.0
    ensures forall k :: 0 <= k < |Recorded(markerSizeCm, passes)| ==>
      Recorded(markerSizeCm, passes)[k].focalLength * markerSizeCm ==
      Recorded(markerSizeCm, passes)[k].perceivedWidth * Recorded(markerSizeCm, passes)[k].actualDistance
    decreases |passes|
  {
    if passes != [] && !Quits(passes[0]) {
      RecordedAreConsistent(markerSizeCm, passes[1..]);
    }
  }

  /** Passes with no marker, or with a distance that is not a number, add
      nothing. */
  lemma {:induction false} UnusablePassesRecordNothing(markerSizeCm: real, passes: seq<Pass>)
    requires markerSizeCm != 0.0
    requires forall i :: 0 <= i < |passes| ==>
      passes[i].ReadFailed? || passes[i].markers == [] || !passes[i].key.SpaceKey? || passes[i].key.distance.None?
    ensures Recorded(markerSizeCm, passes) == []
    decreases |passes|
  {
    if passes != [] && !Quits(passes[0]) {
      UnusablePassesRecordNothing(markerSizeCm, passes[1..]);
    }
  }

  function Sum(xs: seq<real>): real
    decreases |xs|
  {
    if xs == [] then 0.0 else xs[0] + Sum(xs[1..])
  }

  /** The focal lengths of the measurements. */
  function Focals(ms: seq<Measurement>): (r: seq<real>)
    ensures |r| == |ms| && forall k :: 0 <= k < |ms| ==> r[k] == ms[k].focalLength
  {
    seq(|ms|, k requires 0 <= k < |ms| => ms[k].focalLength)
  }

  /** The result: the mean focal length, or None without measurements. */
  function MeanFocal(ms: seq<Measurement>): (r: Option<real>)
    ensures r.None? <==> ms == []
  {
    if ms == [] then None else Some(Sum(Focals(ms)) / |ms| as real)
  }

  /** Sums are monotone pointwise. */
  lemma {:induction false} SumBounds(xs: seq<real>, lo: real, hi: real)
    requires forall k :: 0 <= k < |xs| ==> lo <= xs[k] <= hi
    ensures |xs| as real * lo <= Sum(xs) <= |xs| as real * hi
    decreases |xs|
  {
    if xs != [] {
      SumBounds(xs[1..], lo, hi);
    }
  }

  /** The mean lies between the smallest and the largest recorded focal
      length; when all agree it is that value. */
  lemma MeanWithinMeasurements(ms: seq<Measurement>, lo: real, hi: real)
    requires ms != []
    requires forall k :: 0 <= k < |ms| ==> lo <= ms[k].focalLength <= hi
    ensures lo <= MeanFocal(ms).value <= hi
  {
    var n := |ms| as real;
    SumBounds(Focals(ms), lo, hi);
    var s := Sum(Focals(ms));
    assert n * lo <= s <= n * hi;
    assert MeanFocal(ms).value == s / n;
    assert s / n >= lo by {
      assert s >= n * lo;
    }
    assert s / n <= hi by {
      assert s <= n * hi;
    }
  }

  /** One pass of the loop that does not quit: a failed read is skipped;
      space without a marker, or with input that is not a number, records
      nothing; otherwise the first marker's measurement is recorded. */
  method RecordPass(markerSizeCm: real, p: Pass) returns (rec: seq<Measurement>)
    requires markerSizeCm != 0.0
    ensures rec == PassRecord(markerSizeCm, p)
  {
    rec := [];
    if p.ReadFailed? || !p.key.SpaceKey? {
      return;
    }
    if p.markers == [] {
      return;
    }
    if p.key.distance.None? {
      return;
    }
    var w := AD.PerceivedWidth(p.markers[0]);
    var d := p.key.distance.value;
    rec := [Measurement(d, w, FocalLength(w, d, markerSizeCm))];
  }

  /** `calibrate_focal_length` after the camera is open: passes run until
      `q`; the result is the mean of what was recorded, or None. */
  method Calibrate(markerSizeCm: real, passes: seq<Pass>) returns (result: Option<real>, measurements: seq<Measurement>)
    requires markerSizeCm != 0.0
    ensures measurements == Recorded(markerSizeCm, passes)
    ensures result == MeanFocal(measurements)
  {
    measurements := [];
    var i := 0;
    while i < |passes|
      invariant i <= |passes|
      invariant measurements + Recorded(markerSizeCm, passes[i..]) == Recorded(markerSizeCm, passes)
    {
      assert passes[i..][1..] == passes[i + 1..];
      if Quits(passes[i]) {
        break;
      }
      var rec := RecordPass(markerSizeCm, passes[i]);
      ghost var prev := measurements;
      ghost var rest := Recorded(markerSizeCm, passes[i + 1..]);
      measurements := measurements + rec;
      assert measurements + rest == prev + (rec + rest);
      i := i + 1;
    }
    if i == |passes| {
      assert passes[i..] == [];
    }
    if measurements == [] {
      return None, measurements;
    }
    var focals := Focals(measurements);
    return Some(Sum(focals) / |measurements| as real), measurements;
  }
}

=== FILE: camera_client.dfy ===
/** The MJPEG stream client (`CameraStreamClient`): it reads the multipart
    boundary token from the `Content-Type` header, accumulates the body's
    chunks in a byte buffer, and carves JPEG images out of the buffer, first
    between two boundary delimiters and otherwise between the first
    FF D8 (start of image) and the first FF D9 (end of image). */
module CameraClient {
  import opened Common
  import opened ByteSearch

  const SOI: seq<Byte> := [0xFF, 0xD8]
  const EOI: seq<Byte> := [0xFF, 0xD9]
  /** Buffer length beyond which the buffer is trimmed after an append. */
  const MaxBuffer: nat := 500000
  /** Bytes kept when the trim finds no usable start-of-image marker. */
  const KeepTail: nat := 100000

  /* ---------------- Content-Type boundary token ---------------- */

  /** Python's `\s` for `str` patterns, which is also what `str.strip()` removes. */
  predicate IsSpace(c: char)
  {
    var n := c as int;
    (9 <= n <= 13) || (28 <= n <= 32) || n == 0x85 || n == 0xA0 || n == 0x1680
    || (0x2000 <= n <= 0x200A) || n == 0x2028 || n == 0x2029 || n == 0x202F
    || n == 0x205F || n == 0x3000
  }

  /** A character of the character class `[^\s;]`. */
  predicate IsTokenChar(c: char)
  {
    !IsSpace(c) && c != ';'
  }

  const Key: string := "boundary="

  /** The pattern `boundary=([^\s;]+)` matches at index `i`. */
  predicate KeyMatchAt(h: string, i: int)
  {
    0 <= i && i + |Key| < |h| && h[i..i + |Key|] == Key && IsTokenChar(h[i + |Key|])
  }

  /** `re.search`: the leftmost index at or after `from` where the pattern matches. */
  function FirstKeyMatch(h: string, from: nat): (r: Option<nat>)
    ensures r.Some? ==> from <= r.value && KeyMatchAt(h, r.value)
    ensures r.Some? ==> forall k :: from <= k < r.value ==> !KeyMatchAt(h, k)
    ensures r.None? ==> forall k :: from <= k ==> !KeyMatchAt(h, k)
    decreases |h| - from
  {
    if from + |Key| >= |h| then None
    else if KeyMatchAt(h, from) then Some(from)
    else FirstKeyMatch(h, from + 1)
  }

  /** Length of the greedy run `[^\s;]+` that starts at `i`. */
  function TokenRun(h: string, i: nat): (n: nat)
    requires i <= |h|
    ensures i + n <= |h|
    ensures forall k :: i <= k < i + n ==> IsTokenChar(h[k])
    ensures i + n == |h| || !IsTokenChar(h[i + n])
    decreases |h| - i
  {
    if i == |h| || !IsTokenChar(h[i]) then 0 else 1 + TokenRun(h, i + 1)
  }

  /** Number of consecutive whitespace characters from index `i` on. */
  function SpaceRun(s: string, i: nat): (n: nat)
    requires i <= |s|
    ensures i + n <= |s|
    ensures forall k :: i <= k < i + n ==> IsSpace(s[k])
    ensures i + n == |s| || !IsSpace(s[i + n])
    decreases |s| - i
  {
    if i < |s| && IsSpace(s[i]) then 1 + SpaceRun(s, i + 1) else 0
  }

  /** Number of consecutive whitespace characters ending just before index `i`. */
  function SpaceRunBefore(s: string, i: nat): (n: nat)
    requires i <= |s|
    ensures n <= i
    ensures forall k :: i - n <= k < i ==> IsSpace(s[k])
    ensures n == i || !IsSpace(s[i - n - 1])
  {
    if i > 0 && IsSpace(s[i - 1]) then 1 + SpaceRunBefore(s, i - 1) else 0
  }

  /** `str.strip()`: `s` is a run of whitespace, then `r`, then a run of
      whitespace, and `r` neither starts nor ends with whitespace. */
  function Strip(s: string): (r: string)
    ensures exists i, j :: (0 <= i <= j <= |s| && r == s[i..j] &&
                            (forall k :: 0 <= k < i ==> IsSpace(s[k])) && (forall k :: j <= k < |s| ==> IsSpace(s[k])))
    ensures r != [] ==> !IsSpace(r[0]) && !IsSpace(r[|r| - 1])
    ensures r == [] <==> forall k :: 0 <= k < |s| ==> IsSpace(s[k])
    ensures (forall k :: 0 <= k < |s| ==> !IsSpace(s[k])) ==> r == s
  {
    var lo := SpaceRun(s, 0);
    var hi := |s| - SpaceRunBefore(s, |s|);
    if lo == |s| then
      assert s[|s|..|s|] == [];
      []
    else
      assert !IsSpace(s[lo]);
      assert lo < hi;
      s[lo..hi]
  }

  /** Number of consecutive `-` characters from index `i` on. */
  function DashRun(s: string, i: nat): (n: nat)
    requires i <= |s|
    ensures i + n <= |s|
    ensures forall k :: i <= k < i + n ==> s[k] == '-'
    ensures i + n == |s| || s[i + n] != '-'
    decreases |s| - i
  {
    if i < |s| && s[i] == '-' then 1 + DashRun(s, i + 1) else 0
  }

  /** `str.lstrip('-')`. */
  function LStripDash(s: string): (r: string)
    ensures |r| <= |s| && forall k :: 0 <= k < |r| ==> r[k] == s[|s| - |r| + k]
    ensures forall k :: 0 <= k < |s| - |r| ==> s[k] == '-'
    ensures r == [] || r[0] != '-'
  {
    s[DashRun(s, 0)..]
  }

  /** The token text: the first match's group, stripped, without leading dashes. */
  function BoundaryText(h: string): Option<string>
  {
    match FirstKeyMatch(h, 0)
    case None => None
    case Some(i) =>
      Some(TokenAfter(h, i + |Key|))
  }

  /** The group that starts at `j`, stripped, without its leading dashes. */
  function TokenAfter(h: string, j: nat): string
    requires j <= |h|
  {
    LStripDash(Strip(Group(h, j)))
  }

  /** The captured group: the token run that starts at `j`. */
  function Group(h: string, j: nat): (g: string)
    requires j <= |h|
    ensures j + |g| <= |h| && forall k :: 0 <= k < |g| ==> g[k] == h[j + k]
    ensures forall k :: 0 <= k < |g| ==> IsTokenChar(g[k])
    ensures j + |g| == |h| || !IsTokenChar(h[j + |g|])
  {
    h[j..j + TokenRun(h, j)]
  }

  /** UTF-8 encoding of one character (`str.encode()`): an ASCII character
      is its own code; a longer form has a leading byte that announces its
      length and continuation bytes `10xxxxxx`. */
  function Utf8Char(c: char): (r: seq<Byte>)
    ensures 1 <= |r| <= 4
    ensures (c as int < 0x80) <==> |r| == 1
    ensures c as int < 0x80 ==> r == [c as int]
    ensures |r| == 2 <==> 0x80 <= c as int < 0x800
    ensures |r| == 3 <==> 0x800 <= c as int < 0x10000
    ensures |r| == 2 ==> 0xC0 <= r[0] < 0xE0
    ensures |r| == 3 ==> 0xE0 <= r[0] < 0xF0
    ensures |r| == 4 ==> 0xF0 <= r[0] < 0xF8
    ensures forall k :: 1 <= k < |r| ==> 0x80 <= r[k] < 0xC0
  {
    var n := c as int;
    if n < 0x80 then [n]
    else if n < 0x800 then [0xC0 + n / 64, 0x80 + n % 64]
    else if n < 0x10000 then [0xE0 + n / 4096, 0x80 + (n / 64) % 64, 0x80 + n % 64]
    else [0xF0 + n / 262144, 0x80 + (n / 4096) % 64, 0x80 + (n / 64) % 64, 0x80 + n % 64]
  }

  /** The code point a one-character UTF-8 form carries: the payload bits of
      the leading byte followed by six bits per continuation byte. */
  function Utf8Decode(r: seq<Byte>): int
    requires 1 <= |r| <= 4
  {
    var b := seq(|r|, k requires 0 <= k < |r| => r[k] as int);
    if |r| == 1 then b[0]
    else if |r| == 2 then (b[0] - 0xC0) * 64 + (b[1] - 0x80)
    else if |r| == 3 then ((b[0] - 0xE0) * 64 + (b[1] - 0x80)) * 64 + (b[2] - 0x80)
    else (((b[0] - 0xF0) * 64 + (b[1] - 0x80)) * 64 + (b[2] - 0x80)) * 64 + (b[3] - 0x80)
  }

  /** Decoding the encoding of a character gives back its code point. */
  lemma Utf8CharRoundTrip(c: char)
    ensures Utf8Decode(Utf8Char(c)) == c as int
  {
    var n := c as int;
    if n >= 0x800 {
      assert n / 4096 == (n / 64) / 64 by { DivTwice(n, 64, 64); }
      if n >= 0x10000 {
        assert n / 262144 == (n / 4096) / 64 by { DivTwice(n, 4096, 64); }
      }
    }
  }

  /** `str.encode()`: the characters' encodings one after the other (ASCII
      text encodes to its own character codes: `Utf8Ascii`). */
  function Utf8(s: string): (r: seq<Byte>)
    ensures |s| <= |r| <= 4 * |s|
  {
    if s == [] then [] else Utf8Char(s[0]) + Utf8(s[1..])
  }

  /** An all-ASCII string encodes to its own code points, one byte each. */
  lemma {:induction false} Utf8Ascii(s: string)
    requires forall i :: 0 <= i < |s| ==> s[i] as int < 0x80
    ensures |Utf8(s)| == |s|
    ensures forall i :: 0 <= i < |s| ==> Utf8(s)[i] == s[i] as int
  {
    if s != [] {
      Utf8Ascii(s[1..]);
      assert Utf8(s) == [s[0] as int] + Utf8(s[1..]);
    }
  }

  /** Encoding a concatenation concatenates the encodings. */
  lemma {:induction false} Utf8Append(a: string, b: string)
    ensures Utf8(a + b) == Utf8(a) + Utf8(b)
  {
    if a == [] {
      assert a + b == b;
    } else {
      assert (a + b)[1..] == a[1..] + b;
      Utf8Append(a[1..], b);
    }
  }

  /** The boundary token that `start_stream` stores, or None when the header has no match. */
  function ParseBoundary(h: string): (r: Option<seq<Byte>>)
    ensures r.Some? <==> exists i :: KeyMatchAt(h, i)
  {
    match BoundaryText(h)
    case None => None
    case Some(t) => Some(Utf8(t))
  }

  /** The token is taken from the first `boundary=` that is followed by a
      token character, and from nowhere else. */
  lemma BoundaryTextSpec(h: string, i: nat)
    requires KeyMatchAt(h, i) && forall k :: 0 <= k < i ==> !KeyMatchAt(h, k)
    ensures FirstKeyMatch(h, 0) == Some(i)
    ensures BoundaryText(h) == Some(TokenAfter(h, i + |Key|))
  {
  }

  /** The token is the run of non-space, non-`;` characters at `j` minus
      its leading dashes: the run is some dashes followed by the token, and
      it ends at a space, a `;` or the end of the header. */
  lemma TokenAfterSpec(h: string, j: nat)
    requires j <= |h|
    ensures TokenAfter(h, j) == LStripDash(Group(h, j))
    ensures var t := LStripDash(Group(h, j));
      var n := |Group(h, j)|;
      && |t| <= n
      && (t == [] || t[0] != '-')
      && (forall k :: 0 <= k < |t| ==> IsTokenChar(t[k]))
      && (forall k :: j <= k < j + n - |t| ==> h[k] == '-')
      && (forall k :: 0 <= k < |t| ==> h[j + n - |t| + k] == t[k])
      && (j + n == |h| || !IsTokenChar(h[j + n]))
  {
    TokenAfterIsRunWithoutDashes(h, j);
    TokenTail(h, j);
    TokenDashes(h, j);
  }

  /** Without its leading dashes, the run is a tail of itself made of token characters. */
  lemma TokenTail(h: string, j: nat)
    requires j <= |h|
    ensures var t := LStripDash(Group(h, j));
      var n := |Group(h, j)|;
      && |t| <= n
      && (forall k :: 0 <= k < |t| ==> h[j + n - |t| + k] == t[k] && IsTokenChar(t[k]))
  {
    var group := Group(h, j);
    var n := |group|;
    var t := LStripDash(group);
    forall k | 0 <= k < |t| ensures h[j + n - |t| + k] == t[k] && IsTokenChar(t[k]) {
      assert t[k] == group[n - |t| + k];
    }
  }

  /** What precedes the token in the run is dashes, and the token does not
      start with one. */
  lemma TokenDashes(h: string, j: nat)
    requires j <= |h|
    ensures var t := LStripDash(Group(h, j));
      var n := |Group(h, j)|;
      && |t| <= n
      && (t == [] || t[0] != '-')
      && (forall k :: j <= k < j + n - |t| ==> h[k] == '-')
  {
    var group := Group(h, j);
    var n := |group|;
    var t := LStripDash(group);
    forall k | j <= k < j + n - |t| ensures h[k] == '-' {
      assert h[k] == group[k - j];
    }
  }

  /** A run of token characters holds no space, so `strip()` leaves it alone. */
  lemma TokenAfterIsRunWithoutDashes(h: string, j: nat)
    requires j <= |h|
    ensures TokenAfter(h, j) == LStripDash(Group(h, j))
  {
    var group := Group(h, j);
    assert Strip(group) == group;
  }

  /** A header without a `boundary=` match leaves the stored token unchanged. */
  lemma NoMatchMeansNoToken(h: string)
    requires forall i :: !KeyMatchAt(h, i)
    ensures ParseBoundary(h) == None
  {
  }

  /* ---------------- Carving JPEG images out of the buffer ---------------- */

  /** A JPEG candidate, the buffer index where it starts, and the buffer
      index at which the remaining buffer starts. */
  datatype Cut = Cut(jpeg: seq<Byte>, at: nat, rest: nat)

  /** The candidate is a contiguous run of the buffer that ends by the cut. */
  predicate WellPlaced(c: Cut, buf: seq<Byte>)
  {
    c.at + |c.jpeg| <= c.rest <= |buf| && buf[c.at..c.at + |c.jpeg|] == c.jpeg
  }

  /** `b'--' + token`, the multipart delimiter. */
  function Delimiter(token: seq<Byte>): seq<Byte>
  {
    [0x2D, 0x2D] + token
  }

  /** `a` is a tail of `b`. */
  predicate IsSuffix<T(==)>(a: seq<T>, b: seq<T>)
  {
    |a| <= |b| && forall k :: 0 <= k < |a| ==> a[k] == b[|b| - |a| + k]
  }

  /** The boundary path: the section from the first delimiter to the next one
      (searched from the first one's index plus the token's length) must hold
      both markers; the candidate is the section's slice `[first FF D8 :
      first FF D9 + 2]`, and the buffer is cut where the second delimiter
      starts. */
  function BoundaryCut(buf: seq<Byte>, token: seq<Byte>): (r: Option<Cut>)
    ensures r.Some? ==> WellPlaced(r.value, buf) && OccursAt(buf, Delimiter(token), r.value.rest)
  {
    match Delimiters(buf, token)
    case None => None
    case Some(section) => SectionCut(buf, section.0, section.1)
  }

  /** Where the section starts and ends: the first delimiter, and the next
      one searched from the first one's index plus the token's length. */
  function Delimiters(buf: seq<Byte>, token: seq<Byte>): (r: Option<(nat, nat)>)
    ensures r.Some? ==> r.value.0 <= r.value.1 <= |buf| && OccursAt(buf, Delimiter(token), r.value.1)
  {
    var d := Delimiter(token);
    var bs := Find(buf, d, 0);
    if bs == -1 then None
    else
      var nb := Find(buf, d, bs + |token|);
      if nb == -1 then None else Some((bs, nb))
  }

  /** The candidate inside the section `buf[bs..nb]` between two delimiters:
      the slice from the section's first FF D8 to its first FF D9 plus two,
      with the buffer cut at `nb`. */
  function SectionCut(buf: seq<Byte>, bs: nat, nb: nat): (r: Option<Cut>)
    requires bs <= nb <= |buf|
    ensures r.Some? ==> WellPlaced(r.value, buf) && r.value.rest == nb
  {
    var chunk := buf[bs..nb];
    var js := Find(chunk, SOI, 0);
    var je := Find(chunk, EOI, 0);
    if js == -1 || je == -1 then None
    // both slice ends lie inside the section, so Python's slice is empty when je + 2 <= js
    else if je + 2 <= js then Some(Cut([], bs + js, nb))
    else
      // chunk[js..je + 2] is this slice of the buffer
      Some(Cut(buf[bs + js..bs + je + 2], bs + js, nb))
  }

  /** With delimiters at `p` (the first) and `q` (the next one at or after
      `p` plus the token's length), and first markers at `s` and `e` inside the
      section, the buffer is cut at `q`, so the second delimiter is kept, and
      the candidate is `buf[s..e+2]`; no ordering check is made, and when
      the end marker comes first the candidate is empty. */
  lemma {:induction false} BoundaryCutAt(buf: seq<Byte>, token: seq<Byte>, p: nat, q: nat, s: nat, e: nat)
    requires OccursAt(buf, Delimiter(token), p) && forall k :: 0 <= k < p ==> !OccursAt(buf, Delimiter(token), k)
    requires p + |token| <= q && OccursAt(buf, Delimiter(token), q)
    requires forall k :: p + |token| <= k < q ==> !OccursAt(buf, Delimiter(token), k)
    requires p <= s && s + 2 <= q && OccursAt(buf, SOI, s) && forall k :: p <= k < s ==> !OccursAt(buf, SOI, k)
    requires p <= e && e + 2 <= q && OccursAt(buf, EOI, e) && forall k :: p <= k < e ==> !OccursAt(buf, EOI, k)
    ensures BoundaryCut(buf, token) == Some(Cut(if e + 2 <= s then [] else buf[s..e + 2], s, q))
  {
    DelimitersAt(buf, token, p, q);
    SectionCutAt(buf, p, q, s, e);
  }

  /** The delimiters found are the first one and the next one far enough after it. */
  lemma DelimitersAt(buf: seq<Byte>, token: seq<Byte>, p: nat, q: nat)
    requires OccursAt(buf, Delimiter(token), p) && forall k :: 0 <= k < p ==> !OccursAt(buf, Delimiter(token), k)
    requires p + |token| <= q && OccursAt(buf, Delimiter(token), q)
    requires forall k :: p + |token| <= k < q ==> !OccursAt(buf, Delimiter(token), k)
    ensures Delimiters(buf, token) == Some((p, q))
  {
    FindIs(buf, Delimiter(token), 0, p);
    FindIs(buf, Delimiter(token), p + |token|, q);
    DelimitersOf(buf, token, p, q);
  }

  /** `Delimiters` from the results of its two searches. */
  lemma DelimitersOf(buf: seq<Byte>, token: seq<Byte>, p: nat, q: nat)
    requires Find(buf, Delimiter(token), 0) == p
    requires Find(buf, Delimiter(token), p + |token|) == q
    ensures Delimiters(buf, token) == Some((p, q))
  {
    var d := Delimiter(token);
    assert Find(buf, d, 0) != -1 && Find(buf, d, p + |token|) != -1;
  }

  /** Inside a section, with first markers at `s` and `e`, the candidate is
      `buf[s..e+2]`, or empty when the end marker comes first. */
  lemma SectionCutAt(buf: seq<Byte>, p: nat, q: nat, s: nat, e: nat)
    requires q <= |buf|
    requires p <= s && s + 2 <= q && OccursAt(buf, SOI, s) && forall k :: p <= k < s ==> !OccursAt(buf, SOI, k)
    requires p <= e && e + 2 <= q && OccursAt(buf, EOI, e) && forall k :: p <= k < e ==> !OccursAt(buf, EOI, k)
    ensures SectionCut(buf, p, q) == Some(Cut(if e + 2 <= s then [] else buf[s..e + 2], s, q))
  {
    FindInSection(buf, SOI, p, q, s);
    FindInSection(buf, EOI, p, q, e);
  }

  /** Without a first or a second delimiter the boundary path does nothing. */
  lemma BoundaryCutNeedsTwoDelimiters(buf: seq<Byte>, token: seq<Byte>)
    requires (forall k :: !OccursAt(buf, Delimiter(token), k))
      || (exists p :: OccursAt(buf, Delimiter(token), p)
            && (forall k :: 0 <= k < p ==> !OccursAt(buf, Delimiter(token), k))
            && (forall k :: p + |token| <= k ==> !OccursAt(buf, Delimiter(token), k)))
    ensures Delimiters(buf, token).None? && BoundaryCut(buf, token).None?
  {
    FindFirst(buf, Delimiter(token), 0);
    if !forall k :: !OccursAt(buf, Delimiter(token), k) {
      var p :| OccursAt(buf, Delimiter(token), p)
            && (forall k :: 0 <= k < p ==> !OccursAt(buf, Delimiter(token), k))
            && (forall k :: p + |token| <= k ==> !OccursAt(buf, Delimiter(token), k));
      FindIs(buf, Delimiter(token), 0, p);
      FindFirst(buf, Delimiter(token), p + |token|);
    }
  }

  /** The fallback path: the slice from the first FF D8 through the first
      FF D9, provided that the FF D9 comes after the FF D8. */
  function FallbackCut(buf: seq<Byte>): (r: Option<Cut>)
    ensures r.Some? ==> WellPlaced(r.value, buf) && r.value.at + |r.value.jpeg| == r.value.rest
  {
    var start := Find(buf, SOI, 0);
    var end := Find(buf, EOI, 0);
    if start != -1 && end != -1 && end > start then Some(Cut(buf[start..end + 2], start, end + 2))
    else None
  }

  /** When the first start-of-image marker `s` precedes the first
      end-of-image marker `e`, the fallback emits exactly `buf[s..e+2]`, which
      opens with FF D8 and closes with FF D9, and the buffer keeps what follows. */
  lemma {:induction false} FallbackCutAt(buf: seq<Byte>, s: nat, e: nat)
    requires OccursAt(buf, SOI, s) && forall k :: 0 <= k < s ==> !OccursAt(buf, SOI, k)
    requires OccursAt(buf, EOI, e) && forall k :: 0 <= k < e ==> !OccursAt(buf, EOI, k)
    requires s < e
    ensures FallbackCut(buf) == Some(Cut(buf[s..e + 2], s, e + 2))
    ensures var jpeg := buf[s..e + 2];
      |jpeg| >= 4 && jpeg[0] == 0xFF && jpeg[1] == 0xD8 && jpeg[|jpeg| - 2] == 0xFF && jpeg[|jpeg| - 1] == 0xD9
  {
    FindIs(buf, SOI, 0, s);
    FindIs(buf, EOI, 0, e);
    JpegEnds(buf, s, e);
  }

  /** FF D8 at `s` before FF D9 at `e`: the two cannot overlap, so
      `buf[s..e+2]` spans at least four bytes, opening with FF D8 and closing
      with FF D9. */
  lemma JpegEnds(buf: seq<Byte>, s: nat, e: nat)
    requires OccursAt(buf, SOI, s) && OccursAt(buf, EOI, e) && s < e
    ensures var jpeg := buf[s..e + 2];
      |jpeg| >= 4 && jpeg[0] == 0xFF && jpeg[1] == 0xD8 && jpeg[|jpeg| - 2] == 0xFF && jpeg[|jpeg| - 1] == 0xD9
  {
    MarkerBytes(buf, SOI, s);
    MarkerBytes(buf, EOI, e);
    assert e != s + 1;
    var jpeg := buf[s..e + 2];
    assert jpeg[0] == buf[s] && jpeg[1] == buf[s + 1];
    assert |jpeg| == e + 2 - s;
    assert jpeg[e - s] == buf[e];
    assert jpeg[e + 1 - s] == buf[e + 1];
  }

  /** The two bytes of a two-byte marker found at `k`. */
  lemma MarkerBytes(buf: seq<Byte>, m: seq<Byte>, k: nat)
    requires |m| == 2 && OccursAt(buf, m, k)
    ensures buf[k] == m[0] && buf[k + 1] == m[1]
  {
    assert buf[k..k + 2][0] == buf[k] && buf[k..k + 2][1] == buf[k + 1];
  }

  /** When either marker is missing, or the first end-of-image marker comes
      before every start-of-image marker, the fallback consumes nothing. */
  lemma FallbackNeedsOrderedMarkers(buf: seq<Byte>)
    requires (forall k :: !OccursAt(buf, SOI, k)) || (forall k :: !OccursAt(buf, EOI, k))
      || (exists e :: OccursAt(buf, EOI, e) && forall k :: k <= e ==> !OccursAt(buf, SOI, k))
    ensures FallbackCut(buf).None?
  {
    FindFirst(buf, SOI, 0);
    FindFirst(buf, EOI, 0);
    if !(forall k :: !OccursAt(buf, SOI, k)) && !(forall k :: !OccursAt(buf, EOI, k)) {
      var e :| OccursAt(buf, EOI, e) && forall k :: k <= e ==> !OccursAt(buf, SOI, k);
      assert Find(buf, EOI, 0) <= e < Find(buf, SOI, 0);
    }
  }

  /** The boundary step runs only when a non-empty token is stored
      (`if self._boundary:` is false for `b''`). */
  function BoundaryStep(buf: seq<Byte>, boundary: Option<seq<Byte>>): (r: Option<Cut>)
    ensures r.Some? ==> r.value.rest <= |buf|
    ensures (boundary.None? || boundary.value == []) ==> r.None?
  {
    if boundary.Some? && |boundary.value| > 0 then BoundaryCut(buf, boundary.value) else None
  }

  /** The growth limit applied after an append. */
  function TrimBuffer(buf: seq<Byte>): (r: seq<Byte>)
    ensures IsSuffix(r, buf)
    ensures |buf| <= MaxBuffer ==> r == buf
  {
    if |buf| <= MaxBuffer then buf
    else
      var last := RFind(buf, SOI);
      if last > 0 then buf[last..] else buf[|buf| - KeepTail..]
  }

  /** Trimming keeps the buffer from the last start-of-image marker when that
      marker is not at index 0, and otherwise keeps the last 100,000 bytes. */
  lemma TrimBufferSpec(buf: seq<Byte>)
    requires |buf| > MaxBuffer
    ensures var r := TrimBuffer(buf);
      (exists k :: 0 < k && OccursAt(buf, SOI, k)) ==>
        |r| >= 2 && r[..2] == SOI && forall k :: 0 < k ==> !OccursAt(r, SOI, k)
    ensures var r := TrimBuffer(buf);
      (forall k :: 0 < k ==> !OccursAt(buf, SOI, k)) ==> |r| == KeepTail
  {
    var r := TrimBuffer(buf);
    var last := RFind(buf, SOI);
    RFindLast(buf, SOI);
    if exists k :: 0 < k && OccursAt(buf, SOI, k) {
      var k0 :| 0 < k0 && OccursAt(buf, SOI, k0);
      assert last >= k0;
      assert r == buf[last..];
      assert r[..2] == buf[last..last + 2];
      forall k | 0 < k ensures !OccursAt(r, SOI, k) {
        OccursInSuffix(buf, SOI, last, k);
      }
    }
  }

  /** A single trim need not bring the buffer under the limit: a buffer whose
      only start-of-image marker sits at index 1 loses just one byte. */
  lemma {:induction false} TrimMayStayOverLimit(n: nat)
    requires n > MaxBuffer
    ensures var buf := [0x00, 0xFF, 0xD8] + seq(n, _ => 0x00);
      |TrimBuffer(buf)| == |buf| - 1 > MaxBuffer
  {
    var buf: seq<Byte> := [0x00, 0xFF, 0xD8] + seq(n, _ => 0x00);
    assert buf[1..3] == SOI;
    assert OccursAt(buf, SOI, 1);
    forall k | 1 < k ensures !OccursAt(buf, SOI, k) {
      if k + 2 <= |buf| {
        assert buf[k..k + 2][0] == buf[k] != 0xFF;
      }
    }
    RFindLast(buf, SOI);
    assert RFind(buf, SOI) == 1;
  }

  /** `if chunk: buffer += chunk` followed by the growth limit. */
  function AppendChunk(buf: seq<Byte>, chunk: seq<Byte>): (r: seq<Byte>)
    ensures chunk == [] ==> r == buf
    ensures chunk != [] && |buf + chunk| <= MaxBuffer ==> r == buf + chunk
    ensures IsSuffix(r, buf + chunk)
  {
    if |chunk| > 0 then TrimBuffer(buf + chunk) else buf
  }

  /* ---------------- The client ---------------- */

  /** One read of the body iterator: a chunk of bytes, or a failed read. */
  datatype ChunkRead = Chunk(data: seq<Byte>) | ReadError

  /** What `requests.get(url, stream=True)` produced: an exception, or a
      response with its status, its `Content-Type` header (empty when absent)
      and the reads its body iterator will deliver, ending with exhaustion. */
  datatype StreamResponse = RequestFailed | Response(status: int, contentType: string, body: seq<ChunkRead>)

  /** The bytes delivered by a sequence of reads. */
  function Received(rs: seq<ChunkRead>): seq<Byte>
  {
    if rs == [] then [] else Received(rs[..|rs| - 1]) + Delivered(rs[|rs| - 1])
  }

  /** The bytes one read delivers: none for a failed read. */
  function Delivered(r: ChunkRead): seq<Byte>
  {
    if r.Chunk? then r.data else []
  }

  /** What two runs of reads deliver is what each delivers, in order. */
  lemma {:induction false} ReceivedAppend(a: seq<ChunkRead>, b: seq<ChunkRead>)
    ensures Received(a + b) == Received(a) + Received(b)
    decreases |b|
  {
    if b == [] {
      assert a + b == a;
    } else {
      var c, init, last := a + b, b[..|b| - 1], b[|b| - 1];
      assert c[..|c| - 1] == a + init && c[|c| - 1] == last;
      ReceivedAppend(a, init);
      calc {
        Received(c);
        Received(a + init) + Delivered(last);
        (Received(a) + Received(init)) + Delivered(last);
        Received(a) + (Received(init) + Delivered(last));
        Received(a) + Received(b);
      }
    }
  }

  /** Appending a chunk, and trimming, keeps the buffer a suffix of what was received. */
  lemma AppendKeepsSuffix(buf: seq<Byte>, seen: seq<Byte>, data: seq<Byte>)
    requires IsSuffix(buf, seen)
    ensures IsSuffix(AppendChunk(buf, data), seen + data)
  {
    SuffixAppend(buf, seen, data);
    SuffixTrans(AppendChunk(buf, data), buf + data, seen + data);
  }

  /** `f` is what the decoder makes of some contiguous run of `data`. */
  ghost predicate DecodedFrom(f: Image, data: seq<Byte>, decode: seq<Byte> -> Option<Image>)
  {
    exists i, j :: 0 <= i <= j <= |data| && decode(data[i..j]) == Some(f)
  }

  lemma DecodedFromInfix(f: Image, a: seq<Byte>, b: seq<Byte>, c: seq<Byte>, decode: seq<Byte> -> Option<Image>)
    requires DecodedFrom(f, b, decode)
    ensures DecodedFrom(f, a + b + c, decode)
  {
    var i, j :| 0 <= i <= j <= |b| && decode(b[i..j]) == Some(f);
    assert (a + b + c)[|a| + i..|a| + j] == b[i..j];
  }

  /** Cutting a well-placed candidate out leaves a suffix of the buffer, and
      a decoded candidate is a decoding of a run of the buffer. */
  lemma CutFacts(c: Cut, buf: seq<Byte>, decode: seq<Byte> -> Option<Image>)
    requires WellPlaced(c, buf)
    ensures IsSuffix(buf[c.rest..], buf)
    ensures decode(c.jpeg).Some? ==> DecodedFrom(decode(c.jpeg).value, buf, decode)
  {
    if decode(c.jpeg).Some? {
      assert decode(buf[c.at..c.at + |c.jpeg|]) == decode(c.jpeg);
    }
  }

  lemma SuffixRefl<T>(a: seq<T>)
    ensures IsSuffix(a, a)
  {
  }

  lemma SuffixTail<T>(a: seq<T>, b: seq<T>)
    requires IsSuffix(a, b) && |a| > 0
    ensures IsSuffix(a[1..], b) && a[0] == b[|b| - |a|]
  {
  }

  lemma SuffixTrans<T>(a: seq<T>, b: seq<T>, c: seq<T>)
    requires IsSuffix(a, b) && IsSuffix(b, c)
    ensures IsSuffix(a, c)
  {
    forall k | 0 <= k < |a| ensures a[k] == c[|c| - |a| + k] {
      assert a[k] == b[|b| - |a| + k];
    }
  }

  lemma SuffixAppend<T>(a: seq<T>, b: seq<T>, x: seq<T>)
    requires IsSuffix(a, b)
    ensures IsSuffix(a + x, b + x)
  {
    forall k | 0 <= k < |a + x| ensures (a + x)[k] == (b + x)[|b + x| - |a + x| + k] {
      if k < |a| {
        assert (a + x)[k] == a[k] == b[|b| - |a| + k];
      }
    }
  }

  lemma DecodedFromSuffix(f: Image, a: seq<Byte>, b: seq<Byte>, decode: seq<Byte> -> Option<Image>)
    requires DecodedFrom(f, a, decode) && IsSuffix(a, b)
    ensures DecodedFrom(f, b, decode)
  {
    var front := b[..|b| - |a|];
    assert b == front + a + [] by {
      forall k | 0 <= k < |b| ensures b[k] == (front + a + [])[k] {
        if k >= |front| {
          assert a[k - |front|] == b[k];
        }
      }
    }
    DecodedFromInfix(f, b[..|b| - |a|], a, [], decode);
  }

  /** One call of `_extract_frame_from_buffer` on the buffer `buf`: the
      frame it returns and the buffer it leaves. The boundary path runs
      first; when it yields no decodable frame the fallback runs on what the
      boundary path left. */
  function Extract(buf: seq<Byte>, boundary: Option<seq<Byte>>, decode: seq<Byte> -> Option<Image>): (Option<Image>, seq<Byte>)
  {
    var b := BoundaryStep(buf, boundary);
    var mid := if b.Some? then buf[b.value.rest..] else buf;
    if b.Some? && decode(b.value.jpeg).Some? then (decode(b.value.jpeg), mid)
    else match FallbackCut(mid)
      case Some(c) => (decode(c.jpeg), mid[c.rest..])
      case None => (None, mid)
  }

  /** An extraction step: the frame found in a buffer, if any, and the buffer left. */
  type Step = seq<Byte> -> (Option<Image>, seq<Byte>)

  /** `_extract_frame_from_buffer` with a given stored boundary and decoder. */
  function Extractor(boundary: Option<seq<Byte>>, decode: seq<Byte> -> Option<Image>): Step
  {
    buf => Extract(buf, boundary, decode)
  }

  /** A step that always leaves a tail of its buffer and returns only frames
      decoded from a contiguous run of it. */
  ghost predicate Sound(extract: Step, decode: seq<Byte> -> Option<Image>)
  {
    forall buf :: IsSuffix(extract(buf).1, buf) && (extract(buf).0.Some? ==> DecodedFrom(extract(buf).0.value, buf, decode))
  }

  /** An extraction leaves a suffix of the buffer, and a frame it returns is
      the decoding of a contiguous run of that buffer. */
  lemma ExtractFacts(buf: seq<Byte>, boundary: Option<seq<Byte>>, decode: seq<Byte> -> Option<Image>)
    ensures IsSuffix(Extract(buf, boundary, decode).1, buf)
    ensures Extract(buf, boundary, decode).0.Some? ==>
      DecodedFrom(Extract(buf, boundary, decode).0.value, buf, decode)
  {
    var b := BoundaryStep(buf, boundary);
    var mid := if b.Some? then buf[b.value.rest..] else buf;
    if b.Some? {
      CutFacts(b.value, buf, decode);
    } else {
      SuffixRefl(buf);
    }
    var f := FallbackCut(mid);
    if f.Some? {
      var c := f.value;
      CutFacts(c, mid, decode);
      SuffixTrans(mid[c.rest..], mid, buf);
      if decode(c.jpeg).Some? {
        DecodedFromSuffix(decode(c.jpeg).value, mid, buf, decode);
      }
    }
  }

  lemma ExtractorSound(boundary: Option<seq<Byte>>, decode: seq<Byte> -> Option<Image>)
    ensures Sound(Extractor(boundary, decode), decode)
  {
    forall buf
      ensures IsSuffix(Extractor(boundary, decode)(buf).1, buf)
      ensures Extractor(boundary, decode)(buf).0.Some? ==>
        DecodedFrom(Extractor(boundary, decode)(buf).0.value, buf, decode)
    {
      ExtractFacts(buf, boundary, decode);
    }
  }

  /** The `while True` loop of `get_frame` from buffer `buf` with the reads
      `rs` still to come, each pass extracting with `extract`: the frame
      returned, the buffer left, and the reads left (None once the stream has
      been stopped). Each pass first tries an extraction; when it fails the
      next read is appended, and exhaustion or a failed read stops the stream
      and returns None. */
  function ReadLoop(buf: seq<Byte>, extract: Step, rs: seq<ChunkRead>): (r: (Option<Image>, seq<Byte>, Option<seq<ChunkRead>>))
    ensures r.0.None? <==> r.2.None?
    ensures r.2.None? ==> r.1 == []
    ensures r.2.Some? ==> IsSuffix(r.2.value, rs)
    ensures extract(buf).0.Some? ==> r == (extract(buf).0, extract(buf).1, Some(rs))
    decreases |rs|
  {
    var e := extract(buf);
    if e.0.Some? then (e.0, e.1, Some(rs))
    else if rs == [] || rs[0].ReadError? then (None, [], None)
    else
      var r := ReadLoop(AppendChunk(e.1, rs[0].data), extract, rs[1..]);
      SuffixRefl(rs);
      SuffixTail(rs, rs);
      if r.2.Some? then SuffixTrans(r.2.value, rs[1..], rs); r else r
  }

  /** One turn of the read loop that finds no frame and takes a chunk. */
  lemma ReadLoopUnfold(buf: seq<Byte>, extract: Step, rs: seq<ChunkRead>)
    requires extract(buf).0.None? && rs != [] && rs[0].Chunk?
    ensures ReadLoop(buf, extract, rs) == ReadLoop(AppendChunk(extract(buf).1, rs[0].data), extract, rs[1..])
  {
  }

  lemma ReadsTail(rs: seq<ChunkRead>, more: seq<ChunkRead>)
    requires rs != []
    ensures (rs + more)[0] == rs[0] && (rs + more)[1..] == rs[1..] + more
  {
  }

  /** The loop stops at the first frame: reads that come after it are never
      taken, whatever they are. */
  lemma {:induction false} ReadLoopStopsAtFrame(buf: seq<Byte>, extract: Step, rs: seq<ChunkRead>, more: seq<ChunkRead>)
    requires ReadLoop(buf, extract, rs).0.Some?
    ensures var r := ReadLoop(buf, extract, rs);
      ReadLoop(buf, extract, rs + more) == (r.0, r.1, Some(r.2.value + more))
    decreases |rs|
  {
    var e := extract(buf);
    if e.0.None? {
      assert rs != [] && rs[0].Chunk?;
      ReadsTail(rs, more);
      ReadLoopUnfold(buf, extract, rs);
      ReadLoopUnfold(buf, extract, rs + more);
      ReadLoopStopsAtFrame(AppendChunk(e.1, rs[0].data), extract, rs[1..], more);
    }
  }

  /** A failed read ends the loop without a frame once the chunks before it
      gave none, whatever reads would follow it. */
  lemma {:induction false} ReadLoopErrorStops(buf: seq<Byte>, extract: Step, rs: seq<ChunkRead>, rest: seq<ChunkRead>)
    requires ReadLoop(buf, extract, rs).0.None?
    requires forall i :: 0 <= i < |rs| ==> rs[i].Chunk?
    requires rest != [] && rest[0].ReadError?
    ensures ReadLoop(buf, extract, rs + rest) == (None, [], None)
    decreases |rs|
  {
    var e := extract(buf);
    assert e.0.None?;
    if rs == [] {
      assert rs + rest == rest;
    } else {
      ReadsTail(rs, rest);
      ReadLoopUnfold(buf, extract, rs);
      ReadLoopUnfold(buf, extract, rs + rest);
      ReadLoopErrorStops(AppendChunk(e.1, rs[0].data), extract, rs[1..], rest);
    }
  }

  lemma ReceivedNone(seen: seq<Byte>, rs: seq<ChunkRead>)
    ensures seen + Received(rs[..|rs| - |rs|]) == seen
  {
    assert rs[..|rs| - |rs|] == [];
  }

  /** What was seen after the first chunk, up to the reads left `rest`, is
      what was seen before it followed by the reads up to `rest`. */
  lemma ReceivedAfterFirst(seen: seq<Byte>, rs: seq<ChunkRead>, rest: seq<ChunkRead>)
    requires rs != [] && rs[0].Chunk? && |rest| < |rs|
    ensures (seen + rs[0].data) + Received(rs[1..][..|rs[1..]| - |rest|]) == seen + Received(rs[..|rs| - |rest|])
  {
    var m := |rs| - 1 - |rest|;
    var first, tail := [rs[0]], rs[1..][..m];
    assert rs[..m + 1] == first + tail;
    ReceivedAppend(first, tail);
    assert first[..0] == [];
  }

  /** A frame the read loop returns, with a sound step, is the decoding of
      the run `[i..j]` of the bytes seen: those the buffer was a tail of,
      followed by the chunks taken before the loop stopped. */
  lemma {:induction false} ReadLoopDecodes(buf: seq<Byte>, extract: Step, decode: seq<Byte> -> Option<Image>,
                                           rs: seq<ChunkRead>, seen: seq<Byte>) returns (i: nat, j: nat)
    requires Sound(extract, decode)
    requires IsSuffix(buf, seen)
    requires ReadLoop(buf, extract, rs).0.Some?
    ensures var r := ReadLoop(buf, extract, rs);
      var data := seen + Received(rs[..|rs| - |r.2.value|]);
      i <= j <= |data| && decode(data[i..j]) == r.0
    decreases |rs|
  {
    var e := extract(buf);
    if e.0.Some? {
      ReceivedNone(seen, rs);
      i, j := DecodedInTail(e.0.value, buf, seen, decode);
    } else {
      assert rs != [] && rs[0].Chunk?;
      var next := AppendChunk(e.1, rs[0].data);
      ReadLoopUnfold(buf, extract, rs);
      SuffixTrans(e.1, buf, seen);
      AppendKeepsSuffix(e.1, seen, rs[0].data);
      var r := ReadLoop(next, extract, rs[1..]);
      i, j := ReadLoopDecodes(next, extract, decode, rs[1..], seen + rs[0].data);
      ReceivedAfterFirst(seen, rs, r.2.value);
    }
  }

  /** A frame decoded from a run of `buf`, where `buf` is a tail of `seen`,
      is decoded from the same run shifted into `seen`. */
  lemma DecodedInTail(f: Image, buf: seq<Byte>, seen: seq<Byte>, decode: seq<Byte> -> Option<Image>) returns (i: nat, j: nat)
    requires DecodedFrom(f, buf, decode) && IsSuffix(buf, seen)
    ensures i <= j <= |seen| && decode(seen[i..j]) == Some(f)
  {
    var i0, j0 :| 0 <= i0 <= j0 <= |buf| && decode(buf[i0..j0]) == Some(f);
    var off := |seen| - |buf|;
    assert seen[off + i0..off + j0] == buf[i0..j0];
    i, j := off + i0, off + j0;
  }

  class CameraStreamClient {
    /** `self.stream is not None`. */
    var streamOpen: bool
    /** `self._is_connected`. */
    var connected: bool
    var buffer: seq<Byte>
    var boundary: Option<seq<Byte>>
    /** The reads the persistent body iterator has still to deliver, or None. */
    var pending: Option<seq<ChunkRead>>
    /** `cv2.imdecode`: None when the bytes are not a decodable image. */
    const decode: seq<Byte> -> Option<Image>

    constructor (decode: seq<Byte> -> Option<Image>)
      ensures !streamOpen && !connected && buffer == [] && boundary == None && pending == None
      ensures this.decode == decode
    {
      streamOpen, connected, buffer := false, false, [];
      boundary, pending := None, None;
      this.decode := decode;
    }

    /** `is_connected()`. */
    predicate IsConnected()
      reads this
    {
      connected && streamOpen
    }

    /** `start_stream`: only a 200 response starts the stream. */
    method StartStream(resp: StreamResponse) returns (ok: bool)
      modifies this
      ensures ok <==> resp.Response? && resp.status == 200
      ensures ok ==> streamOpen && connected && buffer == [] && pending == Some(resp.body)
      ensures ok ==> boundary == (if ParseBoundary(resp.contentType).Some? then ParseBoundary(resp.contentType) else old(boundary))
      ensures resp.Response? && !ok ==>
        (streamOpen && connected == old(connected) && buffer == old(buffer)
         && pending == old(pending) && boundary == old(boundary))
      ensures resp.RequestFailed? ==>
        (streamOpen == old(streamOpen) && connected == old(connected)
         && buffer == old(buffer) && pending == old(pending) && boundary == old(boundary))
    {
      if resp.RequestFailed? {
        return false;
      }
      streamOpen := true;
      ok := resp.status == 200;
      if ok {
        var token := ParseBoundary(resp.contentType);
        if token.Some? {
          boundary := token;
        }
        pending, connected, buffer := Some(resp.body), true, [];
      }
    }

    /** `_extract_frame_from_buffer`: one attempt on the boundary path, then
        the fallback on whatever the boundary path left. */
    method ExtractFrame() returns (frame: Option<Image>)
      modifies this`buffer
      ensures IsSuffix(buffer, old(buffer))
      ensures frame.Some? ==> DecodedFrom(frame.value, old(buffer), decode)
      ensures (frame, buffer) == Extract(old(buffer), boundary, decode)
    {
      var b := BoundaryStep(buffer, boundary);
      if b.Some? {
        var c := b.value;
        CutFacts(c, buffer, decode);
        buffer := buffer[c.rest..];
        frame := decode(c.jpeg);
        if frame.Some? {
          return;
        }
      } else {
        SuffixRefl(buffer);
      }
      var mid := buffer;
      var f := FallbackCut(buffer);
      if f.Some? {
        var c := f.value;
        CutFacts(c, mid, decode);
        buffer := mid[c.rest..];
        frame := decode(c.jpeg);
        SuffixTrans(buffer, mid, old(buffer));
        if frame.Some? {
          DecodedFromSuffix(frame.value, mid, old(buffer), decode);
        }
      } else {
        frame := None;
      }
    }

    /** `stop_stream`: clears stream, pending and buffer, but only when a
        stream is open. */
    method StopStream()
      modifies this
      ensures old(streamOpen) ==> !streamOpen && pending == None && buffer == []
      ensures !old(streamOpen) ==> streamOpen == old(streamOpen) && pending == old(pending) && buffer == old(buffer)
      ensures connected == old(connected) && boundary == old(boundary)
    {
      if streamOpen {
        streamOpen := false;
        pending := None;
        buffer := [];
      }
    }

    /** `disconnect`. */
    method Disconnect()
      modifies this
      ensures !IsConnected() && !connected && !streamOpen && boundary == old(boundary)
      ensures old(streamOpen) ==> pending == None && buffer == []
    {
      StopStream();
      connected := false;
    }

    /** `get_frame`: start the stream if needed (with `restart` as the
        response), then read until a frame is decoded. */
    method GetFrame(restart: StreamResponse) returns (frame: Option<Image>)
      modifies this
      ensures old(streamOpen) && old(pending).Some? ==>
        && boundary == old(boundary) && connected == old(connected)
        && (frame, buffer, pending) == ReadLoop(old(buffer), Extractor(boundary, decode), old(pending).value)
        && (streamOpen <==> frame.Some?)
      ensures old(streamOpen) && old(pending).Some? && frame.Some? ==>
        && pending.Some? && IsSuffix(pending.value, old(pending).value)
        && DecodedFrom(frame.value, old(buffer) + Received(old(pending).value[..|old(pending).value| - |pending.value|]), decode)
      ensures old(streamOpen) && old(pending).Some? && frame.None? ==> pending == None && buffer == []
      ensures !(old(streamOpen) && old(pending).Some?) ==>
        boundary == if restart.Response? && restart.status == 200 && ParseBoundary(restart.contentType).Some?
          then ParseBoundary(restart.contentType) else old(boundary)
      ensures !(old(streamOpen) && old(pending).Some?) && !(restart.Response? && restart.status == 200) ==> frame.None?
      ensures !(old(streamOpen) && old(pending).Some?) && !(restart.Response? && restart.status == 200) ==>
        && buffer == old(buffer) && pending == old(pending) && connected == old(connected)
        && (restart.Response? ==> streamOpen)
        && (restart.RequestFailed? ==> streamOpen == old(streamOpen))
      ensures !(old(streamOpen) && old(pending).Some?) && restart.Response? && restart.status == 200 ==>
        && connected
        && (frame, buffer, pending) == ReadLoop([], Extractor(boundary, decode), restart.body)
        && (streamOpen <==> frame.Some?)
        && (frame.None? ==> pending == None && buffer == [])
      ensures !(old(streamOpen) && old(pending).Some?) && frame.Some? ==>
        && streamOpen && pending.Some? && IsSuffix(pending.value, restart.body)
        && DecodedFrom(frame.value, Received(restart.body[..|restart.body| - |pending.value|]), decode)
    {
      if !streamOpen || pending.None? {
        frame := StartAndRead(restart);
        assert !(old(streamOpen) && old(pending).Some?);
      } else {
        frame := ReadUntilFrame();
        assert old(streamOpen) && old(pending).Some?;
      }
    }

    /** The path of `get_frame` without an open stream: start one from
        `restart`, and run the read loop on it when it opens. */
    method StartAndRead(restart: StreamResponse) returns (frame: Option<Image>)
      modifies this
      ensures boundary == if restart.Response? && restart.status == 200 && ParseBoundary(restart.contentType).Some?
        then ParseBoundary(restart.contentType) else old(boundary)
      ensures !(restart.Response? && restart.status == 200) ==> frame.None?
      ensures !(restart.Response? && restart.status == 200) ==>
        && buffer == old(buffer) && pending == old(pending) && connected == old(connected)
        && (restart.Response? ==> streamOpen)
        && (restart.RequestFailed? ==> streamOpen == old(streamOpen))
      ensures restart.Response? && restart.status == 200 ==>
        && connected
        && (frame, buffer, pending) == ReadLoop([], Extractor(boundary, decode), restart.body)
        && (streamOpen <==> frame.Some?)
        && (frame.None? ==> pending == None && buffer == [])
      ensures frame.Some? ==>
        && streamOpen && pending.Some? && IsSuffix(pending.value, restart.body)
        && DecodedFrom(frame.value, Received(restart.body[..|restart.body| - |pending.value|]), decode)
    {
      var ok := StartStream(restart);
      if !ok {
        return None;
      }
      assert buffer == [] && pending == Some(restart.body);
      ghost var b := boundary;
      frame := ReadUntilFrame();
      assert boundary == b;
      if frame.Some? {
        ghost var seen := Received(restart.body[..|restart.body| - |pending.value|]);
        assert [] + seen == seen;
      }
    }

    /** One `next()` on the body iterator: a chunk is appended and the buffer
        trimmed; exhaustion or a failed read stops the stream. */
    method ReadChunk() returns (ok: bool)
      requires streamOpen && pending.Some?
      modifies this
      ensures var rs := old(pending).value;
        ok <==> rs != [] && rs[0].Chunk?
      ensures var rs := old(pending).value;
        ok ==> streamOpen && pending == Some(rs[1..]) && buffer == AppendChunk(old(buffer), rs[0].data)
      ensures !ok ==> !streamOpen && pending == None && buffer == []
      ensures boundary == old(boundary) && connected == old(connected)
    {
      var rs := pending.value;
      if rs == [] || rs[0].ReadError? {
        StopStream();
        return false;
      }
      pending := Some(rs[1..]);
      buffer := AppendChunk(buffer, rs[0].data);
      ok := true;
    }

    /** The `while True` loop of `get_frame`: alternate extraction attempts
        with reads until a frame is decoded; exhaustion or a failed read stops
        the stream. A returned frame is the decoding of a contiguous run of the
        bytes that were in the buffer or were read during this call. */
    method ReadUntilFrame() returns (frame: Option<Image>)
      requires streamOpen && pending.Some?
      modifies this
      ensures frame.Some? ==>
        && streamOpen && pending.Some? && IsSuffix(pending.value, old(pending).value)
        && DecodedFrom(frame.value,
             old(buffer) + Received(old(pending).value[..|old(pending).value| - |pending.value|]), decode)
      ensures frame.None? ==> !streamOpen && pending == None && buffer == []
      ensures (frame, buffer, pending) == ReadLoop(old(buffer), Extractor(boundary, decode), old(pending).value)
      ensures boundary == old(boundary) && connected == old(connected)
    {
      ghost var b0, it0 := buffer, pending.value;
      frame := TakeUntilFrame();
      if frame.Some? {
        SuffixRefl(b0);
        ExtractorSound(boundary, decode);
        ghost var i, j := ReadLoopDecodes(b0, Extractor(boundary, decode), decode, it0, b0);
      }
    }

    /** The loop itself, pass by pass as `ReadLoop` describes it. */
    method TakeUntilFrame() returns (frame: Option<Image>)
      requires streamOpen && pending.Some?
      modifies this
      ensures (frame, buffer, pending) == ReadLoop(old(buffer), Extractor(boundary, decode), old(pending).value)
      ensures streamOpen <==> frame.Some?
      ensures boundary == old(boundary) && connected == old(connected)
    {
      ghost var it0 := pending.value;
      while true
        invariant streamOpen && pending.Some?
        invariant boundary == old(boundary) && connected == old(connected)
        invariant ReadLoop(buffer, Extractor(boundary, decode), pending.value) == ReadLoop(old(buffer), Extractor(boundary, decode), it0)
        decreases |pending.value|
      {
        ghost var before, next := buffer, pending.value;
        frame := ExtractFrame();
        if frame.Some? {
          return;
        }
        var ok := ReadChunk();
        if !ok {
          return None;
        }
        ReadLoopUnfold(before, Extractor(boundary, decode), next);
      }
    }
  }
}

=== FILE: camera_viewer.dfy ===
/** The simple camera viewer: a loop that shows each processed frame and
    reads one key, where letter keys switch the processing mode, `+` and
    `-` adjust the current mode's parameter, and `q` quits. The processor
    is rebuilt from the current mode and parameters whenever either
    changes. Windows, the text overlay and the camera connection are left
    out; each loop pass is given as the frame read and the key pressed. */
module CameraViewer {
  import opened Common
  import FP = FrameProcessing

  /** The viewer's parameters, one per adjustable mode. */
  datatype Settings = Settings(threshold1: int, threshold2: int, ksize: int, brightness: int, alpha: real, threshValue: int)

  /** The values the viewer starts with. */
  const InitialSettings := Settings(100, 200, 5, 30, 1.5, 127)

  /** The ranges the adjustments keep the parameters in: ordered edge
      thresholds within 0 to 255, an odd blur kernel from 1 to 15,
      brightness within -100 to 100, contrast within 0.5 to 3.0 and a
      binary threshold within 0 to 255. */
  predicate InRange(s: Settings)
  {
    0 <= s.threshold1 <= s.threshold2 <= 255 &&
    1 <= s.ksize <= 15 && s.ksize % 2 == 1 &&
    -100 <= s.brightness <= 100 &&
    0.5 <= s.alpha <= 3.0 &&
    0 <= s.threshValue <= 255
  }

  /** The keyword arguments the viewer passes to `create_processor` for a
      mode: the current mode's own parameters, and none for the modes
      without one. */
  function KwargsFor(mode: FP.Mode, s: Settings): FP.Kwargs
  {
    match mode
    case EdgeDetection => FP.NoKwargs.(threshold1 := Some(s.threshold1), threshold2 := Some(s.threshold2))
    case Blur => FP.NoKwargs.(ksize := Some(s.ksize))
    case Brightness => FP.NoKwargs.(value := Some(s.brightness))
    case Contrast => FP.NoKwargs.(alpha := Some(s.alpha))
    case Threshold => FP.NoKwargs.(threshValue := Some(s.threshValue))
    case _ => FP.NoKwargs
  }

  /** The pipeline of the processor built for a mode and the settings. */
  function StepsFor(mode: FP.Mode, s: Settings): seq<FP.Step>
  {
    FP.PresetSteps(mode, KwargsFor(mode, s))
  }

  /** The rebuilt processor runs the viewer's own values, not the preset
      defaults. */
  lemma StepsCarrySettings(s: Settings)
    ensures StepsFor(FP.EdgeDetection, s) == [FP.EdgeDetect(s.threshold1, s.threshold2)]
    ensures StepsFor(FP.Blur, s) == [FP.GaussianBlur(s.ksize)]
    ensures StepsFor(FP.Brightness, s) == [FP.AdjustBrightness(s.brightness)]
    ensures StepsFor(FP.Contrast, s) == [FP.AdjustContrast(s.alpha)]
    ensures StepsFor(FP.Threshold, s) == [FP.BinaryThreshold(s.threshValue)]
    ensures StepsFor(FP.Original, s) == []
  {
  }

  // ---------------------------------------------------------------------
  // Keys

  /** The key code: `waitKey(1) & 0xFF`. */
  predicate IsQuitKey(key: Byte)
  {
    key == 'q' as int
  }

  predicate IsIncreaseKey(key: Byte)
  {
    key == '+' as int || key == '=' as int
  }

  predicate IsDecreaseKey(key: Byte)
  {
    key == '-' as int || key == '_' as int
  }

  /** The mode a letter key selects: o, g, e, b, s, r, c and t. */
  function ModeForKey(key: Byte): (r: Option<FP.Mode>)
    ensures r.Some? ==> !IsQuitKey(key) && !IsIncreaseKey(key) && !IsDecreaseKey(key)
  {
    if key == 'o' as int then Some(FP.Original)
    else if key == 'g' as int then Some(FP.Grayscale)
    else if key == 'e' as int then Some(FP.EdgeDetection)
    else if key == 'b' as int then Some(FP.Blur)
    else if key == 's' as int then Some(FP.Sharpen)
    else if key == 'r' as int then Some(FP.Brightness)
    else if key == 'c' as int then Some(FP.Contrast)
    else if key == 't' as int then Some(FP.Threshold)
    else None
  }

  /** Every mode can be selected by some key. */
  lemma EveryModeHasAKey(m: FP.Mode)
    ensures exists key: Byte :: ModeForKey(key) == Some(m)
  {
    var key: Byte := match m
      case Original => 'o' as int
      case Grayscale => 'g' as int
      case EdgeDetection => 'e' as int
      case Blur => 'b' as int
      case Sharpen => 's' as int
      case Brightness => 'r' as int
      case Contrast => 'c' as int
      case Threshold => 't' as int;
    assert ModeForKey(key) == Some(m);
  }

  /** `+`: the current mode's parameter goes up by one step, capped. */
  function Increase(mode: FP.Mode, s: Settings): Settings
  {
    match mode
    case EdgeDetection => s.(threshold1 := MinInt(255, s.threshold1 + 10), threshold2 := MinInt(255, s.threshold2 + 10))
    case Blur => s.(ksize := MinInt(15, s.ksize + 2))
    case Brightness => s.(brightness := MinInt(100, s.brightness + 10))
    case Contrast => s.(alpha := MinReal(3.0, s.alpha + 0.1))
    case Threshold => s.(threshValue := MinInt(255, s.threshValue + 10))
    case _ => s
  }

  /** `-`: the current mode's parameter goes down by one step, floored. */
  function Decrease(mode: FP.Mode, s: Settings): Settings
  {
    match mode
    case EdgeDetection => s.(threshold1 := MaxInt(0, s.threshold1 - 10), threshold2 := MaxInt(0, s.threshold2 - 10))
    case Blur => s.(ksize := MaxInt(1, s.ksize - 2))
    case Brightness => s.(brightness := MaxInt(-100, s.brightness - 10))
    case Contrast => s.(alpha := MaxReal(0.5, s.alpha - 0.1))
    case Threshold => s.(threshValue := MaxInt(0, s.threshValue - 10))
    case _ => s
  }

  /** What the viewer remembers between frames. */
  datatype ViewerState = ViewerState(mode: FP.Mode, settings: Settings)

  const InitialState := ViewerState(FP.Original, InitialSettings)

  /** The effect of one key: `q` changes nothing (the loop ends), a mode
      key selects its mode, `+`/`=` and `-`/`_` adjust the current mode's
      parameter, and every other key is ignored. */
  function KeyStep(st: ViewerState, key: Byte): ViewerState
  {
    if IsQuitKey(key) then st
    else if ModeForKey(key).Some? then st.(mode := ModeForKey(key).value)
    else if IsIncreaseKey(key) then st.(settings := Increase(st.mode, st.settings))
    else if IsDecreaseKey(key) then st.(settings := Decrease(st.mode, st.settings))
    else st
  }

  /** Mode keys select their mode and keep every parameter; the mode
      changes only through a mode key. */
  lemma ModeKeysKeepSettings(st: ViewerState, key: Byte)
    ensures ModeForKey(key).Some? ==> KeyStep(st, key) == ViewerState(ModeForKey(key).value, st.settings)
    ensures KeyStep(st, key).mode != st.mode ==> ModeForKey(key).Some?
  {
  }

  /** `+` and `-` keep the mode and touch only the current mode's own
      parameter; in the original, grayscale and sharpen modes they change
      nothing. */
  lemma AdjustTouchesOnlyCurrentMode(st: ViewerState, key: Byte)
    requires IsIncreaseKey(key) || IsDecreaseKey(key)
    ensures var r := KeyStep(st, key);
      r.mode == st.mode &&
      (st.mode in {FP.Original, FP.Grayscale, FP.Sharpen} ==> r.settings == st.settings) &&
      (st.mode != FP.EdgeDetection ==> r.settings.threshold1 == st.settings.threshold1 && r.settings.threshold2 == st.settings.threshold2) &&
      (st.mode != FP.Blur ==> r.settings.ksize == st.settings.ksize) &&
      (st.mode != FP.Brightness ==> r.settings.brightness == st.settings.brightness) &&
      (st.mode != FP.Contrast ==> r.settings.alpha == st.settings.alpha) &&
      (st.mode != FP.Threshold ==> r.settings.threshValue == st.settings.threshValue)
  {
  }

  /** `+` and `-` keep the parameters in range: the caps and floors keep
      each value within its bounds, both thresholds move together so their
      order holds, and the kernel moves by two between odd bounds so it
      stays odd. */
  lemma AdjustKeepsRange(mode: FP.Mode, s: Settings)
    requires InRange(s)
    ensures InRange(Increase(mode, s)) && InRange(Decrease(mode, s))
  {
  }

  /** One key keeps the parameters in range. */
  lemma KeyStepKeepsRange(st: ViewerState, key: Byte)
    requires InRange(st.settings)
    ensures InRange(KeyStep(st, key).settings)
  {
    AdjustKeepsRange(st.mode, st.settings);
  }

  /** Away from the cap, `-` undoes `+`. */
  lemma DecreaseUndoesIncrease(mode: FP.Mode, s: Settings)
    requires InRange(s)
    requires mode == FP.EdgeDetection ==> s.threshold2 + 10 <= 255
    requires mode == FP.Blur ==> s.ksize + 2 <= 15
    requires mode == FP.Brightness ==> s.brightness + 10 <= 100
    requires mode == FP.Contrast ==> s.alpha + 0.1 <= 3.0
    requires mode == FP.Threshold ==> s.threshValue + 10 <= 255
    ensures Decrease(mode, Increase(mode, s)) == s
  {
  }

  /** Away from the floor, `+` undoes `-`. */
  lemma IncreaseUndoesDecrease(mode: FP.Mode, s: Settings)
    requires InRange(s)
    requires mode == FP.EdgeDetection ==> s.threshold1 - 10 >= 0
    requires mode == FP.Blur ==> s.ksize - 2 >= 1
    requires mode == FP.Brightness ==> s.brightness - 10 >= -100
    requires mode == FP.Contrast ==> s.alpha - 0.1 >= 0.5
    requires mode == FP.Threshold ==> s.threshValue - 10 >= 0
    ensures Increase(mode, Decrease(mode, s)) == s
  {
  }

  // ---------------------------------------------------------------------
  // The loop

  /** One pass of the loop: the frame `get_frame` returned (None when it
      failed) and the key read after showing it. */
  datatype Tick = Tick(frame: Option<Image>, key: Byte)

  /** The frames shown from state `st` on: each frame is processed with the
      current mode and parameters; the loop ends at the first missing frame
      or after the frame on which `q` is pressed. */
  function Displayed(apply: (FP.Step, Image) -> Option<Image>, st: ViewerState, ticks: seq<Tick>): seq<Image>
    decreases |ticks|
  {
    if ticks == [] || ticks[0].frame.None? then []
    else
      var later := if IsQuitKey(ticks[0].key) then [] else Displayed(apply, KeyStep(st, ticks[0].key), ticks[1..]);
      [FP.RunSteps(apply, StepsFor(st.mode, st.settings), ticks[0].frame.value)] + later
  }

  /** The state when the loop ends. */
  function FinalState(st: ViewerState, ticks: seq<Tick>): ViewerState
    decreases |ticks|
  {
    if ticks == [] || ticks[0].frame.None? || IsQuitKey(ticks[0].key) then st
    else FinalState(KeyStep(st, ticks[0].key), ticks[1..])
  }

  /** `Displayed` from position `i` of the passes, unfolded by one pass. */
  lemma DisplayedAt(apply: (FP.Step, Image) -> Option<Image>, st: ViewerState, ticks: seq<Tick>, i: nat)
    requires i < |ticks|
    ensures ticks[i].frame.None? ==> Displayed(apply, st, ticks[i..]) == []
    ensures ticks[i].frame.Some? && IsQuitKey(ticks[i].key) ==>
      Displayed(apply, st, ticks[i..]) == [FP.RunSteps(apply, StepsFor(st.mode, st.settings), ticks[i].frame.value)]
    ensures ticks[i].frame.Some? && !IsQuitKey(ticks[i].key) ==>
      Displayed(apply, st, ticks[i..]) ==
        [FP.RunSteps(apply, StepsFor(st.mode, st.settings), ticks[i].frame.value)] + Displayed(apply, KeyStep(st, ticks[i].key), ticks[i + 1..])
  {
    assert ticks[i..][0] == ticks[i];
    assert ticks[i..][1..] == ticks[i + 1..];
  }

  /** `FinalState` from position `i` of the passes, unfolded by one pass. */
  lemma FinalStateAt(st: ViewerState, ticks: seq<Tick>, i: nat)
    requires i < |ticks|
    ensures ticks[i].frame.None? || IsQuitKey(ticks[i].key) ==> FinalState(st, ticks[i..]) == st
    ensures ticks[i].frame.Some? && !IsQuitKey(ticks[i].key) ==>
      FinalState(st, ticks[i..]) == FinalState(KeyStep(st, ticks[i].key), ticks[i + 1..])
  {
    assert ticks[i..][0] == ticks[i];
    assert ticks[i..][1..] == ticks[i + 1..];
  }

  /** However the keys go, the parameters stay in range. */
  lemma {:induction false} FinalStateInRange(st: ViewerState, ticks: seq<Tick>)
    requires InRange(st.settings)
    ensures InRange(FinalState(st, ticks).settings)
    decreases |ticks|
  {
    if !(ticks == [] || ticks[0].frame.None? || IsQuitKey(ticks[0].key)) {
      KeyStepKeepsRange(st, ticks[0].key);
      FinalStateInRange(KeyStep(st, ticks[0].key), ticks[1..]);
    }
  }

  /** At most one frame is shown per pass; when every frame arrives and
      nobody presses `q`, every pass shows one; a pass whose frame is
      missing shows nothing and ends the loop. */
  lemma {:induction false} DisplayedLength(apply: (FP.Step, Image) -> Option<Image>, st: ViewerState, ticks: seq<Tick>)
    ensures |Displayed(apply, st, ticks)| <= |ticks|
    ensures (forall i :: 0 <= i < |ticks| ==> ticks[i].frame.Some? && !IsQuitKey(ticks[i].key)) ==>
      |Displayed(apply, st, ticks)| == |ticks|
    ensures ticks != [] && ticks[0].frame.None? ==> Displayed(apply, st, ticks) == []
    decreases |ticks|
  {
    if ticks != [] && ticks[0].frame.Some? && !IsQuitKey(ticks[0].key) {
      DisplayedLength(apply, KeyStep(st, ticks[0].key), ticks[1..]);
      if forall i :: 0 <= i < |ticks| ==> ticks[i].frame.Some? && !IsQuitKey(ticks[i].key) {
        assert forall i :: 0 <= i < |ticks[1..]| ==> ticks[1..][i] == ticks[i + 1];
      }
    }
  }

  /** The viewer's loop state: the mode, the parameters, the processor and
      the frame counter. */
  class Viewer {
    var mode: FP.Mode
    var settings: Settings
    var processor: FP.FrameProcessor
    var frameCount: nat

    /** The parameters are in range and the processor runs exactly the
        current mode with the current parameters. */
    ghost predicate Valid()
      reads this, processor
    {
      InRange(settings) && processor.enabled && processor.pipeline == StepsFor(mode, settings)
    }

    function State(): ViewerState
      reads this
    {
      ViewerState(mode, settings)
    }

    /** The original mode, the initial parameters and no frames yet. */
    constructor ()
      ensures Valid() && State() == InitialState && frameCount == 0
    {
      var p := FP.CreateProcessor(FP.Original, FP.NoKwargs);
      mode := FP.Original;
      settings := InitialSettings;
      processor := p;
      frameCount := 0;
    }

    /** The key handling of one pass. */
    method HandleKey(key: Byte) returns (quit: bool)
      requires Valid()
      modifies this
      ensures Valid() && State() == KeyStep(old(State()), key)
      ensures quit <==> IsQuitKey(key)
      ensures frameCount == old(frameCount)
    {
      quit := false;
      var m := ModeForKey(key);
      if IsQuitKey(key) {
        quit := true;
      } else if m.Some? {
        SelectMode(m.value);
      } else if IsIncreaseKey(key) {
        IncreaseParameter();
      } else if IsDecreaseKey(key) {
        DecreaseParameter();
      }
    }

    /** A mode key: the mode changes and the processor is rebuilt with the
        current parameters. */
    method SelectMode(m: FP.Mode)
      requires Valid()
      modifies this
      ensures Valid() && mode == m && settings == old(settings) && frameCount == old(frameCount)
    {
      mode := m;
      processor := FP.CreateProcessor(mode, KwargsFor(mode, settings));
    }

    /** `+`: the current mode's parameter goes up and the processor is
        rebuilt; in a mode without a parameter nothing happens. */
    method IncreaseParameter()
      requires Valid()
      modifies this
      ensures Valid() && mode == old(mode) && settings == Increase(old(mode), old(settings))
      ensures frameCount == old(frameCount)
    {
      AdjustKeepsRange(mode, settings);
      if mode == FP.EdgeDetection {
        settings := settings.(threshold1 := MinInt(255, settings.threshold1 + 10), threshold2 := MinInt(255, settings.threshold2 + 10));
        processor := FP.CreateProcessor(mode, KwargsFor(mode, settings));
      } else if mode == FP.Blur {
        settings := settings.(ksize := MinInt(15, settings.ksize + 2));
        processor := FP.CreateProcessor(mode, KwargsFor(mode, settings));
      } else if mode == FP.Brightness {
        settings := settings.(brightness := MinInt(100, settings.brightness + 10));
        processor := FP.CreateProcessor(mode, KwargsFor(mode, settings));
      } else if mode == FP.Contrast {
        settings := settings.(alpha := MinReal(3.0, settings.alpha + 0.1));
        processor := FP.CreateProcessor(mode, KwargsFor(mode, settings));
      } else if mode == FP.Threshold {
        settings := settings.(threshValue := MinInt(255, settings.threshValue + 10));
        processor := FP.CreateProcessor(mode, KwargsFor(mode, settings));
      }
    }

    /** `-`: the current mode's parameter goes down and the processor is
        rebuilt; in a mode without a parameter nothing happens. */
    method DecreaseParameter()
      requires Valid()
      modifies this
      ensures Valid() && mode == old(mode) && settings == Decrease(old(mode), old(settings))
      ensures frameCount == old(frameCount)
    {
      AdjustKeepsRange(mode, settings);
      if mode == FP.EdgeDetection {
        settings := settings.(threshold1 := MaxInt(0, settings.threshold1 - 10), threshold2 := MaxInt(0, settings.threshold2 - 10));
        processor := FP.CreateProcessor(mode, KwargsFor(mode, settings));
      } else if mode == FP.Blur {
        settings := settings.(ksize := MaxInt(1, settings.ksize - 2));
        processor := FP.CreateProcessor(mode, KwargsFor(mode, settings));
      } else if mode == FP.Brightness {
        settings := settings.(brightness := MaxInt(-100, settings.brightness - 10));
        processor := FP.CreateProcessor(mode, KwargsFor(mode, settings));
      } else if mode == FP.Contrast {
        settings := settings.(alpha := MaxReal(0.5, settings.alpha - 0.1));
        processor := FP.CreateProcessor(mode, KwargsFor(mode, settings));
      } else if mode == FP.Threshold {
        settings := settings.(threshValue := MaxInt(0, settings.threshValue - 10));
        processor := FP.CreateProcessor(mode, KwargsFor(mode, settings));
      }
    }

    /** One pass with a frame: process and show it, count it, handle the
        key. */
    method ShowFrame(apply: (FP.Step, Image) -> Option<Image>, frame: Image, key: Byte) returns (shown: Image, quit: bool)
      requires Valid()
      modifies this
      ensures Valid() && State() == KeyStep(old(State()), key)
      ensures shown == FP.RunSteps(apply, StepsFor(old(mode), old(settings)), frame)
      ensures quit <==> IsQuitKey(key)
      ensures frameCount == old(frameCount) + 1
    {
      var processed := processor.Process(apply, Some(frame));
      shown := processed.value;
      frameCount := frameCount + 1;
      quit := HandleKey(key);
    }

    /** `main`'s loop once connected: it runs until a frame is missing or
        `q` is pressed (or the passes given run out). */
    method Run(apply: (FP.Step, Image) -> Option<Image>, ticks: seq<Tick>) returns (shown: seq<Image>)
      requires Valid()
      modifies this
      ensures Valid()
      ensures shown == Displayed(apply, old(State()), ticks)
      ensures State() == FinalState(old(State()), ticks)
      ensures frameCount == old(frameCount) + |shown|
    {
      shown := [];
      var i := 0;
      while i < |ticks|
        invariant i <= |ticks| && Valid()
        invariant shown + Displayed(apply, State(), ticks[i..]) == Displayed(apply, old(State()), ticks)
        invariant FinalState(State(), ticks[i..]) == FinalState(old(State()), ticks)
        invariant frameCount == old(frameCount) + |shown|
      {
        ghost var before := State();
        DisplayedAt(apply, before, ticks, i);
        FinalStateAt(before, ticks, i);
        if ticks[i].frame.None? {
          break;
        }
        ghost var rest := Displayed(apply, KeyStep(before, ticks[i].key), ticks[i + 1..]);
        var img, quit := ShowFrame(apply, ticks[i].frame.value, ticks[i].key);
        ghost var prev := shown;
        shown := shown + [img];
        if quit {
          break;
        }
        ConcatAssoc(prev, [img], rest);
        i := i + 1;
      }
      if i == |ticks| {
        assert ticks[i..] == [];
      }
    }
  }
}

=== FILE: color_navigation.dfy ===
/** The stand-alone colour navigation controller. Its encoding, clamped
    command store, steering law, manual keys, operator modes and
    send-on-change sender are those of the base controller; what is its own
    is the colour-target search and the area-ratio throttle rule with a 0.3
    backward factor and no steering inversion. */
module ColorNavigation {
  import opened Common
  import BN = BaseNavigation
  import TD = TargetDetectors

  /** What `detect_color_target` returns besides the mask. */
  datatype ColorTarget = NoTarget | Target(centerX: int, centerY: int, area: real)

  /** `detect_color_target`: no contours, a largest area below the minimum,
      or `m00 == 0` all give no target; otherwise the centroid of the first
      largest contour and its area. */
  function DetectColorTarget(minContourArea: real, contours: seq<TD.Contour>): (r: ColorTarget)
    ensures r.NoTarget? <==> (contours == [] ||
      contours[TD.LargestIndex(contours)].area < minContourArea || contours[TD.LargestIndex(contours)].m00 == 0.0)
    ensures r.Target? ==> r.area == contours[TD.LargestIndex(contours)].area
  {
    if contours == [] then NoTarget
    else
      var c := contours[TD.LargestIndex(contours)];
      if c.area < minContourArea then NoTarget
      else if c.m00 == 0.0 then NoTarget
      else Target(Trunc(c.m10 / c.m00), Trunc(c.m01 / c.m00), c.area)
  }

  /** This search and the unified navigator's colour detector agree: the
      same contours give a target in both or in neither, at the same
      centroid and with the same area; the detector raises only on a
      target. */
  lemma AgreesWithTargetDetector(minContourArea: real, targetAreaRatio: real, contours: seq<TD.Contour>, rows: nat, cols: nat)
    ensures var r := DetectColorTarget(minContourArea, contours);
      var d := TD.ColorDetect(TD.ColorTarget(minContourArea, targetAreaRatio), contours, rows, cols);
      (d.None? <==> r.Target? && !TD.InsetFits(rows, cols)) &&
      (d.Some? ==> (r.Target? <==> d.value.detected)) &&
      (r.Target? && d.Some? ==> d.value.centerX == Some(r.centerX as real) && d.value.centerY == Some(r.centerY as real) &&
                                d.value.distanceMetric == Some(r.area))
  {
  }

  /** The `target_area_ratio` and `base_throttle` settings. */
  datatype Params = Params(steering: BN.SteeringParams, targetAreaRatio: real, baseThrottle: real, minContourArea: real)

  const Defaults := Params(BN.DefaultSteering, 0.05, 0.3, 500.0)

  /** The area-ratio throttle rule: forward when the target looks too small
      by more than 0.01, backward at 0.3 of base when too large by more than
      0.01, stopped in between. */
  function Throttle(p: Params, areaRatio: real): (r: real)
    ensures p.targetAreaRatio - areaRatio > 0.01 ==> r == p.baseThrottle
    ensures p.targetAreaRatio - areaRatio < -0.01 ==> r == -p.baseThrottle * 0.3
    ensures -0.01 <= p.targetAreaRatio - areaRatio <= 0.01 ==> r == 0.0
  {
    var sizeError := p.targetAreaRatio - areaRatio;
    if sizeError > 0.01 then p.baseThrottle
    else if sizeError < -0.01 then -p.baseThrottle * 0.3
    else 0.0
  }

  /** `process_frame_autonomous` on a frame of `rows` x `cols`: no target
      stops the car; a target sets steering by the base law (never inverted)
      and throttle by its area ratio `area / (width * height)`. None stands
      for the exception Python raises when a target is found while the frame
      size is unknown or zero, and for the mask inset's `ValueError` on a
      frame too small for it, which comes after either branch. */
  function ProcessFrame(p: Params, frameWidth: Option<int>, frameHeight: Option<int>, rows: nat, cols: nat, contours: seq<TD.Contour>): (r: Option<(real, real)>)
    requires p.steering.quantization != 0.0
    ensures TD.InsetFits(rows, cols) && DetectColorTarget(p.minContourArea, contours).NoTarget? ==> r == Some((0.0, 0.0))
    ensures r.None? <==> (!TD.InsetFits(rows, cols) || (DetectColorTarget(p.minContourArea, contours).Target? &&
      (frameWidth.None? || frameHeight.None? || frameWidth.value * frameHeight.value == 0)))
  {
    match DetectColorTarget(p.minContourArea, contours)
    case NoTarget => if TD.InsetFits(rows, cols) then Some((0.0, 0.0)) else None
    case Target(cx, _, area) =>
      if frameWidth.None? || frameHeight.None? || frameWidth.value * frameHeight.value == 0 then None
      else
        var ratio := area / (frameWidth.value * frameHeight.value) as real;
        var command := (Throttle(p, ratio), BN.CalculateSteering(p.steering, frameWidth, cx as real));
        if TD.InsetFits(rows, cols) then Some(command) else None
  }

  /** Backing away from a target too close keeps the steering sign: the
      steering is the base law's command in every case. */
  lemma SteeringNeverInverted(p: Params, w: int, h: int, rows: nat, cols: nat, contours: seq<TD.Contour>)
    requires p.steering.quantization != 0.0 && w * h != 0 && TD.InsetFits(rows, cols)
    requires DetectColorTarget(p.minContourArea, contours).Target?
    ensures var t := DetectColorTarget(p.minContourArea, contours);
      var r := ProcessFrame(p, Some(w), Some(h), rows, cols, contours);
      r.Some? && r.value.1 == BN.CalculateSteering(p.steering, Some(w), t.centerX as real) &&
      r.value.0 == Throttle(p, t.area / (w * h) as real)
  {
  }
}

=== FILE: combined_input.dfy ===
/** The combined keyboard and gamepad input module: held, just-pressed and
    just-released sets for each device, toggles, raw axis values, the
    consume-once edge queries and the bipolar control helper. The listener
    threads become the event-handling methods; the OS delivers the events. */
module CombinedInput {
  import opened Common

  // ---------------------------------------------------------------------
  // Device state

  /** The keyboard globals: `pressed_keys`, `just_pressed_keys`,
      `just_released_keys` and `toggles`. */
  datatype Keyboard = Keyboard(pressed: set<string>, justPressed: set<string>, justReleased: set<string>,
                               toggles: map<string, bool>)

  /** The gamepad globals: `_pressed_buttons`, `_just_pressed_buttons`,
      `_just_released_buttons`, `_toggles` and `_axis_states`. */
  datatype Gamepad = Gamepad(pressed: set<string>, justPressed: set<string>, justReleased: set<string>,
                             toggles: map<string, bool>, axes: map<string, int>)

  const NoKeys := Keyboard({}, {}, {}, map[])
  const NoButtons := Gamepad({}, {}, {}, map[], map[])

  // ---------------------------------------------------------------------
  // Keyboard listener

  /** `_on_press`: a key with no text is ignored; a key not yet held is a
      rising edge; the key is held; a registered toggle flips. */
  function KeyPress(k: Keyboard, key: Option<string>): (r: Keyboard)
    ensures key.None? ==> r == k
    ensures key.Some? ==>
      r.pressed == k.pressed + {key.value} &&
      r.justPressed == (if key.value in k.pressed then k.justPressed else k.justPressed + {key.value}) &&
      r.justReleased == k.justReleased &&
      r.toggles == (if key.value in k.toggles then k.toggles[key.value := !k.toggles[key.value]] else k.toggles)
  {
    match key
    case None => k
    case Some(name) =>
      var jp := if name !in k.pressed then k.justPressed + {name} else k.justPressed;
      var t := if name in k.toggles then k.toggles[name := !k.toggles[name]] else k.toggles;
      Keyboard(k.pressed + {name}, jp, k.justReleased, t)
  }

  /** `_on_release`: the key is no longer held and is a falling edge, even
      if it was not held. */
  function KeyRelease(k: Keyboard, key: Option<string>): (r: Keyboard)
    ensures key.None? ==> r == k
    ensures key.Some? ==> r.pressed == k.pressed - {key.value} && r.justReleased == k.justReleased + {key.value} &&
                          r.justPressed == k.justPressed && r.toggles == k.toggles
  {
    match key
    case None => k
    case Some(name) => k.(pressed := k.pressed - {name}, justReleased := k.justReleased + {name})
  }

  /** Pressing and releasing a key that was not held leaves the held set as
      it was and records both edges. */
  lemma PressReleaseRoundTrip(k: Keyboard, key: string)
    requires key !in k.pressed
    ensures var r := KeyRelease(KeyPress(k, Some(key)), Some(key));
      r.pressed == k.pressed && key in r.justPressed && key in r.justReleased
  {
  }

  /** Auto-repeat presses of a held key are not new rising edges. */
  lemma AutoRepeatIsNotAnEdge(k: Keyboard, key: string)
    ensures KeyPress(KeyPress(k, Some(key)), Some(key)).justPressed == KeyPress(k, Some(key)).justPressed
  {
  }

  /** A registered toggle flips on each press: two presses restore it. */
  lemma TwoPressesRestoreToggle(k: Keyboard, key: string)
    requires key in k.toggles
    ensures var r := KeyPress(KeyRelease(KeyPress(k, Some(key)), Some(key)), Some(key));
      key in r.toggles && r.toggles[key] == k.toggles[key] &&
      KeyPress(k, Some(key)).toggles[key] == !k.toggles[key]
  {
  }

  // ---------------------------------------------------------------------
  // Gamepad listener

  /** `_CODE_TO_NAME`. */
  const CodeToName: map<string, string> := map[
    "BTN_SOUTH" := "A", "BTN_EAST" := "B", "BTN_NORTH" := "Y", "BTN_WEST" := "X",
    "BTN_TL" := "LB", "BTN_TR" := "RB", "BTN_TL2" := "LT", "BTN_TR2" := "RT",
    "BTN_SELECT" := "SLCT", "BTN_START" := "START", "BTN_MODE" := "GUIDE",
    "BTN_THUMBL" := "L3", "BTN_THUMBR" := "R3",
    "BTN_DPAD_UP" := "DPAD_UP", "BTN_DPAD_DOWN" := "DPAD_DOWN",
    "BTN_DPAD_LEFT" := "DPAD_LEFT", "BTN_DPAD_RIGHT" := "DPAD_RIGHT"]

  /** `_ABS_TO_NAME`. */
  const AbsToName: map<string, string> := map[
    "ABS_X" := "LX", "ABS_Y" := "LY", "ABS_RX" := "RX", "ABS_RY" := "RY",
    "ABS_Z" := "LT", "ABS_RZ" := "RT", "ABS_HAT0X" := "DPAD_X", "ABS_HAT0Y" := "DPAD_Y"]

  /** `_repr_button`: the friendly name, or the raw code when unknown. */
  function ButtonName(code: string): string
  {
    if code in CodeToName then CodeToName[code] else code
  }

  /** A button going down: a rising edge only when it was up, and then its
      toggle flips if `toggle` (digital buttons toggle; triggers and the
      D-pad axes do not). */
  function ButtonDown(g: Gamepad, name: string, toggle: bool): (r: Gamepad)
    ensures name in r.pressed && r.pressed == g.pressed + {name}
    ensures name in g.pressed ==> r == g
    ensures name !in g.pressed ==> r.justPressed == g.justPressed + {name}
    ensures r.justReleased == g.justReleased && r.axes == g.axes
  {
    if name in g.pressed then g
    else
      var t := if toggle then g.toggles[name := !(name in g.toggles && g.toggles[name])] else g.toggles;
      g.(pressed := g.pressed + {name}, justPressed := g.justPressed + {name}, toggles := t)
  }

  /** A button going up: a falling edge only when it was held. */
  function ButtonUp(g: Gamepad, name: string): (r: Gamepad)
    ensures r.pressed == g.pressed - {name}
    ensures r.justReleased == (if name in g.pressed then g.justReleased + {name} else g.justReleased)
    ensures r.justPressed == g.justPressed && r.toggles == g.toggles && r.axes == g.axes
  {
    if name in g.pressed then g.(pressed := g.pressed - {name}, justReleased := g.justReleased + {name})
    else g
  }

  /** A button is held while `held`, released otherwise. */
  function SetButton(g: Gamepad, name: string, held: bool): Gamepad
  {
    if held then ButtonDown(g, name, false) else ButtonUp(g, name)
  }

  /** One gamepad event: a digital button, an absolute axis, or anything
      else. */
  datatype Event = KeyEvent(code: string, state: int) | AbsoluteEvent(code: string, value: int) | OtherEvent

  /** The effect of one event: a button goes down on state 1 and up
      otherwise; a known axis records its raw value, triggers act as
      buttons held while positive, and each D-pad axis holds one direction
      while negative and the other while positive. */
  function HandleEvent(g: Gamepad, e: Event): (r: Gamepad)
    ensures e.OtherEvent? || (e.AbsoluteEvent? && e.code !in AbsToName) ==> r == g
    ensures e.KeyEvent? ==> (ButtonName(e.code) in r.pressed <==> e.state == 1) && r.axes == g.axes
    ensures e.AbsoluteEvent? && e.code in AbsToName ==> r.axes == g.axes[AbsToName[e.code] := e.value]
  {
    match e
    case KeyEvent(code, state) =>
      if state == 1 then ButtonDown(g, ButtonName(code), true) else ButtonUp(g, ButtonName(code))
    case AbsoluteEvent(code, value) =>
      if code !in AbsToName then g
      else
        var axis := AbsToName[code];
        var g1 := g.(axes := g.axes[axis := value]);
        if axis == "LT" || axis == "RT" then SetButton(g1, axis, value > 0)
        else if axis == "DPAD_X" then SetButton(SetButton(g1, "DPAD_LEFT", value < 0), "DPAD_RIGHT", value > 0)
        else if axis == "DPAD_Y" then SetButton(SetButton(g1, "DPAD_UP", value < 0), "DPAD_DOWN", value > 0)
        else g1
    case OtherEvent => g
  }

  /** The D-pad's horizontal axis holds LEFT exactly when negative and RIGHT
      exactly when positive, so 0 releases both. */
  lemma DpadHorizontal(g: Gamepad, v: int)
    ensures var r := HandleEvent(g, AbsoluteEvent("ABS_HAT0X", v));
      ("DPAD_LEFT" in r.pressed <==> v < 0) && ("DPAD_RIGHT" in r.pressed <==> v > 0) && r.axes["DPAD_X"] == v
  {
    assert AbsToName["ABS_HAT0X"] == "DPAD_X";
  }

  /** The vertical axis does the same with UP and DOWN. */
  lemma DpadVertical(g: Gamepad, v: int)
    ensures var r := HandleEvent(g, AbsoluteEvent("ABS_HAT0Y", v));
      ("DPAD_UP" in r.pressed <==> v < 0) && ("DPAD_DOWN" in r.pressed <==> v > 0) && r.axes["DPAD_Y"] == v
  {
    assert AbsToName["ABS_HAT0Y"] == "DPAD_Y";
  }

  /** A button's toggle flips only on the up-to-down transition: a repeated
      down report changes nothing. */
  lemma ButtonToggleOnDownEdgeOnly(g: Gamepad, code: string)
    ensures var once := HandleEvent(g, KeyEvent(code, 1));
      HandleEvent(once, KeyEvent(code, 1)) == once &&
      (ButtonName(code) !in g.pressed ==>
        once.toggles[ButtonName(code)] == !(ButtonName(code) in g.toggles && g.toggles[ButtonName(code)]))
  {
  }

  /** The gamepad after a batch of events, in order. */
  function HandleEvents(g: Gamepad, events: seq<Event>): Gamepad
    decreases |events|
  {
    if events == [] then g else HandleEvents(HandleEvent(g, events[0]), events[1..])
  }

  /** Handling two batches one after the other is handling their
      concatenation. */
  lemma {:induction false} HandleEventsAppend(g: Gamepad, a: seq<Event>, b: seq<Event>)
    ensures HandleEvents(g, a + b) == HandleEvents(HandleEvents(g, a), b)
    decreases |a|
  {
    if a == [] {
      assert a + b == b;
    } else {
      assert (a + b)[1..] == a[1..] + b;
      HandleEventsAppend(HandleEvent(g, a[0]), a[1..], b);
    }
  }

  /** Events that are neither buttons nor axes change nothing. */
  lemma {:induction false} OtherEventsIgnored(g: Gamepad, events: seq<Event>)
    requires forall i :: 0 <= i < |events| ==> events[i].OtherEvent?
    ensures HandleEvents(g, events) == g
    decreases |events|
  {
    if events != [] {
      OtherEventsIgnored(g, events[1..]);
    }
  }

  // ---------------------------------------------------------------------
  // Queries

  /** `is_pressed`: held on the gamepad, or else on the keyboard. */
  predicate IsPressed(g: Gamepad, k: Keyboard, name: string)
  {
    name in g.pressed || name in k.pressed
  }

  /** `rising_edge` (or `falling_edge`, given the just-released sets): the
      gamepad's recorded edge is consumed first, else the keyboard's. */
  function ConsumeEdge(gamepadEdges: set<string>, keyEdges: set<string>, name: string): (r: (bool, set<string>, set<string>))
    ensures r.0 <==> name in gamepadEdges || name in keyEdges
    ensures name in gamepadEdges ==> r.1 == gamepadEdges - {name} && r.2 == keyEdges
    ensures name !in gamepadEdges ==> r.1 == gamepadEdges && r.2 == keyEdges - {name}
  {
    if name in gamepadEdges then (true, gamepadEdges - {name}, keyEdges)
    else if name in keyEdges then (true, gamepadEdges, keyEdges - {name})
    else (false, gamepadEdges, keyEdges)
  }

  /** An edge is reported at most once per device that recorded it: a
      third query after two reports is always false. */
  lemma EdgeReportedAtMostOncePerDevice(gamepadEdges: set<string>, keyEdges: set<string>, name: string)
    ensures var a := ConsumeEdge(gamepadEdges, keyEdges, name);
      var b := ConsumeEdge(a.1, a.2, name);
      var c := ConsumeEdge(b.1, b.2, name);
      !c.0 && (b.0 ==> name in gamepadEdges && name in keyEdges) && name !in b.1 && name !in b.2
  {
  }

  /** Stick axes. */
  predicate IsStick(axis: string)
  {
    axis == "LX" || axis == "LY" || axis == "RX" || axis == "RY"
  }

  /** `get_axis`: the raw value (0 if never reported); normalised, a stick
      is divided by 32767 or 32768 and rounded to one decimal, a trigger is
      divided by 255 or 1023, anything else is returned as it is. */
  function GetAxis(g: Gamepad, axis: string, normalize: bool): (r: real)
    ensures !normalize ==> r == (if axis in g.axes then g.axes[axis] else 0) as real
    ensures normalize && IsStick(axis) && -32768 <= (if axis in g.axes then g.axes[axis] else 0) <= 32767 ==>
      -1.0 <= r <= 1.0
    ensures normalize && (axis == "LT" || axis == "RT") && 0 <= (if axis in g.axes then g.axes[axis] else 0) <= 1023 ==>
      0.0 <= r <= 1.0
    ensures normalize && !IsStick(axis) && axis != "LT" && axis != "RT" ==>
      r == (if axis in g.axes then g.axes[axis] else 0) as real
  {
    var v := if axis in g.axes then g.axes[axis] else 0;
    if !normalize then v as real
    else if IsStick(axis) then
      var n := v as real / (if v >= 0 then 32767.0 else 32768.0);
      StickRoundInRange(n);
      RoundTenth(n)
    else if axis == "LT" || axis == "RT" then v as real / (if v <= 255 then 255.0 else 1023.0)
    else v as real
  }

  /** `round(x, 1)` keeps a value of [-1, 1] inside [-1, 1]. */
  lemma StickRoundInRange(x: real)
    ensures -1.0 <= x <= 1.0 ==> -1.0 <= RoundTenth(x) <= 1.0
  {
    var n := RoundHalfEven(x * 10.0);
    assert -1.0 <= x <= 1.0 ==> -10 <= n <= 10;
  }

  /** A stick at rest reads 0 and at either end reads exactly 1 or -1. */
  lemma StickEnds(g: Gamepad, axis: string)
    requires IsStick(axis)
    ensures GetAxis(g.(axes := g.axes[axis := 0]), axis, true) == 0.0
    ensures GetAxis(g.(axes := g.axes[axis := 32767]), axis, true) == 1.0
    ensures GetAxis(g.(axes := g.axes[axis := -32768]), axis, true) == -1.0
  {
    assert RoundHalfEven(10.0) == 10;
    assert RoundHalfEven(-10.0) == -10;
    assert RoundHalfEven(0.0) == 0;
  }

  /** The axis names `get_bipolar_ctrl` recognises. */
  predicate IsAxisName(name: string)
  {
    name in AbsToName.Values
  }

  /** One side of the gamepad input: an axis reading, or 1 while the named
      button (or key) is held. */
  function GameSide(g: Gamepad, k: Keyboard, name: Option<string>): (r: real)
    ensures !(name.Some? && IsAxisName(name.value)) ==> (r == 1.0 <==> IsPressed(g, k, if name.Some? then name.value else "")) && (r == 0.0 || r == 1.0)
  {
    if name.Some? && IsAxisName(name.value) then GetAxis(g, name.value, true)
    else if IsPressed(g, k, if name.Some? then name.value else "") then 1.0 else 0.0
  }

  /** `get_bipolar_ctrl`: gamepad high minus low plus keyboard high minus
      low, clamped to [-1, 1]. */
  function BipolarCtrl(g: Gamepad, k: Keyboard, highKey: Option<string>, lowKey: Option<string>,
                       highGame: Option<string>, lowGame: Option<string>): (r: real)
    ensures -1.0 <= r <= 1.0
  {
    var gameIn := GameSide(g, k, highGame) - GameSide(g, k, lowGame);
    var keyIn := (if IsPressed(g, k, if highKey.Some? then highKey.value else "") then 1.0 else 0.0) -
                 (if IsPressed(g, k, if lowKey.Some? then lowKey.value else "") then 1.0 else 0.0);
    Clamp(gameIn + keyIn, -1.0, 1.0)
  }

  /** With nothing held and the sticks at rest, `w`/`s` on the left stick
      read 1 while `w` alone is held and -1 while `s` alone is held. */
  lemma KeysDriveBipolarCtrl(k: Keyboard)
    requires "" !in k.pressed
    ensures "w" in k.pressed && "s" !in k.pressed ==> BipolarCtrl(NoButtons, k, Some("w"), Some("s"), Some("LY"), None) == 1.0
    ensures "s" in k.pressed && "w" !in k.pressed ==> BipolarCtrl(NoButtons, k, Some("w"), Some("s"), Some("LY"), None) == -1.0
  {
    assert AbsToName["ABS_Y"] == "LY";
    assert IsAxisName("LY");
    assert RoundHalfEven(0.0) == 0;
    assert GetAxis(NoButtons, "LY", true) == 0.0;
  }

  // ---------------------------------------------------------------------
  // The module state

  /** The input module's globals, with the listener callbacks and queries
      as methods. */
  class InputState {
    var gamepad: Gamepad
    var keyboard: Keyboard

    constructor ()
      ensures gamepad == NoButtons && keyboard == NoKeys
    {
      gamepad, keyboard := NoButtons, NoKeys;
    }

    /** `_on_press`. */
    method OnPress(key: Option<string>)
      modifies this
      ensures keyboard == KeyPress(old(keyboard), key) && gamepad == old(gamepad)
    {
      if key.None? {
        return;
      }
      var name := key.value;
      var jp := keyboard.justPressed;
      if name !in keyboard.pressed {
        jp := jp + {name};
      }
      var t := keyboard.toggles;
      if name in t {
        t := t[name := !t[name]];
      }
      keyboard := Keyboard(keyboard.pressed + {name}, jp, keyboard.justReleased, t);
    }

    /** `_on_release`. */
    method OnRelease(key: Option<string>)
      modifies this
      ensures keyboard == KeyRelease(old(keyboard), key) && gamepad == old(gamepad)
    {
      if key.None? {
        return;
      }
      keyboard := keyboard.(pressed := keyboard.pressed - {key.value}, justReleased := keyboard.justReleased + {key.value});
    }

    /** One batch of `_gamepad_event_loop`: the events in order. */
    method OnGamepadEvents(events: seq<Event>)
      modifies this
      ensures gamepad == HandleEvents(old(gamepad), events) && keyboard == old(keyboard)
    {
      var i := 0;
      while i < |events|
        invariant i <= |events|
        invariant HandleEvents(gamepad, events[i..]) == HandleEvents(old(gamepad), events)
        invariant keyboard == old(keyboard)
      {
        assert events[i..][1..] == events[i + 1..];
        gamepad := HandleEvent(gamepad, events[i]);
        i := i + 1;
      }
      assert events[i..] == [];
    }

    /** A failed read: held buttons and axis values are cleared; edges and
        toggles stay. */
    method OnGamepadLost()
      modifies this
      ensures gamepad == old(gamepad).(pressed := {}, axes := map[]) && keyboard == old(keyboard)
    {
      gamepad := gamepad.(pressed := {}, axes := map[]);
    }

    /** `is_toggled`: the gamepad toggle if there is one; otherwise the
        keyboard toggle, registering an unknown key as False. */
    method IsToggled(name: string) returns (r: bool)
      modifies this
      ensures name in old(gamepad.toggles) ==> r == old(gamepad.toggles)[name] && keyboard == old(keyboard)
      ensures name !in old(gamepad.toggles) ==>
        (name in old(keyboard.toggles) ==> r == old(keyboard.toggles)[name] && keyboard == old(keyboard)) &&
        (name !in old(keyboard.toggles) ==> !r && keyboard == old(keyboard).(toggles := old(keyboard.toggles)[name := false]))
      ensures gamepad == old(gamepad)
    {
      if name in gamepad.toggles {
        return gamepad.toggles[name];
      }
      if name !in keyboard.toggles {
        keyboard := keyboard.(toggles := keyboard.toggles[name := false]);
      }
      return keyboard.toggles[name];
    }

    /** `rising_edge`. */
    method RisingEdge(name: string) returns (r: bool)
      modifies this
      ensures var e := ConsumeEdge(old(gamepad.justPressed), old(keyboard.justPressed), name);
        r == e.0 && gamepad == old(gamepad).(justPressed := e.1) && keyboard == old(keyboard).(justPressed := e.2)
    {
      if name in gamepad.justPressed {
        gamepad := gamepad.(justPressed := gamepad.justPressed - {name});
        return true;
      }
      if name in keyboard.justPressed {
        keyboard := keyboard.(justPressed := keyboard.justPressed - {name});
        return true;
      }
      return false;
    }

    /** `falling_edge`. */
    method FallingEdge(name: string) returns (r: bool)
      modifies this
      ensures var e := ConsumeEdge(old(gamepad.justReleased), old(keyboard.justReleased), name);
        r == e.0 && gamepad == old(gamepad).(justReleased := e.1) && keyboard == old(keyboard).(justReleased := e.2)
    {
      if name in gamepad.justReleased {
        gamepad := gamepad.(justReleased := gamepad.justReleased - {name});
        return true;
      }
      if name in keyboard.justReleased {
        keyboard := keyboard.(justReleased := keyboard.justReleased - {name});
        return true;
      }
      return false;
    }
  }
}

=== FILE: common.dfy ===
/** Shared vocabulary: optional values, bytes, and the Python numeric
    conversions (`int()`, `round()`, `min`/`max` clamping) that the control
    code relies on, stated over mathematical reals and integers. */
module Common {

  datatype Option<+T> = None | Some(value: T)

  /** One octet, as held by a Python `bytes` object. */
  type Byte = x: int | 0 <= x < 256

  /** A decoded camera image; only its dimensions matter to the model. */
  datatype Image = Image(rows: nat, cols: nat, pixels: seq<int>)

  /** Python `int(x)` on a float: truncation toward zero. */
  function Trunc(x: real): (r: int)
    ensures x >= 0.0 ==> 0 <= r && r as real <= x < r as real + 1.0
    ensures x < 0.0 ==> r <= 0 && r as real - 1.0 < x <= r as real
  {
    if x >= 0.0 then x.Floor else -((-x).Floor)
  }

  /** Python `round(x)`: nearest integer, ties to the even neighbour. */
  function RoundHalfEven(x: real): (r: int)
    ensures -0.5 <= r as real - x <= 0.5
    ensures (r as real - x == 0.5 || x - r as real == 0.5) ==> r % 2 == 0
  {
    var f := x.Floor;
    var d := x - f as real;
    if d < 0.5 then f
    else if d > 0.5 then f + 1
    else if f % 2 == 0 then f else f + 1
  }

  /** Python `round(x, 1)`: the nearest multiple of one tenth, ties to even tenths. */
  function RoundTenth(x: real): (r: real)
    ensures -0.05 <= r - x <= 0.05
    ensures (r * 10.0).Floor as real == r * 10.0
  {
    RoundHalfEven(x * 10.0) as real / 10.0
  }

  /** `max(lo, min(hi, v))`, the clamp written throughout the controllers. */
  function Clamp(v: real, lo: real, hi: real): (r: real)
    requires lo <= hi
    ensures lo <= r <= hi
    ensures lo <= v <= hi ==> r == v
    ensures v < lo ==> r == lo
    ensures v > hi ==> r == hi
  {
    if v > hi then hi else if v < lo then lo else v
  }

  function Abs(x: real): (r: real)
    ensures r >= 0.0 && (r == x || r == -x)
  {
    if x < 0.0 then -x else x
  }

  function MinInt(a: int, b: int): (r: int)
    ensures r <= a && r <= b && (r == a || r == b)
  {
    if a <= b then a else b
  }

  function MaxInt(a: int, b: int): (r: int)
    ensures r >= a && r >= b && (r == a || r == b)
  {
    if a >= b then a else b
  }

  function MinReal(a: real, b: real): (r: real)
    ensures r <= a && r <= b && (r == a || r == b)
  {
    if a <= b then a else b
  }

  function MaxReal(a: real, b: real): (r: real)
    ensures r >= a && r >= b && (r == a || r == b)
  {
    if a >= b then a else b
  }

  /** A slice of a slice is a slice of the original. */
  lemma SliceOfSlice<T>(s: seq<T>, lo: nat, hi: nat, i: nat, j: nat)
    requires lo <= hi <= |s| && i <= j <= hi - lo
    ensures s[lo..hi][i..j] == s[lo + i..lo + j]
  {
    var x, y := s[lo..hi][i..j], s[lo + i..lo + j];
    forall k | 0 <= k < j - i ensures x[k] == y[k] {
      assert x[k] == s[lo..hi][i + k];
    }
  }

  /** Division and remainder are determined by a quotient and a remainder
      in range. */
  lemma DivModUnique(n: int, d: int, q: int, r: int)
    requires d > 0 && n == d * q + r && 0 <= r < d
    ensures n / d == q && n % d == r
  {
    var k := q - n / d;
    assert d * k == n % d - r by {
      assert n == d * (n / d) + n % d;
      assert d * q - d * (n / d) == d * k;
    }
  }

  /** Dividing twice is dividing by the product. */
  lemma DivTwice(n: int, a: int, b: int)
    requires a > 0 && b > 0
    ensures n / (a * b) == (n / a) / b
  {
    var q := (n / a) / b;
    var r1 := n % a;
    var r2 := (n / a) % b;
    assert n == a * (n / a) + r1;
    assert n / a == b * q + r2;
    assert n == (a * b) * q + (a * r2 + r1) by {
      assert a * (n / a) == a * (b * q + r2);
      assert a * (b * q + r2) == (a * b) * q + a * r2;
    }
    assert 0 <= a * r2 + r1 < a * b by {
      assert 0 <= a * r2;
      assert a * r2 <= a * (b - 1);
      assert a * (b - 1) == a * b - a;
    }
    DivModUnique(n, a * b, q, a * r2 + r1);
  }

  /** Concatenation is associative. */
  lemma ConcatAssoc<T>(a: seq<T>, b: seq<T>, c: seq<T>)
    ensures (a + b) + c == a + (b + c)
  {
  }
}

=== FILE: control_gui.dfy ===
/** The first unified control window of the waypoint marker: Tab cycling
    through the available modes, the click-to-centimetre mapping of the
    waypoint canvas, and the manual loop that sends each command channel
    only when its value changes. */
module ControlGui {
  import opened Common
  import BLE = BleClient

  // ---------------------------------------------------------------------
  // Mode cycling

  /** The modes in Tab order: manual, waypoint, navigation, filter. */
  const ModeCount := 4
  const ManualMode := 0
  const WaypointMode := 1
  const NavigationMode := 2
  const FilterMode := 3

  /** Manual needs the input module, navigation and filter the navigation
      modules; waypoint is always there. */
  predicate Available(i: nat, manualAvailable: bool, navigationAvailable: bool)
  {
    (i == ManualMode ==> manualAvailable) && (i == NavigationMode || i == FilterMode ==> navigationAvailable)
  }

  /** How many Tab steps forward `next` lies from `current`: 1 to 4, where
      4 is a full turn back to `current`. */
  function Steps(current: nat, next: nat): (r: nat)
    requires current < ModeCount && next < ModeCount
    ensures 1 <= r <= ModeCount && (current + r) % ModeCount == next
  {
    if next > current then next - current else next + ModeCount - current
  }

  /** The mode `k` Tab steps after `current`. */
  function ModeAt(current: nat, k: nat): nat
  {
    (current + k) % ModeCount
  }

  /** `cycle_mode`: the first available mode strictly after the current one
      in cyclic order. The loop ends because waypoint mode is always
      available. */
  method CycleMode(current: nat, manualAvailable: bool, navigationAvailable: bool) returns (next: nat)
    requires current < ModeCount
    ensures next < ModeCount && Available(next, manualAvailable, navigationAvailable)
    ensures forall k :: 1 <= k < Steps(current, next) ==> !Available(ModeAt(current, k), manualAvailable, navigationAvailable)
  {
    next := (current + 1) % ModeCount;
    ghost var k := 1;
    while true
      invariant next < ModeCount && 1 <= k <= Steps(current, WaypointMode) && next == (current + k) % ModeCount
      invariant forall j :: 1 <= j < k ==> !Available(ModeAt(current, j), manualAvailable, navigationAvailable)
      decreases (5 - next) % ModeCount
    {
      if next == ManualMode && !manualAvailable {
        next := (next + 1) % ModeCount;
        k := k + 1;
        continue;
      }
      if (next == NavigationMode || next == FilterMode) && !navigationAvailable {
        next := (next + 1) % ModeCount;
        k := k + 1;
        continue;
      }
      break;
    }
    assert Steps(current, next) == k;
  }

  // ---------------------------------------------------------------------
  // Waypoint canvas

  const CanvasWidth := 800
  const CanvasHeight := 600
  const MaxX := 180.0
  const MaxY := 120.0

  /** `on_waypoint_click`: pixels to centimetres with the y axis flipped,
      each rounded to one decimal. */
  function ClickToCm(px: int, py: int): (r: (real, real))
    ensures -0.05 <= r.0 - px as real * MaxX / CanvasWidth as real <= 0.05
    ensures -0.05 <= r.1 - (CanvasHeight - py) as real * MaxY / CanvasHeight as real <= 0.05
  {
    (RoundTenth(px as real * MaxX / CanvasWidth as real),
     RoundTenth((CanvasHeight - py) as real * MaxY / CanvasHeight as real))
  }

  /** The bottom-left corner is the origin and the top-right corner the far
      corner of the field. */
  lemma ClickCorners()
    ensures ClickToCm(0, CanvasHeight) == (0.0, 0.0)
    ensures ClickToCm(CanvasWidth, 0) == (MaxX, MaxY)
  {
    assert 0 as real * MaxX / CanvasWidth as real == 0.0;
    assert CanvasWidth as real * MaxX / CanvasWidth as real == 180.0;
    assert (CanvasHeight - 0) as real * MaxY / CanvasHeight as real == 120.0;
    assert RoundHalfEven(1800.0) == 1800;
    assert RoundHalfEven(1200.0) == 1200;
    assert RoundHalfEven(0.0) == 0;
  }

  /** A click is ignored while no BLE client object exists; otherwise the
      rounded waypoint goes out through `set_waypoint`. */
  method OnWaypointClick(car: BLE.CarBleClient?, px: int, py: int, now: real)
    requires car != null ==> car.Valid()
    modifies car
    ensures car != null ==> (car.Valid() &&
      car.State() == BLE.AfterSetChar(old(car.State()), car.connected, car.baseUuid + BLE.WaypointSuffix,
                                      BLE.PackWaypoint(ClickToCm(px, py).0, ClickToCm(px, py).1, 0.0), true, BLE.MinInterval, now))
  {
    if car == null {
      return;
    }
    var p := ClickToCm(px, py);
    car.SetWaypoint(p.0, p.1, 0.0, now);
  }

  // ---------------------------------------------------------------------
  // Manual control loop

  /** The client calls the manual loop makes. */
  datatype Call = SetThrottle(v: real) | SetSteering(v: real) | SetOmega(v: real) | SetLed(n: int)

  /** One pass of the loop: whether it is active (manual mode with a
      client), the scaled commands read from the inputs, whether the LED
      button is held and whether Escape is held. */
  datatype Tick = Tick(active: bool, throttle: real, steering: real, omega: real, ledHeld: bool, escape: bool)

  /** The calls of one active pass: each channel only when its value differs
      from the last sent, then the LED, then on Escape three zero
      commands. */
  function TickCalls(t: Tick, last: (real, real, real)): (r: seq<Call>)
    ensures t.escape ==> |r| >= 3 && r[|r| - 3..] == [SetThrottle(0.0), SetSteering(0.0), SetOmega(0.0)]
    ensures !t.escape ==> |r| >= 1 && r[|r| - 1].SetLed?
  {
    (if t.throttle != last.0 then [SetThrottle(t.throttle)] else []) +
    (if t.steering != last.1 then [SetSteering(t.steering)] else []) +
    (if t.omega != last.2 then [SetOmega(t.omega)] else []) +
    [SetLed(if t.ledHeld then 0 else 1)] +
    (if t.escape then [SetThrottle(0.0), SetSteering(0.0), SetOmega(0.0)] else [])
  }

  /** Without Escape, a channel is called with its new value exactly when
      that value changed, and the LED is always set. */
  lemma TickCallsOnChange(t: Tick, last: (real, real, real))
    requires !t.escape
    ensures var r := TickCalls(t, last);
      (SetThrottle(t.throttle) in r <==> t.throttle != last.0) &&
      (SetSteering(t.steering) in r <==> t.steering != last.1) &&
      (SetOmega(t.omega) in r <==> t.omega != last.2) &&
      SetLed(if t.ledHeld then 0 else 1) in r
  {
  }

  /** The last-sent values after an active pass: zero after Escape. */
  function TickLast(t: Tick): (real, real, real)
  {
    if t.escape then (0.0, 0.0, 0.0) else (t.throttle, t.steering, t.omega)
  }

  /** All calls of the loop over its passes. */
  function ManualCalls(ticks: seq<Tick>, last: (real, real, real)): seq<Call>
    decreases |ticks|
  {
    if ticks == [] then []
    else if !ticks[0].active then ManualCalls(ticks[1..], last)
    else TickCalls(ticks[0], last) + ManualCalls(ticks[1..], TickLast(ticks[0]))
  }

  /** One active pass of `manual_control_loop`: the calls it makes and the
      last-sent values it leaves. */
  method ManualPass(t: Tick, last: (real, real, real)) returns (out: seq<Call>, next: (real, real, real))
    ensures out == TickCalls(t, last) && next == TickLast(t)
  {
    var lastThrottle, lastSteering, lastOmega := last.0, last.1, last.2;
    ghost var throttlePart: seq<Call> := if t.throttle != last.0 then [SetThrottle(t.throttle)] else [];
    ghost var steeringPart: seq<Call> := if t.steering != last.1 then [SetSteering(t.steering)] else [];
    ghost var omegaPart: seq<Call> := if t.omega != last.2 then [SetOmega(t.omega)] else [];
    out := [];
    if t.throttle != lastThrottle {
      out := out + [SetThrottle(t.throttle)];
      lastThrottle := t.throttle;
    }
    assert out == throttlePart;
    if t.steering != lastSteering {
      out := out + [SetSteering(t.steering)];
      lastSteering := t.steering;
    }
    assert out == throttlePart + steeringPart;
    if t.omega != lastOmega {
      out := out + [SetOmega(t.omega)];
      lastOmega := t.omega;
    }
    assert out == throttlePart + steeringPart + omegaPart;
    out := out + [SetLed(if t.ledHeld then 0 else 1)];
    if t.escape {
      out := out + [SetThrottle(0.0), SetSteering(0.0), SetOmega(0.0)];
      lastThrottle, lastSteering, lastOmega := 0.0, 0.0, 0.0;
    }
    next := (lastThrottle, lastSteering, lastOmega);
  }

  /** `manual_control_loop` over the passes it runs. */
  method ManualControlLoop(ticks: seq<Tick>) returns (calls: seq<Call>)
    ensures calls == ManualCalls(ticks, (0.0, 0.0, 0.0))
  {
    var last := (0.0, 0.0, 0.0);
    calls := [];
    var i := 0;
    while i < |ticks|
      invariant i <= |ticks|
      invariant calls + ManualCalls(ticks[i..], last) == ManualCalls(ticks, (0.0, 0.0, 0.0))
    {
      assert ticks[i..][1..] == ticks[i + 1..];
      if ticks[i].active {
        var out;
        out, last := ManualPass(ticks[i], last);
        calls := calls + out;
      }
      i := i + 1;
    }
    assert ticks[i..] == [];
  }

  /** A pass whose commands equal the last sent ones, without Escape, makes
      only the LED call. */
  lemma SteadyInputOnlyLed(t: Tick, last: (real, real, real))
    requires (t.throttle, t.steering, t.omega) == last && !t.escape
    ensures TickCalls(t, last) == [SetLed(if t.ledHeld then 0 else 1)]
  {
  }

  /** After an Escape pass, a command still held is sent again on the next
      pass, since the last-sent values were reset to 0. */
  lemma EscapeResendsHeldCommand(t: Tick, u: Tick, last: (real, real, real))
    requires t.active && t.escape && u.active && u.throttle != 0.0
    ensures ManualCalls([t, u], last) == TickCalls(t, last) + TickCalls(u, (0.0, 0.0, 0.0))
    ensures TickCalls(u, (0.0, 0.0, 0.0))[0] == SetThrottle(u.throttle)
  {
    assert [t, u][1..] == [u];
    assert [u][1..] == [];
    assert ManualCalls([u], (0.0, 0.0, 0.0)) == TickCalls(u, (0.0, 0.0, 0.0)) + ManualCalls([], TickLast(u));
  }

  /** Inactive passes (another mode, or no client) make no call. */
  lemma {:induction false} InactiveSendsNothing(ticks: seq<Tick>, last: (real, real, real))
    requires forall i :: 0 <= i < |ticks| ==> !ticks[i].active
    ensures ManualCalls(ticks, last) == []
    decreases |ticks|
  {
    if ticks != [] {
      InactiveSendsNothing(ticks[1..], last);
    }
  }
}

=== FILE: control_gui_v2.dfy ===
/** The second unified control window of the waypoint marker: one operating
    mode at a time (manual, waypoint, ArUco navigation, colour navigation,
    filter view), a mode switch that stops the old mode, zeroes the motors
    and keeps or releases the camera, the two camera navigation loops, the
    three-channel send-on-change BLE sender and the waypoint canvas. */
module ControlGuiV2 {
  import opened Common
  import BLE = BleClient
  import AD = ArucoDetector
  import TD = TargetDetectors
  import AN = ArucoNavigation

  // ---------------------------------------------------------------------
  // Mode switching

  /** `current_mode`; `Stopped` is None. */
  datatype Mode = Stopped | Manual | Waypoint | Aruco | Color | Filter

  /** The modes that read the camera. */
  predicate NeedsCamera(m: Mode)
  {
    m == Aruco || m == Color || m == Filter
  }

  /** The modes that run a task of their own (waypoint mode is event driven). */
  predicate HasTask(m: Mode)
  {
    m == Manual || NeedsCamera(m)
  }

  /** What opening the camera yields: failure, or an open camera whose
      second read may or may not have given the frame size. */
  datatype CameraOpening = OpenFails | Opens(size: Option<(int, int)>)

  /** The window state `change_mode` works on: the mode, whether a mode task
      exists, whether the camera is open, the frame size, and the three
      stored commands. */
  datatype GuiState = GuiState(mode: Mode, hasTask: bool, cameraOpen: bool, frameSize: Option<(int, int)>,
                               commands: (real, real, real))

  const Initial := GuiState(Stopped, false, false, None, (0.0, 0.0, 0.0))

  /** `send_motor_command`: all three commands clamped to [-1, 1]. */
  function WithCommands(s: GuiState, throttle: real, steering: real, omega: real): (r: GuiState)
    ensures r.commands.0 == Clamp(throttle, -1.0, 1.0) && r.commands.1 == Clamp(steering, -1.0, 1.0) &&
            r.commands.2 == Clamp(omega, -1.0, 1.0)
    ensures r.(commands := s.commands) == s
  {
    s.(commands := (MaxReal(-1.0, MinReal(1.0, throttle)), MaxReal(-1.0, MinReal(1.0, steering)),
                    MaxReal(-1.0, MinReal(1.0, omega))))
  }

  /** `change_mode`: nothing happens for the current mode. Otherwise the old
      task is cancelled, all three commands are set to 0, the camera is
      released when leaving the camera modes for a non-camera mode, and the
      new mode starts; a camera mode that cannot open the camera falls back
      to the stopped state through a nested `change_mode(None)`. */
  function ChangeModeSpec(s: GuiState, newMode: Mode, opening: CameraOpening): (r: GuiState)
    decreases if newMode == Stopped then 0 else 1
  {
    if newMode == s.mode then s
    else
      var stopped := WithCommands(s.(hasTask := false), 0.0, 0.0, 0.0);
      var released :=
        if NeedsCamera(s.mode) && !NeedsCamera(newMode) && stopped.cameraOpen
        then stopped.(cameraOpen := false, frameSize := None) else stopped;
      var entered := released.(mode := newMode);
      if newMode == Manual then entered.(hasTask := true)
      else if NeedsCamera(newMode) then
        if entered.cameraOpen then entered.(hasTask := true)
        else match opening
          case OpenFails => ChangeModeSpec(entered, Stopped, opening)
          case Opens(size) =>
            entered.(cameraOpen := true, frameSize := if size.Some? then size else entered.frameSize, hasTask := true)
      else entered
  }

  /** Asking for the current mode is a no-op. */
  lemma SameModeIsNoOp(s: GuiState, opening: CameraOpening)
    ensures ChangeModeSpec(s, s.mode, opening) == s
  {
  }

  /** A real mode change leaves all three commands at 0. */
  lemma ChangeZeroesCommands(s: GuiState, newMode: Mode, opening: CameraOpening)
    requires newMode != s.mode
    ensures ChangeModeSpec(s, newMode, opening).commands == (0.0, 0.0, 0.0)
  {
  }

  /** An open camera stays open, with its frame size, between camera modes. */
  lemma CameraKeptBetweenCameraModes(s: GuiState, newMode: Mode, opening: CameraOpening)
    requires NeedsCamera(s.mode) && NeedsCamera(newMode) && s.cameraOpen
    ensures var r := ChangeModeSpec(s, newMode, opening);
      r.cameraOpen && r.frameSize == s.frameSize && r.mode == newMode
  {
  }

  /** An open camera is released exactly when a camera mode is left for a
      non-camera mode. */
  lemma CameraReleasedOnlyLeavingCameraModes(s: GuiState, newMode: Mode, opening: CameraOpening)
    requires s.cameraOpen
    ensures !ChangeModeSpec(s, newMode, opening).cameraOpen <==>
      (newMode != s.mode && NeedsCamera(s.mode) && !NeedsCamera(newMode))
  {
  }

  /** The window is coherent: a camera mode has an open camera, and a mode
      task exists exactly for the modes that run one. */
  predicate Coherent(s: GuiState)
  {
    (NeedsCamera(s.mode) ==> s.cameraOpen) && (s.hasTask <==> HasTask(s.mode))
  }

  /** Every mode change keeps the window coherent; a camera mode that could
      not open its camera ends stopped with zero commands. */
  lemma CoherentPreserved(s: GuiState, newMode: Mode, opening: CameraOpening)
    requires Coherent(s)
    ensures var r := ChangeModeSpec(s, newMode, opening);
      Coherent(r) && (r.mode == newMode || (r.mode == Stopped && NeedsCamera(newMode) && opening.OpenFails?))
  {
  }

  /** The window object's mode-switching state. */
  class ControlWindow {
    var mode: Mode
    var hasTask: bool
    var cameraOpen: bool
    var frameSize: Option<(int, int)>
    var currentThrottle: real
    var currentSteering: real
    var currentOmega: real

    function State(): GuiState
      reads this
    {
      GuiState(mode, hasTask, cameraOpen, frameSize, (currentThrottle, currentSteering, currentOmega))
    }

    constructor ()
      ensures State() == Initial && Coherent(State())
    {
      mode, hasTask, cameraOpen, frameSize := Stopped, false, false, None;
      currentThrottle, currentSteering, currentOmega := 0.0, 0.0, 0.0;
    }

    /** `send_motor_command`. */
    method SendMotorCommand(throttle: real, steering: real, omega: real)
      modifies this
      ensures State() == WithCommands(old(State()), throttle, steering, omega)
    {
      currentThrottle := MaxReal(-1.0, MinReal(1.0, throttle));
      currentSteering := MaxReal(-1.0, MinReal(1.0, steering));
      currentOmega := MaxReal(-1.0, MinReal(1.0, omega));
    }

    /** `init_camera` on a closed camera. */
    method InitCamera(opening: CameraOpening) returns (ok: bool)
      requires !cameraOpen
      modifies this
      ensures ok <==> opening.Opens?
      ensures ok ==> State() == old(State()).(cameraOpen := true,
                                              frameSize := if opening.size.Some? then opening.size else old(frameSize))
      ensures !ok ==> State() == old(State())
    {
      if opening.OpenFails? {
        return false;
      }
      cameraOpen := true;
      if opening.size.Some? {
        frameSize := opening.size;
      }
      return true;
    }

    /** `change_mode`. */
    method ChangeMode(newMode: Mode, opening: CameraOpening)
      modifies this
      ensures State() == ChangeModeSpec(old(State()), newMode, opening)
      decreases if newMode == Stopped then 0 else 1
    {
      if newMode == mode {
        return;
      }
      hasTask := false;
      SendMotorCommand(0.0, 0.0, 0.0);
      var oldNeedsCamera := NeedsCamera(mode);
      var newNeedsCamera := NeedsCamera(newMode);
      if oldNeedsCamera && !newNeedsCamera && cameraOpen {
        cameraOpen := false;
        frameSize := None;
      }
      mode := newMode;
      if newMode == Manual {
        hasTask := true;
      } else if newNeedsCamera {
        if !cameraOpen {
          var ok := InitCamera(opening);
          if !ok {
            ChangeMode(Stopped, opening);
            return;
          }
        }
        hasTask := true;
      }
    }
  }

  // ---------------------------------------------------------------------
  // Camera navigation loops

  /** The `navigation` and `color_tracking` settings the loops read. */
  datatype NavConfig = NavConfig(targetDistanceCm: real, toleranceCm: real, maxSteering: real, kp: real,
                                 baseThrottle: real, deadZone: real, minContourArea: real)

  const DefaultConfig := NavConfig(50.0, 5.0, 0.6, 0.003, 0.3, 0.1, 500.0)

  /** The loops' steering: `kp * error`, zeroed inside the dead zone, then
      clamped to `±max_steering`; there is no quantisation. */
  function Steering(c: NavConfig, frameWidth: int, x: real): (r: real)
    ensures c.maxSteering >= 0.0 ==> -c.maxSteering <= r <= c.maxSteering
    ensures var raw := (x - frameWidth as real / 2.0) * c.kp;
      (c.maxSteering >= 0.0 && Abs(raw) < c.deadZone ==> r == 0.0) &&
      (Abs(raw) >= c.deadZone && -c.maxSteering <= raw <= c.maxSteering ==> r == raw) &&
      (c.maxSteering >= 0.0 && Abs(raw) >= c.deadZone && raw > c.maxSteering ==> r == c.maxSteering) &&
      (c.maxSteering >= 0.0 && Abs(raw) >= c.deadZone && raw < -c.maxSteering ==> r == -c.maxSteering)
  {
    var raw := (x - frameWidth as real / 2.0) * c.kp;
    var live := if Abs(raw) < c.deadZone then 0.0 else raw;
    MaxReal(-c.maxSteering, MinReal(c.maxSteering, live))
  }

  /** One pass of `aruco_navigation_loop`: no marker stops the car; the
      first marker steers and sets throttle by its distance, with steering
      inverted when backing up. None stands for the exception raised when a
      marker is seen while the frame width is unknown. */
  function ArucoLoopCommand(c: NavConfig, d: AD.Detector, frameWidth: Option<int>, corners: seq<AD.Marker>,
                            ids: Option<seq<int>>): (r: Option<(real, real)>)
    requires AD.Measurable(corners)
    requires ids.Some? && ids.value != [] ==> 0 < |corners| <= |ids.value|
    ensures ids.None? || ids.value == [] ==> r == Some((0.0, 0.0))
    ensures r.None? <==> (ids.Some? && ids.value != [] && frameWidth.None?)
    ensures r.Some? && ids.Some? && ids.value != [] ==>
      var m := AD.MarkerInfos(d, corners, ids)[0];
      var s := Steering(c, frameWidth.value, m.centerX);
      var e := m.distanceCm - c.targetDistanceCm;
      (Abs(e) <= c.toleranceCm ==> r.value == (0.0, s)) &&
      (Abs(e) > c.toleranceCm && e > 0.0 ==> r.value.0 == c.baseThrottle) &&
      (Abs(e) > c.toleranceCm && e <= 0.0 ==> r.value.0 == -c.baseThrottle * 0.5) &&
      r.value.1 == (if r.value.0 < 0.0 then -s else s)
  {
    if ids.Some? && |ids.value| > 0 then
      if frameWidth.None? then None
      else
        var m := AD.MarkerInfos(d, corners, ids)[0];
        var s := Steering(c, frameWidth.value, m.centerX);
        var e := m.distanceCm - c.targetDistanceCm;
        if Abs(e) > c.toleranceCm then
          var t := if e > 0.0 then c.baseThrottle else -c.baseThrottle * 0.5;
          Some((t, if t < 0.0 then -s else s))
        else Some((0.0, s))
    else Some((0.0, 0.0))
  }

  /** The loop's throttle is the stand-alone ArUco navigator's rule with the
      same target, tolerance and base throttle. */
  lemma ArucoThrottleAsNavigator(c: NavConfig, d: AD.Detector, w: int, corners: seq<AD.Marker>, ids: seq<int>)
    requires AD.Measurable(corners) && ids != [] && 0 < |corners| <= |ids|
    ensures var m := AD.MarkerInfos(d, corners, Some(ids))[0];
      var p := AN.Params(c.maxSteering, c.kp, c.targetDistanceCm, c.toleranceCm, c.baseThrottle);
      ArucoLoopCommand(c, d, Some(w), corners, Some(ids)).value.0 == AN.Throttle(p, m.distanceCm)
  {
  }

  /** One pass of `color_navigation_loop`: the largest contour is a target
      only when its area is strictly above the minimum and `m00 > 0`; a
      target is always approached at base throttle. None stands for the
      exception raised when the frame width is unknown. */
  function ColorLoopCommand(c: NavConfig, frameWidth: Option<int>, contours: seq<TD.Contour>): (r: Option<(real, real)>)
    ensures contours == [] ==> r == Some((0.0, 0.0))
    ensures contours != [] ==>
      var k := contours[TD.LargestIndex(contours)];
      (!(k.area > c.minContourArea && k.m00 > 0.0) ==> r == Some((0.0, 0.0))) &&
      (k.area > c.minContourArea && k.m00 > 0.0 ==>
        (frameWidth.None? ==> r.None?) &&
        (frameWidth.Some? ==> r == Some((c.baseThrottle, Steering(c, frameWidth.value, Trunc(k.m10 / k.m00) as real)))))
  {
    if contours == [] then Some((0.0, 0.0))
    else
      var k := contours[TD.LargestIndex(contours)];
      if k.area > c.minContourArea && k.m00 > 0.0 then
        if frameWidth.None? then None
        else Some((c.baseThrottle, Steering(c, frameWidth.value, Trunc(k.m10 / k.m00) as real)))
      else Some((0.0, 0.0))
  }

  /** The colour loop never backs up, and its area test is strict: a contour
      of exactly the minimum area is a target for the unified navigator's
      detector but not for this loop. */
  lemma ColorLoopDiffersFromDetector(c: NavConfig, w: int, k: TD.Contour, rows: nat, cols: nat)
    requires k.area == c.minContourArea && k.m00 > 0.0 && rows >= 250 && cols >= 330
    ensures ColorLoopCommand(c, Some(w), [k]) == Some((0.0, 0.0))
    ensures var d := TD.ColorDetect(TD.ColorTarget(c.minContourArea, 0.05), [k], rows, cols);
      d.Some? && d.value.detected
  {
  }

  /** Whatever the contours, the colour loop's throttle is 0 or base. */
  lemma ColorLoopNeverReverses(c: NavConfig, w: int, contours: seq<TD.Contour>)
    ensures var r := ColorLoopCommand(c, Some(w), contours);
      r.Some? && (r.value.0 == 0.0 || r.value.0 == c.baseThrottle)
  {
  }

  // ---------------------------------------------------------------------
  // Three-channel BLE sender

  /** What one sender cycle finds: a connected client, the simulation mode
      (no client object), or a client that is not connected; with the
      stored throttle, steering and omega commands. */
  datatype Cycle = Connected(cmd: (real, real, real)) | Simulated(cmd: (real, real, real)) | Waiting

  function Encode3(c: (real, real, real)): (int, int, int)
  {
    (BLE.ToByte(c.0), BLE.ToByte(c.1), BLE.ToByte(c.2))
  }

  /** The triples `_ble_sender_task` writes: a connected or simulated cycle
      whose bytes differ from the last recorded triple records them, and a
      connected one also writes all three characteristics. */
  function SenderWrites(cycles: seq<Cycle>, last: Option<(int, int, int)>): (r: seq<(int, int, int)>)
    ensures |r| <= |cycles|
    decreases |cycles|
  {
    if cycles == [] then []
    else match cycles[0]
      case Waiting => SenderWrites(cycles[1..], last)
      case Simulated(c) => SenderWrites(cycles[1..], Some(Encode3(c)))
      case Connected(c) =>
        if last == Some(Encode3(c)) then SenderWrites(cycles[1..], last)
        else [Encode3(c)] + SenderWrites(cycles[1..], Some(Encode3(c)))
  }

  /** `_ble_sender_task` as a loop over its cycles. */
  method BleSender(cycles: seq<Cycle>) returns (writes: seq<(int, int, int)>)
    ensures writes == SenderWrites(cycles, None)
  {
    var last: Option<(int, int, int)> := None;
    writes := [];
    var i := 0;
    while i < |cycles|
      invariant i <= |cycles|
      invariant writes + SenderWrites(cycles[i..], last) == SenderWrites(cycles, None)
    {
      assert cycles[i..][1..] == cycles[i + 1..];
      match cycles[i] {
        case Waiting =>
        case Simulated(c) =>
          last := Some(Encode3(c));
        case Connected(c) =>
          var bytes := Encode3(c);
          if last != Some(bytes) {
            writes := writes + [bytes];
            last := Some(bytes);
          }
      }
      i := i + 1;
    }
    assert cycles[i..] == [];
  }

  /** Every byte written is in [0, 255], whatever the stored commands. */
  lemma {:induction false} SenderWritesAreBytes(cycles: seq<Cycle>, last: Option<(int, int, int)>)
    ensures forall w <- SenderWrites(cycles, last) :: 0 <= w.0 <= 255 && 0 <= w.1 <= 255 && 0 <= w.2 <= 255
    decreases |cycles|
  {
    if cycles != [] {
      SenderWritesAreBytes(cycles[1..], last);
      if !cycles[0].Waiting? {
        SenderWritesAreBytes(cycles[1..], Some(Encode3(cycles[0].cmd)));
      }
    }
  }

  /** While a client stays connected, no two successive writes repeat a
      triple. */
  lemma {:induction false} SenderWritesNoRepeat(cycles: seq<Cycle>, last: Option<(int, int, int)>)
    requires forall i :: 0 <= i < |cycles| ==> !cycles[i].Simulated?
    ensures var w := SenderWrites(cycles, last);
      (w != [] ==> last != Some(w[0])) && forall i :: 0 < i < |w| ==> w[i] != w[i - 1]
    decreases |cycles|
  {
    if cycles != [] {
      SenderWritesNoRepeat(cycles[1..], last);
      if cycles[0].Connected? {
        SenderWritesNoRepeat(cycles[1..], Some(Encode3(cycles[0].cmd)));
      }
    }
  }

  // ---------------------------------------------------------------------
  // Waypoint canvas

  const MaxX := 180.0
  const MaxY := 120.0

  /** `on_waypoint_click`: canvas pixels to centimetres, the y axis flipped. */
  function ClickToCm(w: int, h: int, px: int, py: int, maxX: real, maxY: real): (r: (real, real))
    requires w > 0 && h > 0
    ensures r.0 * w as real == px as real * maxX && r.1 * h as real == (h - py) as real * maxY
  {
    ((px as real / w as real) * maxX, ((h - py) as real / h as real) * maxY)
  }

  /** The bottom-left corner is the origin and the top-right corner the far
      corner; clicks inside the canvas land inside the field. */
  lemma ClickCorners(w: int, h: int, px: int, py: int, maxX: real, maxY: real)
    requires w > 0 && h > 0 && maxX >= 0.0 && maxY >= 0.0
    ensures ClickToCm(w, h, 0, h, maxX, maxY) == (0.0, 0.0)
    ensures ClickToCm(w, h, w, 0, maxX, maxY) == (maxX, maxY)
    ensures 0 <= px <= w && 0 <= py <= h ==>
      var r := ClickToCm(w, h, px, py, maxX, maxY);
      0.0 <= r.0 <= maxX && 0.0 <= r.1 <= maxY
  {
    assert w as real / w as real == 1.0;
    assert h as real / h as real == 1.0;
    if 0 <= px <= w && 0 <= py <= h {
      var r := ClickToCm(w, h, px, py, maxX, maxY);
      var a, b := px as real / w as real, (h - py) as real / h as real;
      assert 0.0 <= a <= 1.0 && 0.0 <= b <= 1.0;
      assert r.0 == a * maxX && r.1 == b * maxY;
      assert a * maxX <= 1.0 * maxX;
      assert b * maxY <= 1.0 * maxY;
    }
  }

  /** `send_waypoint`: nothing without a connected client; otherwise the
      six bytes of the BLE client's waypoint layout with omega 0. */
  function SendWaypoint(connected: bool, x: real, y: real): (r: Option<seq<Byte>>)
    ensures r.Some? <==> connected
    ensures r.Some? ==> |r.value| == 6 && r.value[4..] == [0, 0]
  {
    if connected then Some(BLE.PackWaypoint(x, y, 0.0)) else None
  }

  /** A click inside the default 180 x 120 cm field reaches the car intact,
      in tenths of a centimetre truncated toward zero. */
  lemma ClickArrives(w: int, h: int, px: int, py: int)
    requires w > 0 && h > 0 && 0 <= px <= w && 0 <= py <= h
    ensures var p := ClickToCm(w, h, px, py, MaxX, MaxY);
      BLE.UnpackWaypoint(SendWaypoint(true, p.0, p.1).value) == (Trunc(p.0 * 10.0), Trunc(p.1 * 10.0), 0)
  {
    var p := ClickToCm(w, h, px, py, MaxX, MaxY);
    ClickCorners(w, h, px, py, MaxX, MaxY);
    assert 0.0 <= p.0 * 10.0 <= 1800.0;
    assert 0.0 <= p.1 * 10.0 <= 1200.0;
    BLE.WaypointRoundTrip(p.0, p.1, 0.0);
  }
}

=== FILE: frame_processor.dfy ===
/** The frame-processing pipeline of the camera client: an ordered list of
    steps that can be extended, cleared, switched off, and run on a frame,
    and the preset processors built from a processing mode. The image
    filters themselves are OpenCV calls; they are given as a parameter
    `apply` that either returns the filtered frame or fails (the step
    raised). */
module FrameProcessing {
  import opened Common

  /** `ProcessingMode`. */
  datatype Mode = Original | Grayscale | EdgeDetection | Blur | Sharpen | Brightness | Contrast | Threshold

  /** A pipeline step: one of the predefined filters with its parameters,
      or a caller-supplied function known by its name. */
  datatype Step =
    | ToGrayscale
    | EdgeDetect(threshold1: int, threshold2: int)
    | GaussianBlur(ksize: int)
    | SharpenFilter
    | AdjustBrightness(value: int)
    | AdjustContrast(alpha: real)
    | BinaryThreshold(threshValue: int)
    | Custom(name: string)

  /** The effect of one step on the frame so far: a step that fails leaves
      the frame as it was. */
  function Next(apply: (Step, Image) -> Option<Image>, s: Step, frame: Image): (r: Image)
    ensures apply(s, frame).None? ==> r == frame
    ensures apply(s, frame).Some? ==> r == apply(s, frame).value
  {
    match apply(s, frame)
    case None => frame
    case Some(f) => f
  }

  /** The steps in insertion order, each on the output of the one before. */
  function RunSteps(apply: (Step, Image) -> Option<Image>, steps: seq<Step>, frame: Image): Image
    decreases |steps|
  {
    if steps == [] then frame else RunSteps(apply, steps[1..], Next(apply, steps[0], frame))
  }

  /** Running two pipelines one after the other is running their
      concatenation: the order of insertion is the order of application. */
  lemma {:induction false} RunStepsAppend(apply: (Step, Image) -> Option<Image>, a: seq<Step>, b: seq<Step>, frame: Image)
    ensures RunSteps(apply, a + b, frame) == RunSteps(apply, b, RunSteps(apply, a, frame))
    decreases |a|
  {
    if a != [] {
      assert (a + b)[1..] == a[1..] + b;
      RunStepsAppend(apply, a[1..], b, Next(apply, a[0], frame));
    } else {
      assert a + b == b;
    }
  }

  /** A pipeline whose every step fails returns the frame untouched. */
  lemma {:induction false} AllFailingIsIdentity(apply: (Step, Image) -> Option<Image>, steps: seq<Step>, frame: Image)
    requires forall i :: 0 <= i < |steps| ==> apply(steps[i], frame).None?
    ensures RunSteps(apply, steps, frame) == frame
    decreases |steps|
  {
    if steps != [] {
      AllFailingIsIdentity(apply, steps[1..], frame);
    }
  }

  /** A failing step is skipped: the remaining steps see the frame the
      failing one was given. */
  lemma FailingStepSkipped(apply: (Step, Image) -> Option<Image>, before: seq<Step>, s: Step, after: seq<Step>, frame: Image)
    requires apply(s, RunSteps(apply, before, frame)).None?
    ensures RunSteps(apply, before + [s] + after, frame) == RunSteps(apply, before + after, frame)
  {
    var mid := RunSteps(apply, before, frame);
    RunStepsAppend(apply, before, [s] + after, frame);
    RunStepsAppend(apply, before, after, frame);
    assert ([s] + after)[1..] == after;
    assert before + [s] + after == before + ([s] + after);
  }

  /** `process`: disabled processing or no frame passes the input through;
      otherwise the pipeline runs on a copy. */
  function ProcessSpec(apply: (Step, Image) -> Option<Image>, enabled: bool, steps: seq<Step>, frame: Option<Image>): (r: Option<Image>)
    ensures !enabled || frame.None? ==> r == frame
    ensures r.None? <==> frame.None?
  {
    if !enabled || frame.None? then frame else Some(RunSteps(apply, steps, frame.value))
  }

  /** `FrameProcessor`. */
  class FrameProcessor {
    var pipeline: seq<Step>
    var enabled: bool

    /** A new processor is enabled with an empty pipeline. */
    constructor ()
      ensures pipeline == [] && enabled
    {
      pipeline := [];
      enabled := true;
    }

    /** `add_processing_step`: appends at the end. */
    method AddStep(s: Step)
      modifies this
      ensures pipeline == old(pipeline) + [s] && enabled == old(enabled)
    {
      pipeline := pipeline + [s];
    }

    /** `clear_pipeline`. */
    method ClearPipeline()
      modifies this
      ensures pipeline == [] && enabled == old(enabled)
    {
      pipeline := [];
    }

    method Enable()
      modifies this
      ensures enabled && pipeline == old(pipeline)
    {
      enabled := true;
    }

    /** `disable`: passthrough mode. */
    method Disable()
      modifies this
      ensures !enabled && pipeline == old(pipeline)
    {
      enabled := false;
    }

    /** `process`: each step in turn; a step that fails is skipped and the
        frame so far carries on. */
    method Process(apply: (Step, Image) -> Option<Image>, frame: Option<Image>) returns (r: Option<Image>)
      ensures r == ProcessSpec(apply, enabled, pipeline, frame)
    {
      if !enabled || frame.None? {
        return frame;
      }
      var processed := frame.value;
      var i := 0;
      while i < |pipeline|
        invariant i <= |pipeline|
        invariant RunSteps(apply, pipeline[i..], processed) == RunSteps(apply, pipeline, frame.value)
      {
        assert pipeline[i..][1..] == pipeline[i + 1..];
        var out := apply(pipeline[i], processed);
        if out.Some? {
          processed := out.value;
        }
        i := i + 1;
      }
      assert pipeline[i..] == [];
      return Some(processed);
    }
  }

  /** The keyword arguments `create_processor` reads; a missing one takes
      its default. */
  datatype Kwargs = Kwargs(threshold1: Option<int>, threshold2: Option<int>, ksize: Option<int>,
                           value: Option<int>, alpha: Option<real>, threshValue: Option<int>)

  const NoKwargs := Kwargs(None, None, None, None, None, None)

  function IntOr(o: Option<int>, default: int): int
  {
    if o.Some? then o.value else default
  }

  /** The steps of the preset for a mode: none for the original image, one
      filter for every other mode. */
  function PresetSteps(mode: Mode, kw: Kwargs): (r: seq<Step>)
    ensures mode == Original <==> r == []
    ensures mode != Original ==> |r| == 1
  {
    match mode
    case Original => []
    case Grayscale => [ToGrayscale]
    case EdgeDetection => [EdgeDetect(IntOr(kw.threshold1, 100), IntOr(kw.threshold2, 200))]
    case Blur => [GaussianBlur(IntOr(kw.ksize, 5))]
    case Sharpen => [SharpenFilter]
    case Brightness => [AdjustBrightness(IntOr(kw.value, 30))]
    case Contrast => [AdjustContrast(if kw.alpha.Some? then kw.alpha.value else 1.5)]
    case Threshold => [BinaryThreshold(IntOr(kw.threshValue, 127))]
  }

  /** Without keyword arguments the presets use thresholds 100/200, kernel
      5, brightness 30, contrast 1.5 and threshold 127; a given argument
      replaces its default. */
  lemma PresetDefaults(t1: int)
    ensures PresetSteps(EdgeDetection, NoKwargs) == [EdgeDetect(100, 200)]
    ensures PresetSteps(Blur, NoKwargs) == [GaussianBlur(5)]
    ensures PresetSteps(Brightness, NoKwargs) == [AdjustBrightness(30)]
    ensures PresetSteps(Contrast, NoKwargs) == [AdjustContrast(1.5)]
    ensures PresetSteps(Threshold, NoKwargs) == [BinaryThreshold(127)]
    ensures PresetSteps(EdgeDetection, NoKwargs.(threshold1 := Some(t1))) == [EdgeDetect(t1, 200)]
  {
  }

  /** `create_processor`: a new processor with the preset's steps. */
  method CreateProcessor(mode: Mode, kw: Kwargs) returns (p: FrameProcessor)
    ensures fresh(p) && p.enabled && p.pipeline == PresetSteps(mode, kw)
  {
    p := new FrameProcessor();
    match mode {
      case Original =>
      case Grayscale => p.AddStep(ToGrayscale);
      case EdgeDetection =>
        var t1 := IntOr(kw.threshold1, 100);
        var t2 := IntOr(kw.threshold2, 200);
        p.AddStep(EdgeDetect(t1, t2));
      case Blur => p.AddStep(GaussianBlur(IntOr(kw.ksize, 5)));
      case Sharpen => p.AddStep(SharpenFilter);
      case Brightness => p.AddStep(AdjustBrightness(IntOr(kw.value, 30)));
      case Contrast =>
        var alpha := if kw.alpha.Some? then kw.alpha.value else 1.5;
        p.AddStep(AdjustContrast(alpha));
      case Threshold => p.AddStep(BinaryThreshold(IntOr(kw.threshValue, 127)));
    }
  }

  /** An original-mode processor returns every frame unchanged. */
  lemma OriginalIsPassthrough(apply: (Step, Image) -> Option<Image>, enabled: bool, frame: Option<Image>)
    ensures ProcessSpec(apply, enabled, PresetSteps(Original, NoKwargs), frame) == frame
  {
  }
}

=== FILE: launch.dfy ===
/** The process launcher: nodes that are started, stopped and restarted on
    failure up to a fixed budget, and the launch system that starts them
    all, watches them, and stops them in reverse order. Spawning and
    signalling processes is the operating system's business: a node only
    records whether it has a process and whether that process still runs,
    and `Exited` is the event of the process ending by itself. */
module Launch {
  import C = Common

  /** The restart budget of every node. */
  const MaxRestarts: nat := 3

  /** `ProcessNode`. */
  class ProcessNode {
    const name: string
    const restart: bool
    /** A process was started (`self.process` is not None). */
    var started: bool
    /** That process has not terminated (`poll()` is None). */
    var running: bool
    var restartCount: nat

    /** `is_alive`: a process exists and has not terminated. */
    predicate IsAlive()
      reads this
    {
      started && running
    }

    /** The restart budget is never exceeded. */
    predicate Valid()
      reads this
    {
      restartCount <= MaxRestarts
    }

    /** A new node has no process, so it is not alive. */
    constructor (name: string, restart: bool)
      ensures this.name == name && this.restart == restart
      ensures !started && !IsAlive() && restartCount == 0 && Valid()
    {
      this.name := name;
      this.restart := restart;
      started, running, restartCount := false, false, 0;
    }

    /** `start`: when `Popen` succeeds (`spawned`) the node has a new
        process, which runs; when it raises, nothing was assigned and the
        node is as it was. */
    method Start(spawned: bool)
      modifies this
      ensures spawned ==> IsAlive() && started && running
      ensures !spawned ==> started == old(started) && running == old(running)
      ensures restartCount == old(restartCount)
    {
      if spawned {
        started, running := true, true;
      }
    }

    /** `stop`: a running process is terminated (or killed); otherwise
        nothing happens. Returns whether it acted. */
    method Stop() returns (acted: bool)
      modifies this
      ensures acted <==> old(IsAlive())
      ensures !IsAlive() && started == old(started) && restartCount == old(restartCount)
      ensures !acted ==> running == old(running)
    {
      acted := started && running;
      if acted {
        running := false;
      }
    }

    /** The process ended on its own. */
    method Exited()
      modifies this
      ensures !IsAlive() && started == old(started) && restartCount == old(restartCount)
    {
      running := false;
    }

    /** `check_and_restart`: a dead node with restart enabled and budget
        left has its count raised by one and is started again. `spawned`
        is whether that start's `Popen` succeeds; when it does not, the
        exception escapes (`raised`) after the count went up, and the node
        stays dead. */
    method CheckAndRestart(spawned: bool) returns (restarted: bool, raised: bool)
      requires Valid()
      modifies this
      ensures Valid()
      ensures restarted <==> !old(IsAlive()) && restart && old(restartCount) < MaxRestarts && spawned
      ensures raised <==> !old(IsAlive()) && restart && old(restartCount) < MaxRestarts && !spawned
      ensures restarted || raised ==> restartCount == old(restartCount) + 1
      ensures restarted ==> IsAlive()
      ensures !restarted ==> started == old(started) && running == old(running)
      ensures !restarted && !raised ==> restartCount == old(restartCount)
    {
      restarted, raised := false, false;
      if !IsAlive() && restart && restartCount < MaxRestarts {
        restartCount := restartCount + 1;
        Start(spawned);
        restarted, raised := spawned, !spawned;
      }
    }
  }

  /** The indices of the alive nodes, last first: the order in which
      `stop_all` terminates them. */
  function StopOrder(alive: seq<bool>): (r: seq<nat>)
    ensures forall k :: 0 <= k < |r| ==> r[k] < |alive|
    decreases |alive|
  {
    if alive == [] then []
    else (if alive[|alive| - 1] then [|alive| - 1] else []) + StopOrder(alive[..|alive| - 1])
  }

  /** The stop order lists exactly the alive nodes, each once, in
      decreasing position. */
  lemma {:induction false} StopOrderIsReverse(alive: seq<bool>)
    ensures var r := StopOrder(alive);
      (forall i :: 0 <= i < |alive| ==> (alive[i] <==> i in r)) &&
      (forall k, l :: 0 <= k < l < |r| ==> r[k] > r[l])
    decreases |alive|
  {
    if alive != [] {
      var n := |alive| - 1;
      StopOrderIsReverse(alive[..n]);
      var rest := StopOrder(alive[..n]);
      assert StopOrder(alive) == (if alive[n] then [n] else []) + rest;
      forall i | 0 <= i < |alive|
        ensures alive[i] <==> i in StopOrder(alive)
      {
        if i < n {
          assert alive[..n][i] == alive[i];
        }
      }
    }
  }

  /** Peeling the last position off a prefix of the flags. */
  lemma StopOrderStep(alive: seq<bool>, i: nat)
    requires 0 < i <= |alive|
    ensures StopOrder(alive[..i]) == (if alive[i - 1] then [i - 1] else []) + StopOrder(alive[..i - 1])
  {
    assert alive[..i][..i - 1] == alive[..i - 1];
  }

  /** One step of the stop loop: the node at `i - 1`, when alive, is
      the next one stopped. */
  lemma StopOrderLoopStep(stopped: seq<nat>, alive: seq<bool>, i: nat)
    requires 0 < i <= |alive|
    requires stopped + StopOrder(alive[..i]) == StopOrder(alive)
    ensures (stopped + (if alive[i - 1] then [i - 1] else [])) + StopOrder(alive[..i - 1]) == StopOrder(alive)
  {
    StopOrderStep(alive, i);
    C.ConcatAssoc(stopped, if alive[i - 1] then [i - 1] else [], StopOrder(alive[..i - 1]));
  }

  /** With no node alive, nothing is stopped. */
  lemma {:induction false} NoneAliveStopsNothing(alive: seq<bool>)
    requires forall i :: 0 <= i < |alive| ==> !alive[i]
    ensures StopOrder(alive) == []
    decreases |alive|
  {
    if alive != [] {
      NoneAliveStopsNothing(alive[..|alive| - 1]);
    }
  }

  /** Whether each node is alive. */
  function AliveFlags(nodes: seq<ProcessNode>): (r: seq<bool>)
    reads set i | 0 <= i < |nodes| :: nodes[i]
    ensures |r| == |nodes| && forall i :: 0 <= i < |nodes| ==> r[i] == nodes[i].IsAlive()
  {
    seq(|nodes|, i reads nodes => 0 <= i < |nodes| && nodes[i].IsAlive())
  }

  /** The number of alive nodes. */
  function CountAlive(alive: seq<bool>): (r: nat)
    ensures r == 0 <==> forall i :: 0 <= i < |alive| ==> !alive[i]
    decreases |alive|
  {
    if alive == [] then 0 else (if alive[0] then 1 else 0) + CountAlive(alive[1..])
  }

  /** The first position from `i` on, below `n`, that is in `failing`, or
      `n` when there is none. */
  function FirstFailureFrom(failing: set<nat>, i: nat, n: nat): (r: nat)
    requires i <= n
    ensures i <= r <= n && (r < n ==> r in failing)
    ensures forall j :: i <= j < r ==> j !in failing
    decreases n - i
  {
    if i == n then n else if i in failing then i else FirstFailureFrom(failing, i + 1, n)
  }

  /** The position of the first node among `n` whose start fails, or `n`. */
  function FirstFailure(failing: set<nat>, n: nat): (r: nat)
    ensures r <= n && (r < n ==> r in failing)
    ensures forall j :: 0 <= j < r ==> j !in failing
  {
    FirstFailureFrom(failing, 0, n)
  }

  /** What the monitor loop sees of a node: whether it is alive, whether it
      restarts, and how often it was restarted. */
  datatype NodeState = NodeState(alive: bool, restart: bool, restartCount: nat)

  function Snapshot(n: ProcessNode): NodeState
    reads n
  {
    NodeState(n.IsAlive(), n.restart, n.restartCount)
  }

  function States(nodes: seq<ProcessNode>): (r: seq<NodeState>)
    reads set i | 0 <= i < |nodes| :: nodes[i]
    ensures |r| == |nodes| && forall i :: 0 <= i < |nodes| ==> r[i] == Snapshot(nodes[i])
  {
    seq(|nodes|, i reads nodes => if 0 <= i < |nodes| then Snapshot(nodes[i]) else NodeState(false, false, 0))
  }

  /** A node whose process ends on its own is no longer alive. */
  function ExitNode(n: NodeState, exited: bool): NodeState
  {
    if exited then n.(alive := false) else n
  }

  /** `check_and_restart` on one node, its start succeeding. */
  function CheckNode(n: NodeState): NodeState
  {
    if !n.alive && n.restart && n.restartCount < MaxRestarts then NodeState(true, true, n.restartCount + 1) else n
  }

  /** The node at position `i` after the first `k` monitoring rounds,
      `exits[j]` being the positions whose processes end on their own
      during round `j`. Each round touches each node on its own. */
  function NodeAfter(n: NodeState, i: nat, exits: seq<set<nat>>, k: nat): NodeState
    requires k <= |exits|
    decreases k
  {
    if k == 0 then n else CheckNode(ExitNode(NodeAfter(n, i, exits, k - 1), i in exits[k - 1]))
  }

  /** Which nodes are alive after the first `k` rounds. */
  function AliveAfter(s: seq<NodeState>, exits: seq<set<nat>>, k: nat): (r: seq<bool>)
    requires k <= |exits|
    ensures |r| == |s|
  {
    seq(|s|, i requires 0 <= i < |s| => NodeAfter(s[i], i, exits, k).alive)
  }

  /** Monitoring never lowers a restart count nor takes it past the
      budget, and never changes whether the node restarts. */
  lemma {:induction false} RoundsKeepBudget(n: NodeState, i: nat, exits: seq<set<nat>>, k: nat)
    requires k <= |exits| && n.restartCount <= MaxRestarts
    ensures var m := NodeAfter(n, i, exits, k);
      n.restartCount <= m.restartCount <= MaxRestarts && m.restart == n.restart
    decreases k
  {
    if k > 0 {
      RoundsKeepBudget(n, i, exits, k - 1);
    }
  }

  /** A node whose process ends in every round is restarted once per round
      until its budget of three is spent, and from then on stays dead; a
      node without restart stays dead from the first round. */
  lemma {:induction false} CrashingNodeGivesUp(n: NodeState, i: nat, exits: seq<set<nat>>, k: nat)
    requires k <= |exits| && n.restartCount <= MaxRestarts
    requires forall j :: 0 <= j < k ==> i in exits[j]
    ensures var m := NodeAfter(n, i, exits, k);
      m.restartCount == (if !n.restart then n.restartCount
                         else if n.restartCount + k <= MaxRestarts then n.restartCount + k else MaxRestarts) &&
      (k > 0 ==> (m.alive <==> n.restart && n.restartCount + k <= MaxRestarts))
    decreases k
  {
    if k > 0 {
      CrashingNodeGivesUp(n, i, exits, k - 1);
    }
  }

  /** The outcome of the monitor loop from round `k` on: whether all nodes
      died, and after how many rounds the loop ended. It ends after the
      first round that leaves no node alive, or when the rounds run out. */
  function MonitorRounds(s: seq<NodeState>, exits: seq<set<nat>>, k: nat): (r: (bool, nat))
    requires k <= |exits|
    ensures k <= r.1 <= |exits|
    ensures r.0 <==> r.1 > k && CountAlive(AliveAfter(s, exits, r.1)) == 0
    ensures !r.0 ==> r.1 == |exits|
    ensures forall j :: k < j < r.1 ==> CountAlive(AliveAfter(s, exits, j)) != 0
    decreases |exits| - k
  {
    if k == |exits| then (false, k)
    else if CountAlive(AliveAfter(s, exits, k + 1)) == 0 then (true, k + 1)
    else MonitorRounds(s, exits, k + 1)
  }

  /** One round of `MonitorRounds` unfolded: it stops after round `k + 1`
      when that round leaves no node alive, and carries on otherwise. */
  lemma MonitorRoundsStep(s: seq<NodeState>, exits: seq<set<nat>>, k: nat)
    requires k < |exits|
    ensures CountAlive(AliveAfter(s, exits, k + 1)) == 0 ==> MonitorRounds(s, exits, k) == (true, k + 1)
    ensures CountAlive(AliveAfter(s, exits, k + 1)) != 0 ==> MonitorRounds(s, exits, k) == MonitorRounds(s, exits, k + 1)
  {
  }

  lemma AliveFlagsAgree(nodes: seq<ProcessNode>, s: seq<NodeState>, exits: seq<set<nat>>, k: nat)
    requires k <= |exits| && |s| == |nodes|
    requires forall i :: 0 <= i < |nodes| ==> nodes[i].IsAlive() == NodeAfter(s[i], i, exits, k).alive
    ensures AliveFlags(nodes) == AliveAfter(s, exits, k)
  {
  }

  /** `LaunchSystem`. */
  class LaunchSystem {
    var nodes: seq<ProcessNode>
    var running: bool

    /** Every node is added once and keeps within its restart budget. */
    ghost predicate Valid()
      reads this, set i | 0 <= i < |nodes| :: nodes[i]
    {
      Distinct() && forall i :: 0 <= i < |nodes| ==> nodes[i].Valid()
    }

    /** No node is added twice. */
    ghost predicate Distinct()
      reads this
    {
      forall i, j :: 0 <= i < j < |nodes| ==> nodes[i] != nodes[j]
    }

    constructor ()
      ensures nodes == [] && !running && Valid()
    {
      nodes, running := [], false;
    }

    /** `add_node`: appended after the others. */
    method AddNode(node: ProcessNode)
      requires Valid() && node.Valid() && node !in nodes
      modifies this
      ensures nodes == old(nodes) + [node] && running == old(running) && Valid()
    {
      nodes := nodes + [node];
    }

    /** `start_all`: every node is started, in order, `failing` holding the
        positions whose `Popen` raises. The first failure ends the loop: its
        exception escapes with the earlier nodes running and the later ones
        untouched, and no `stop_all` follows. `count` is the number of
        nodes started. */
    method StartAll(failing: set<nat>) returns (count: nat)
      requires Valid()
      modifies this, set i | 0 <= i < |nodes| :: nodes[i]
      ensures running && nodes == old(nodes) && Valid()
      ensures count == FirstFailure(failing, |nodes|)
      ensures forall i :: 0 <= i < count ==> nodes[i].IsAlive()
      ensures forall i :: count <= i < |nodes| ==> nodes[i].started == old(nodes[i].started) && nodes[i].running == old(nodes[i].running)
      ensures forall i :: 0 <= i < |nodes| ==> nodes[i].restartCount == old(nodes[i].restartCount)
    {
      running := true;
      count := 0;
      while count < |nodes|
        invariant count <= |nodes| && nodes == old(nodes) && running && Valid()
        invariant FirstFailure(failing, |nodes|) == FirstFailureFrom(failing, count, |nodes|)
        invariant forall j :: 0 <= j < count ==> nodes[j].IsAlive()
        invariant forall j :: count <= j < |nodes| ==> nodes[j].started == old(nodes[j].started) && nodes[j].running == old(nodes[j].running)
        invariant forall j :: 0 <= j < |nodes| ==> nodes[j].restartCount == old(nodes[j].restartCount)
        decreases |nodes| - count
      {
        StartAt(count, count !in failing);
        if count in failing {
          return;
        }
        count := count + 1;
      }
    }

    /** Starts the node at position `k` (`spawned` is whether its `Popen`
        succeeds); every other node is untouched because the nodes are
        distinct. */
    method StartAt(k: nat, spawned: bool)
      requires Valid() && k < |nodes|
      modifies nodes[k]
      ensures Valid()
      ensures spawned ==> nodes[k].IsAlive()
      ensures !spawned ==> nodes[k].started == old(nodes[k].started) && nodes[k].running == old(nodes[k].running)
      ensures forall j :: 0 <= j < |nodes| && j != k ==> nodes[j].started == old(nodes[j].started) && nodes[j].running == old(nodes[j].running)
      ensures forall j :: 0 <= j < |nodes| ==> nodes[j].restartCount == old(nodes[j].restartCount)
    {
      nodes[k].Start(spawned);
    }

    /** Stops the node at position `k`; every other node is untouched
        because the nodes are distinct. */
    method StopAt(k: nat) returns (acted: bool)
      requires Distinct() && k < |nodes|
      modifies nodes[k]
      ensures acted == old(nodes[k].IsAlive()) && !nodes[k].IsAlive()
      ensures forall j :: 0 <= j < |nodes| && j != k ==> nodes[j].IsAlive() == old(nodes[j].IsAlive())
      ensures forall j :: 0 <= j < |nodes| ==> nodes[j].restartCount == old(nodes[j].restartCount)
    {
      acted := nodes[k].Stop();
    }

    /** `stop_all`: not running, and each alive node is stopped, last added
        first. Returns the positions of the nodes it stopped. */
    method StopAll() returns (stopped: seq<nat>)
      requires Valid()
      modifies this, set i | 0 <= i < |nodes| :: nodes[i]
      ensures !running && nodes == old(nodes) && Valid()
      ensures stopped == StopOrder(old(AliveFlags(nodes)))
      ensures forall i :: 0 <= i < |nodes| ==> !nodes[i].IsAlive() && nodes[i].restartCount == old(nodes[i].restartCount)
    {
      running := false;
      stopped := StopNodes();
    }

    /** The loop of `stop_all`: from the last node to the first, each alive
        node is stopped. */
    method StopNodes() returns (stopped: seq<nat>)
      requires Distinct()
      modifies set i | 0 <= i < |nodes| :: nodes[i]
      ensures stopped == StopOrder(old(AliveFlags(nodes)))
      ensures forall i :: 0 <= i < |nodes| ==> !nodes[i].IsAlive() && nodes[i].restartCount == old(nodes[i].restartCount)
    {
      ghost var alive := AliveFlags(nodes);
      stopped := [];
      var i := |nodes|;
      assert alive[..i] == alive;
      while i > 0
        invariant 0 <= i <= |nodes|
        invariant stopped + StopOrder(alive[..i]) == StopOrder(alive)
        invariant forall j :: 0 <= j < i ==> nodes[j].IsAlive() == alive[j]
        invariant forall j :: i <= j < |nodes| ==> !nodes[j].IsAlive()
        invariant forall j :: 0 <= j < |nodes| ==> nodes[j].restartCount == old(nodes[j].restartCount)
      {
        StopOrderLoopStep(stopped, alive, i);
        ghost var prev := stopped;
        var acted := StopAt(i - 1);
        if acted {
          stopped := stopped + [i - 1];
        }
        assert stopped == prev + (if alive[i - 1] then [i - 1] else []);
        i := i - 1;
      }
      assert alive[..0] == [];
    }

    /** The process of the node at position `k` ends on its own; every
        other node is untouched because the nodes are distinct. */
    method ExitAt(k: nat)
      requires Distinct() && k < |nodes|
      modifies nodes[k]
      ensures Snapshot(nodes[k]) == ExitNode(old(Snapshot(nodes[k])), true)
      ensures forall j :: 0 <= j < |nodes| && j != k ==> Snapshot(nodes[j]) == old(Snapshot(nodes[j]))
    {
      nodes[k].Exited();
    }

    /** The processes at the positions in `exits` end on their own. */
    method ApplyExits(exits: set<nat>)
      requires Valid()
      modifies set i | 0 <= i < |nodes| :: nodes[i]
      ensures Valid()
      ensures forall i :: 0 <= i < |nodes| ==> Snapshot(nodes[i]) == ExitNode(old(Snapshot(nodes[i])), i in exits)
    {
      for j := 0 to |nodes|
        invariant Valid()
        invariant forall k :: 0 <= k < j ==> Snapshot(nodes[k]) == ExitNode(old(Snapshot(nodes[k])), k in exits)
        invariant forall k :: j <= k < |nodes| ==> Snapshot(nodes[k]) == old(Snapshot(nodes[k]))
      {
        if j in exits {
          ExitAt(j);
        }
      }
    }

    /** `check_and_restart` on the node at position `k`, its start
        succeeding; every other node is untouched. */
    method CheckAt(k: nat)
      requires Valid() && k < |nodes|
      modifies nodes[k]
      ensures Valid()
      ensures Snapshot(nodes[k]) == CheckNode(old(Snapshot(nodes[k])))
      ensures forall j :: 0 <= j < |nodes| && j != k ==> Snapshot(nodes[j]) == old(Snapshot(nodes[j]))
    {
      var _, _ := nodes[k].CheckAndRestart(true);
    }

    /** The check of one monitoring round: a dead node without restart is
        only reported; every other node gets `check_and_restart`, whose
        start succeeds. So each dead node with restart enabled and budget
        left is started again, and no other node changes. */
    method CheckNodes()
      requires Valid()
      modifies set i | 0 <= i < |nodes| :: nodes[i]
      ensures Valid()
      ensures forall i :: 0 <= i < |nodes| ==> Snapshot(nodes[i]) == CheckNode(old(Snapshot(nodes[i])))
    {
      for j := 0 to |nodes|
        invariant Valid()
        invariant forall k :: 0 <= k < j ==> Snapshot(nodes[k]) == CheckNode(old(Snapshot(nodes[k])))
        invariant forall k :: j <= k < |nodes| ==> Snapshot(nodes[k]) == old(Snapshot(nodes[k]))
      {
        if !(!nodes[j].IsAlive() && !nodes[j].restart) {
          CheckAt(j);
        }
      }
    }

    /** Round `r` of the monitor loop: the processes in `exits[r]` end on
        their own, then the nodes are checked. */
    method Round(ghost s0: seq<NodeState>, exits: seq<set<nat>>, r: nat)
      requires Valid() && r < |exits| && |s0| == |nodes|
      requires forall i :: 0 <= i < |nodes| ==> Snapshot(nodes[i]) == NodeAfter(s0[i], i, exits, r)
      modifies set i | 0 <= i < |nodes| :: nodes[i]
      ensures Valid()
      ensures forall i :: 0 <= i < |nodes| ==> Snapshot(nodes[i]) == NodeAfter(s0[i], i, exits, r + 1)
      ensures AliveFlags(nodes) == AliveAfter(s0, exits, r + 1)
    {
      ApplyExits(exits[r]);
      CheckNodes();
      AliveFlagsAgree(nodes, s0, exits, r + 1);
    }

    /** The rounds of `monitor_loop` while it runs: each round, the
        processes listed in `exits` (by position) end on their own and the
        nodes are checked; the loop ends after the first round that leaves
        no node alive (`allDied`), or when the rounds run out. `rounds` is
        the number of rounds completed. */
    method RunRounds(exits: seq<set<nat>>) returns (allDied: bool, rounds: nat)
      requires Valid()
      modifies set i | 0 <= i < |nodes| :: nodes[i]
      ensures Valid()
      ensures (allDied, rounds) == MonitorRounds(old(States(nodes)), exits, 0)
      ensures forall i :: 0 <= i < |nodes| ==> Snapshot(nodes[i]) == NodeAfter(old(Snapshot(nodes[i])), i, exits, rounds)
    {
      ghost var s0 := States(nodes);
      allDied, rounds := false, 0;
      while rounds < |exits|
        invariant Valid()
        invariant rounds <= |exits|
        invariant forall i :: 0 <= i < |nodes| ==> Snapshot(nodes[i]) == NodeAfter(s0[i], i, exits, rounds)
        invariant MonitorRounds(s0, exits, rounds) == MonitorRounds(s0, exits, 0)
        decreases |exits| - rounds
      {
        Round(s0, exits, rounds);
        MonitorRoundsStep(s0, exits, rounds);
        rounds := rounds + 1;
        if CountAlive(AliveFlags(nodes)) == 0 {
          allDied := true;
          return;
        }
      }
    }

    /** `stop_all` once `rounds` monitoring rounds have run on nodes that
        started in the states `s0`. */
    method StopAfter(ghost s0: seq<NodeState>, exits: seq<set<nat>>, rounds: nat) returns (stopped: seq<nat>)
      requires Valid() && rounds <= |exits| && |s0| == |nodes|
      requires forall i :: 0 <= i < |nodes| ==> Snapshot(nodes[i]) == NodeAfter(s0[i], i, exits, rounds)
      modifies this, set i | 0 <= i < |nodes| :: nodes[i]
      ensures !running && nodes == old(nodes) && Valid()
      ensures stopped == StopOrder(AliveAfter(s0, exits, rounds))
      ensures forall i :: 0 <= i < |nodes| ==>
        !nodes[i].IsAlive() && nodes[i].restartCount == NodeAfter(s0[i], i, exits, rounds).restartCount
    {
      AliveFlagsAgree(nodes, s0, exits, rounds);
      stopped := StopAll();
    }

    /** `monitor_loop`: the rounds run while the system is running, then
        `stop_all` runs in every case, stopping what the last round left
        alive. Running out of rounds stands for the interrupt. */
    method MonitorLoop(exits: seq<set<nat>>) returns (allDied: bool, rounds: nat, stopped: seq<nat>)
      requires Valid()
      modifies this, set i | 0 <= i < |nodes| :: nodes[i]
      ensures !running && nodes == old(nodes) && Valid()
      ensures rounds <= |exits| && (!old(running) ==> rounds == 0)
      ensures old(running) && !allDied ==> rounds == |exits|
      ensures allDied <==> rounds > 0 && CountAlive(AliveAfter(old(States(nodes)), exits, rounds)) == 0
      ensures forall k :: 0 < k < rounds ==> CountAlive(AliveAfter(old(States(nodes)), exits, k)) != 0
      ensures stopped == StopOrder(AliveAfter(old(States(nodes)), exits, rounds))
      ensures allDied ==> stopped == []
      ensures forall i :: 0 <= i < |nodes| ==>
        !nodes[i].IsAlive() && nodes[i].restartCount == NodeAfter(old(Snapshot(nodes[i])), i, exits, rounds).restartCount
    {
      ghost var s0 := States(nodes);
      allDied, rounds := false, 0;
      if running {
        allDied, rounds := RunRounds(exits);
      }
      stopped := StopAfter(s0, exits, rounds);
      if allDied {
        NoneAliveStopsNothing(AliveAfter(s0, exits, rounds));
      }
    }
  }
}

=== FILE: marker_sheet.dfy ===
/** The marker generator's arithmetic: which dictionary a menu choice
    selects, how many printable sheets of six markers are needed, which
    marker goes in which slot of which sheet, and where each square is
    placed on the 1000 by 1400 pixel sheet. Drawing the markers and writing
    the image files are left to OpenCV. */
module MarkerSheet {
  import opened Common
  import AD = ArucoDetector
  import CC = CameraClient

  // ---------------------------------------------------------------------
  // Dictionary choice

  /** The menu: the answer is stripped of surrounding whitespace, an empty
      answer means "2"; "1", "2" and "3" select the 4x4, 6x6 and 7x7
      dictionaries, and anything else the 6x6 one. */
  function DictionaryFor(answer: string): (r: string)
    ensures CC.Strip(answer) == "1" ==> r == "DICT_4X4_50"
    ensures CC.Strip(answer) == "3" ==> r == "DICT_7X7_1000"
    ensures CC.Strip(answer) != "1" && CC.Strip(answer) != "3" ==> r == "DICT_6X6_250"
  {
    var stripped := CC.Strip(answer);
    var choice := if stripped == "" then "2" else stripped;
    var dictMap := map["1" := "DICT_4X4_50", "2" := "DICT_6X6_250", "3" := "DICT_7X7_1000"];
    if choice in dictMap then dictMap[choice] else "DICT_6X6_250"
  }

  /** Every choice names a dictionary the detector accepts. */
  lemma ChoiceIsAccepted(answer: string, markerSizeCm: real, focalLengthPx: real)
    ensures AD.NewDetector(DictionaryFor(answer), markerSizeCm, focalLengthPx).Some?
  {
    assert AD.DictionaryNames[0] == "DICT_4X4_50";
    assert AD.DictionaryNames[10] == "DICT_6X6_250";
    assert AD.DictionaryNames[15] == "DICT_7X7_1000";
  }

  // ---------------------------------------------------------------------
  // Sheet layout

  const MarkersPerRow := 3
  const MarkersPerCol := 2
  const MarkersPerSheet := MarkersPerRow * MarkersPerCol
  const SheetWidth := 1000
  const SheetHeight := 1400
  const Margin := 50
  const SpacingX := (SheetWidth - 2 * Margin) / MarkersPerRow
  const SpacingY := (SheetHeight - 2 * Margin) / MarkersPerCol
  /** The side of each printed square. */
  const DisplaySize := MinInt(SpacingX, SpacingY) - 40

  /** `(n + 5) // 6` (floor division; the divisor is positive, so Dafny's
      division agrees with Python's). */
  function NumSheets(n: int): int
  {
    (n + MarkersPerSheet - 1) / MarkersPerSheet
  }

  /** The sheet count is the ceiling of n / 6: enough sheets for every
      marker and no empty sheet; no sheet for no markers. */
  lemma NumSheetsIsCeiling(n: int)
    ensures n <= 0 ==> NumSheets(n) <= 0
    ensures n > 0 ==> NumSheets(n) * MarkersPerSheet >= n && (NumSheets(n) - 1) * MarkersPerSheet < n
  {
  }

  /** The marker of the slot in row `row`, column `col` of sheet `sheet`. */
  function SlotIndex(sheet: int, row: int, col: int): int
  {
    sheet * MarkersPerSheet + row * MarkersPerRow + col
  }

  /** Left edge of the squares in column `col`: inside the margins. */
  function SlotX(col: int): (r: int)
    ensures 0 <= col < MarkersPerRow ==> Margin <= r && r + DisplaySize <= SheetWidth - Margin
  {
    Margin + col * SpacingX + (SpacingX - DisplaySize) / 2
  }

  /** Top edge of the squares in row `row`. */
  function SlotY(row: int): (r: int)
    ensures 0 <= row < MarkersPerCol ==> Margin <= r && r + DisplaySize <= SheetHeight - Margin
  {
    Margin + row * SpacingY + (SpacingY - DisplaySize) / 2
  }

  /** A placed marker: its sheet, slot, index and square's corner. */
  datatype Placement = Placement(sheet: int, row: int, col: int, index: int, x: int, y: int)

  /** Where marker `i` goes. */
  function PlacementOf(i: nat): (r: Placement)
    ensures 0 <= r.row < MarkersPerCol && 0 <= r.col < MarkersPerRow && r.sheet >= 0
    ensures SlotIndex(r.sheet, r.row, r.col) == i
  {
    var sheet := i / MarkersPerSheet;
    var row := (i % MarkersPerSheet) / MarkersPerRow;
    var col := i % MarkersPerRow;
    SlotDecomposition(i);
    Placement(sheet, row, col, i, SlotX(col), SlotY(row))
  }

  /** An index splits into its sheet, its row within the sheet and its
      column. */
  lemma SlotDecomposition(i: nat)
    ensures 0 <= (i % MarkersPerSheet) / MarkersPerRow < MarkersPerCol
    ensures i == SlotIndex(i / MarkersPerSheet, (i % MarkersPerSheet) / MarkersPerRow, i % MarkersPerRow)
  {
    var q, r := i / MarkersPerSheet, i % MarkersPerSheet;
    var row, col := r / MarkersPerRow, r % MarkersPerRow;
    assert r == MarkersPerRow * row + col;
    DivModUnique(i, MarkersPerRow, q * MarkersPerCol + row, col);
  }

  /** The slots and the indices correspond one to one: each slot's index
      leads back to that slot. */
  lemma SlotIndexBijection(sheet: nat, row: nat, col: nat)
    requires row < MarkersPerCol && col < MarkersPerRow
    ensures var p := PlacementOf(SlotIndex(sheet, row, col));
      p.sheet == sheet && p.row == row && p.col == col
  {
    var i := SlotIndex(sheet, row, col);
    var inner := row * MarkersPerRow + col;
    DivModUnique(i, MarkersPerSheet, sheet, inner);
    DivModUnique(inner, MarkersPerRow, row, col);
    DivModUnique(i, MarkersPerRow, sheet * MarkersPerCol + row, col);
  }

  /** Every square lies inside the sheet, its label line (30 pixels below
      the square) too, and squares of neighbouring slots do not overlap. */
  lemma SquaresInsideSheet(row: nat, col: nat)
    requires row < MarkersPerCol && col < MarkersPerRow
    ensures DisplaySize == 260
    ensures 0 <= SlotX(col) && SlotX(col) + DisplaySize <= SheetWidth
    ensures 0 <= SlotY(row) && SlotY(row) + DisplaySize + 30 <= SheetHeight
    ensures col + 1 < MarkersPerRow ==> SlotX(col) + DisplaySize <= SlotX(col + 1)
    ensures row + 1 < MarkersPerCol ==> SlotY(row) + DisplaySize <= SlotY(row + 1)
  {
  }

  /** The column loop of one row: each slot's marker is appended unless its
      index reaches the count, which ends the row. */
  method LayOutRow(n: int, sheet: nat, row: nat, placed: seq<Placement>) returns (placements: seq<Placement>)
    requires row < MarkersPerCol
    requires |placed| == MinInt(n, SlotIndex(sheet, row, 0))
    requires forall k :: 0 <= k < |placed| ==> placed[k] == PlacementOf(k)
    ensures |placements| == MinInt(n, SlotIndex(sheet, row, MarkersPerRow))
    ensures forall k :: 0 <= k < |placements| ==> placements[k] == PlacementOf(k)
  {
    placements := placed;
    for col := 0 to MarkersPerRow
      invariant |placements| == MinInt(n, SlotIndex(sheet, row, col))
      invariant forall k :: 0 <= k < |placements| ==> placements[k] == PlacementOf(k)
    {
      var idx := SlotIndex(sheet, row, col);
      if idx >= n {
        break;
      }
      SlotIndexBijection(sheet, row, col);
      placements := placements + [Placement(sheet, row, col, idx, SlotX(col), SlotY(row))];
    }
  }

  /** The sheet loop: for each sheet, row and column, the slot's marker is
      placed unless its index reaches the count, which ends that row. */
  method LayOutSheets(n: int) returns (placements: seq<Placement>)
    ensures |placements| == MaxInt(n, 0)
    ensures forall k :: 0 <= k < |placements| ==> placements[k] == PlacementOf(k)
  {
    var numSheets := NumSheets(n);
    NumSheetsIsCeiling(n);
    placements := [];
    var sheet := 0;
    while sheet < numSheets
      invariant 0 <= sheet && (numSheets > 0 ==> sheet <= numSheets)
      invariant |placements| == MinInt(MaxInt(n, 0), sheet * MarkersPerSheet)
      invariant forall k :: 0 <= k < |placements| ==> placements[k] == PlacementOf(k)
    {
      for row := 0 to MarkersPerCol
        invariant |placements| == MinInt(n, SlotIndex(sheet, row, 0))
        invariant forall k :: 0 <= k < |placements| ==> placements[k] == PlacementOf(k)
      {
        placements := LayOutRow(n, sheet, row, placements);
      }
      sheet := sheet + 1;
    }
  }
}

=== FILE: stream_quality.dfy ===
/** The stream quality check: the stream's reported properties turned into
    a resolution, aspect ratio, codec name and, when a frame could be read,
    a quality assessment. Opening the stream and reading the properties
    are OpenCV calls; their results are the inputs. */
module StreamQuality {
  import opened Common

  // ---------------------------------------------------------------------
  // FourCC

  /** 256 to the power `i`. */
  function Pow256(i: nat): (r: int)
    ensures r > 0
  {
    if i == 0 then 1 else 256 * Pow256(i - 1)
  }

  /** `chr((fourcc >> 8 * i) & 0xFF)`: the right shift of a Python integer
      is floor division by a power of two, which Dafny's division by a
      positive divisor agrees with, and `& 0xFF` keeps the low byte. */
  function FourCCChar(fourcc: int, i: nat): (r: char)
    ensures 0 <= r as int < 256
  {
    ((fourcc / Pow256(i)) % 256) as char
  }

  /** The codec name: the four low bytes, least significant first. */
  function FourCCString(fourcc: int): (r: string)
    ensures |r| == 4 && forall i :: 0 <= i < 4 ==> r[i] == FourCCChar(fourcc, i)
  {
    [FourCCChar(fourcc, 0), FourCCChar(fourcc, 1), FourCCChar(fourcc, 2), FourCCChar(fourcc, 3)]
  }

  /** The integer code of a four-character name, as OpenCV's `fourcc`
      builds it. */
  function FourCCCode(s: string): (r: int)
    requires |s| == 4
    ensures (forall i :: 0 <= i < 4 ==> s[i] as int < 256) ==> 0 <= r < 0x1_0000_0000
  {
    s[0] as int + 256 * (s[1] as int + 256 * (s[2] as int + 256 * s[3] as int))
  }

  /** Floor division and remainder of `a + 256 * b` by 256. */
  lemma SplitLowByte(a: int, b: int)
    requires 0 <= a < 256
    ensures (a + 256 * b) / 256 == b && (a + 256 * b) % 256 == a
  {
  }

  /** Decoding recovers the four characters of a name whose characters are
      bytes. */
  lemma FourCCRoundTrip(s: string)
    requires |s| == 4 && forall i :: 0 <= i < 4 ==> s[i] as int < 256
    ensures FourCCString(FourCCCode(s)) == s
  {
    var c0, c1, c2, c3 := s[0] as int, s[1] as int, s[2] as int, s[3] as int;
    var n2 := c2 + 256 * c3;
    var n1 := c1 + 256 * n2;
    var n0 := c0 + 256 * n1;
    assert n0 == FourCCCode(s);
    SplitLowByte(c0, n1);
    SplitLowByte(c1, n2);
    SplitLowByte(c2, c3);
    SplitLowByte(c3, 0);
    DivTwice(n0, 256, 256);
    DivTwice(n0, 65536, 256);
    assert n0 / Pow256(1) == n1;
    assert n0 / Pow256(2) == n2 by {
      assert Pow256(2) == 256 * 256;
      assert n0 / 65536 == n1 / 256;
    }
    assert n0 / Pow256(3) == c3 by {
      assert Pow256(3) == 65536 * 256;
      assert n0 / (65536 * 256) == (n0 / 65536) / 256;
      assert n0 / 65536 == n2;
    }
  }

  // ---------------------------------------------------------------------
  // Quality assessment

  datatype Tier = StandardDefinition | HdReady | FullHd | UltraHd

  /** The tier by width alone: up to 640, up to 1280, up to 1920, above. */
  function TierOf(width: int): Tier
  {
    if width <= 640 then StandardDefinition
    else if width <= 1280 then HdReady
    else if width <= 1920 then FullHd
    else UltraHd
  }

  function Rank(t: Tier): nat
  {
    match t
    case StandardDefinition => 0
    case HdReady => 1
    case FullHd => 2
    case UltraHd => 3
  }

  /** A wider stream never gets a lower tier, and each tier is exactly its
      width band. */
  lemma TierMonotone(w1: int, w2: int)
    requires w1 <= w2
    ensures Rank(TierOf(w1)) <= Rank(TierOf(w2))
    ensures TierOf(w1) == HdReady <==> 640 < w1 <= 1280
    ensures TierOf(w1) == FullHd <==> 1280 < w1 <= 1920
  {
  }

  /** The free-version note: at most 640 wide and 480 high. */
  predicate FreeVersion(width: int, height: int)
  {
    width <= 640 && height <= 480
  }

  datatype Quality = Quality(totalPixels: int, megapixels: real, tier: Tier, freeVersion: bool)

  function Assess(width: int, height: int): (r: Quality)
    ensures r.megapixels * 1000000.0 == r.totalPixels as real
    ensures r.freeVersion <==> width <= 640 && height <= 480
    ensures r.freeVersion ==> r.tier == StandardDefinition
  {
    var total := width * height;
    Quality(total, total as real / 1000000.0, TierOf(width), FreeVersion(width, height))
  }

  /** A stream with the free-version note has at most 640 * 480 pixels. */
  lemma FreeVersionPixelBound(width: nat, height: nat)
    requires Assess(width, height).freeVersion
    ensures Assess(width, height).totalPixels <= 640 * 480
  {
    assert width * height <= 640 * height;
  }

  /** Multiplying a quotient back by its divisor gives the dividend. */
  lemma RatioTimesDivisor(a: real, b: real)
    requires b != 0.0
    ensures (a / b) * b == a
  {
  }

  /** What the check prints, as values. */
  datatype Report = Report(width: int, height: int, aspectRatio: real, fps: real, codec: string, quality: Option<Quality>)

  /** `check_stream_quality` once the stream is open: the width, height and
      code are truncated to integers; a zero height makes the aspect ratio
      raise (None); a failed frame read gives no assessment. */
  function CheckStream(widthProp: real, heightProp: real, fps: real, fourccProp: real, frameRead: bool): (r: Option<Report>)
    ensures r.None? <==> Trunc(heightProp) == 0
    ensures r.Some? ==> (r.value.width == Trunc(widthProp) && r.value.height == Trunc(heightProp) &&
      r.value.aspectRatio * r.value.height as real == r.value.width as real &&
      r.value.codec == FourCCString(Trunc(fourccProp)) &&
      (r.value.quality.Some? <==> frameRead))
  {
    var width := Trunc(widthProp);
    var height := Trunc(heightProp);
    var fourcc := Trunc(fourccProp);
    if height == 0 then None
    else
      RatioTimesDivisor(width as real, height as real);
      Some(Report(width, height, width as real / height as real, fps, FourCCString(fourcc),
                  if frameRead then Some(Assess(width, height)) else None))
  }

  /** A 640 by 480 stream is the free version's standard definition at
      0.3072 megapixels; 1920 by 1080 is full HD and not the free
      version. */
  lemma ExampleStreams()
    ensures Assess(640, 480) == Quality(307200, 0.3072, StandardDefinition, true)
    ensures Assess(1920, 1080).tier == FullHd && !Assess(1920, 1080).freeVersion
  {
  }
}

=== FILE: target_detectors.dfy ===
/** The two target detectors the unified navigator switches between. Each
    turns what OpenCV found in a frame (marker corners and ids, or colour
    contours with their moments) into one detection record. */
module TargetDetectors {
  import opened Common
  import AD = ArucoDetector

  /** The `info` dictionary of a detection. */
  datatype Info =
    | NoInfo
    | ArucoInfo(id: int, distanceCm: real, targetDistanceCm: real, toleranceCm: real)
    | ColorInfo(area: real, areaRatio: real, targetAreaRatio: real)

  /** The dictionary `detect` returns (the annotated frame aside). */
  datatype Detection = Detection(detected: bool, centerX: Option<real>, centerY: Option<real>,
                                 distanceMetric: Option<real>, info: Info)

  const NotDetected := Detection(false, None, None, None, NoInfo)

  /** A detection is well formed: every field present when detected, every
      field absent (and the info empty) when not. */
  predicate WellFormed(d: Detection)
  {
    if d.detected then d.centerX.Some? && d.centerY.Some? && d.distanceMetric.Some? && !d.info.NoInfo?
    else d == NotDetected
  }

  /** The ArUco target settings: `target_distance_cm` and
      `distance_tolerance_cm`, defaulting to 50.0 and 3.0. */
  datatype ArucoTarget = ArucoTarget(detector: AD.Detector, targetDistanceCm: real, toleranceCm: real)

  function ArucoTargetDefaults(detector: AD.Detector): (r: ArucoTarget)
    ensures r.targetDistanceCm == 50.0 && r.toleranceCm == 3.0
  {
    ArucoTarget(detector, 50.0, 3.0)
  }

  /** `ArucoTargetDetector.detect`: with at least one id the first marker of
      `get_marker_info` wins, and its distance is the distance metric. */
  function ArucoDetect(t: ArucoTarget, corners: seq<AD.Marker>, ids: Option<seq<int>>): (r: Detection)
    requires AD.Measurable(corners)
    requires ids.Some? && ids.value != [] ==> 0 < |corners| <= |ids.value|
    ensures WellFormed(r)
    ensures r.detected <==> ids.Some? && ids.value != []
    ensures r.detected ==> (r.info.ArucoInfo? && r.info.id == ids.value[0] &&
      r.distanceMetric == Some(r.info.distanceCm) &&
      r.info.distanceCm * AD.PerceivedWidth(corners[0]) == t.detector.markerSizeCm * t.detector.focalLengthPx &&
      r.info.targetDistanceCm == t.targetDistanceCm && r.info.toleranceCm == t.toleranceCm)
    ensures r.detected ==>
      r.centerX == Some(AD.Center(corners[0]).x) && r.centerY == Some(AD.Center(corners[0]).y)
  {
    if ids.Some? && |ids.value| > 0 then
      var m := AD.MarkerInfos(t.detector, corners, ids)[0];
      Detection(true, Some(m.centerX), Some(m.centerY), Some(m.distanceCm),
                ArucoInfo(m.id, m.distanceCm, t.targetDistanceCm, t.toleranceCm))
    else NotDetected
  }

  /** A contour as OpenCV measures it: its area and raw moments. */
  datatype Contour = Contour(area: real, m00: real, m10: real, m01: real)

  /** Index of the first contour of largest area, as Python's `max` with a
      key picks it. */
  function LargestIndex(cs: seq<Contour>): (r: nat)
    requires cs != []
    ensures r < |cs|
    ensures forall i :: 0 <= i < |cs| ==> cs[i].area <= cs[r].area
  {
    if |cs| == 1 then 0
    else
      var j := LargestIndex(cs[..|cs| - 1]);
      if cs[|cs| - 1].area > cs[j].area then |cs| - 1 else j
  }

  /** Ties go to the earliest contour. */
  lemma {:induction false} LargestIndexIsFirst(cs: seq<Contour>)
    requires cs != []
    ensures forall i :: 0 <= i < LargestIndex(cs) ==> cs[i].area < cs[LargestIndex(cs)].area
  {
    if |cs| > 1 {
      LargestIndexIsFirst(cs[..|cs| - 1]);
    }
  }

  /** The colour target settings: `min_contour_area` and
      `target_area_ratio`. */
  datatype ColorTarget = ColorTarget(minContourArea: real, targetAreaRatio: real)

  /** One bound of a Python slice on an axis of `n` entries: a negative
      bound counts from the end, and the result is clipped to `[0, n]`. */
  function SliceBound(n: nat, i: int): (r: nat)
    ensures r <= n
    ensures 0 <= i <= n ==> r == i
  {
    if i < 0 then (if i + n < 0 then 0 else i + n) else if i > n then n else i
  }

  /** The length of the Python slice `start:stop` on an axis of `n` entries. */
  function SliceLen(n: nat, start: int, stop: int): (r: nat)
    ensures r <= n
  {
    var lo := SliceBound(n, start);
    var hi := SliceBound(n, stop);
    if hi > lo then hi - lo else 0
  }

  /** The mask inset `frame[10:250, cols-330:cols-10] = mask_colored` writes a
      240 x 320 image, so NumPy accepts it only when both slices have exactly
      that shape; that is exactly when the frame has at least 250 rows and
      330 columns, and otherwise the assignment raises `ValueError`. */
  function InsetFits(rows: nat, cols: nat): (r: bool)
    ensures r <==> rows >= 250 && cols >= 330
  {
    SliceLen(rows, 10, 250) == 240 && SliceLen(cols, cols - 330, cols - 10) == 320
  }

  /** `ColorTargetDetector.detect`: the largest contour is a target when its
      area reaches the minimum and `m00` is nonzero; its centroid is
      `(int(m10 / m00), int(m01 / m00))`, its area the distance metric, and
      `area / (rows * cols)` its area ratio. A target drawn on a frame too
      small for the mask inset raises instead, which is None here. */
  function ColorDetect(t: ColorTarget, contours: seq<Contour>, rows: nat, cols: nat): (r: Option<Detection>)
    ensures r.None? <==> (contours != [] &&
      contours[LargestIndex(contours)].area >= t.minContourArea && contours[LargestIndex(contours)].m00 != 0.0 &&
      !InsetFits(rows, cols))
    ensures r.Some? ==> WellFormed(r.value)
    ensures r.Some? ==> (r.value.detected <==> (contours != [] &&
      contours[LargestIndex(contours)].area >= t.minContourArea && contours[LargestIndex(contours)].m00 != 0.0))
    ensures r.Some? && r.value.detected ==>
      var c := contours[LargestIndex(contours)];
      r.value.centerX == Some(Trunc(c.m10 / c.m00) as real) && r.value.centerY == Some(Trunc(c.m01 / c.m00) as real) &&
      r.value.distanceMetric == Some(c.area) &&
      r.value.info == ColorInfo(c.area, c.area / (rows * cols) as real, t.targetAreaRatio)
  {
    if contours == [] then Some(NotDetected)
    else
      var c := contours[LargestIndex(contours)];
      if c.area >= t.minContourArea && c.m00 != 0.0 then
        if !InsetFits(rows, cols) then None
        else
          Some(Detection(true, Some(Trunc(c.m10 / c.m00) as real), Some(Trunc(c.m01 / c.m00) as real), Some(c.area),
                         ColorInfo(c.area, c.area / (rows * cols) as real, t.targetAreaRatio)))
      else Some(NotDetected)
  }

  /** A detected colour target's area ratio is in (0, 1] whenever its
      contour fits in the frame. */
  lemma AreaRatioInUnit(t: ColorTarget, contours: seq<Contour>, rows: nat, cols: nat)
    requires t.minContourArea > 0.0
    requires forall c <- contours :: c.area <= (rows * cols) as real
    ensures var r := ColorDetect(t, contours, rows, cols);
      r.Some? && r.value.detected ==> 0.0 < r.value.info.areaRatio <= 1.0
  {
    var r := ColorDetect(t, contours, rows, cols);
    if r.Some? && r.value.detected {
      var c := contours[LargestIndex(contours)];
      var n := (rows * cols) as real;
      assert c in contours;
      assert 0.0 < c.area <= n;
      assert r.value.info.areaRatio == c.area / n;
    }
  }
}

=== FILE: unified_navigation.dfy ===
/** The unified navigator: the base controller plus a switchable target
    detector (ArUco markers or a colour blob), and the throttle and steering
    decision made from a detection. */
module UnifiedNavigation {
  import opened Common
  import BN = BaseNavigation
  import TD = TargetDetectors

  /** `detector_types`, in switching order. */
  const DetectorTypes: seq<string> := ["aruco", "color"]
  const ArucoKind := 0
  const ColorKind := 1
  const KeyT := 't' as int

  /** `detector_types.index(name)`; None stands for the `ValueError` raised
      for any other name. */
  function DetectorIndex(name: string): (r: Option<nat>)
    ensures r.Some? <==> name in DetectorTypes
    ensures r.Some? ==> r.value < |DetectorTypes| && DetectorTypes[r.value] == name
  {
    if name == "aruco" then Some(0) else if name == "color" then Some(1) else None
  }

  /** `switch_detector`: the next index modulo the number of detectors. */
  function NextDetector(i: nat): (r: nat)
    ensures r < |DetectorTypes|
  {
    (i + 1) % |DetectorTypes|
  }

  /** Two switches bring back the detector one started from. */
  lemma SwitchTwiceRestores(i: nat)
    requires i < |DetectorTypes|
    ensures NextDetector(NextDetector(i)) == i
    ensures NextDetector(i) != i
  {
  }

  /** Throttle settings: `base_throttle`, `backward_throttle_multiplier`,
      `target_distance_cm` and `distance_tolerance_cm`. */
  datatype NavParams = NavParams(steering: BN.SteeringParams, baseThrottle: real, backwardMultiplier: real,
                                 targetDistanceCm: real, toleranceCm: real)

  const Defaults := NavParams(BN.DefaultSteering, 0.3, 0.5, 50.0, 3.0)

  /** A detection the detector of kind `kind` can produce. */
  predicate FromDetector(kind: nat, d: TD.Detection)
  {
    TD.WellFormed(d) && kind < |DetectorTypes| &&
    (d.detected ==> (if kind == ArucoKind then d.info.ArucoInfo? else d.info.ColorInfo?))
  }

  /** `process_frame_autonomous`: no detection stops the car. An ArUco
      target outside the distance tolerance drives forward at base throttle
      when too far and backward at `base * multiplier` with steering
      inverted when too close; a colour target does the same on the area
      ratio with a 0.01 band and half the backward speed. */
  function Decide(n: NavParams, frameWidth: Option<int>, kind: nat, d: TD.Detection): (r: (real, real))
    requires n.steering.quantization != 0.0
    requires FromDetector(kind, d)
    ensures !d.detected ==> r == (0.0, 0.0)
  {
    if !d.detected then (0.0, 0.0)
    else
      var steering := BN.CalculateSteering(n.steering, frameWidth, d.centerX.value);
      if kind == ArucoKind then
        var error := d.distanceMetric.value - n.targetDistanceCm;
        if Abs(error) > n.toleranceCm then
          if error > 0.0 then (n.baseThrottle, steering)
          else (-n.baseThrottle * n.backwardMultiplier, -steering)
        else (0.0, steering)
      else
        var sizeError := d.info.targetAreaRatio - d.info.areaRatio;
        if sizeError > 0.01 then (n.baseThrottle, steering)
        else if sizeError < -0.01 then (-n.baseThrottle * n.backwardMultiplier * 0.5, -steering)
        else (0.0, steering)
  }

  /** The ArUco rule, case by case; a distance error exactly at the
      tolerance stops the car. */
  lemma ArucoRule(n: NavParams, frameWidth: Option<int>, d: TD.Detection)
    requires n.steering.quantization != 0.0
    requires FromDetector(ArucoKind, d) && d.detected
    ensures var r := Decide(n, frameWidth, ArucoKind, d);
      var s := BN.CalculateSteering(n.steering, frameWidth, d.centerX.value);
      var e := d.distanceMetric.value - n.targetDistanceCm;
      (e > n.toleranceCm && e > 0.0 ==> r == (n.baseThrottle, s)) &&
      (-e > n.toleranceCm && e <= 0.0 ==> r == (-n.baseThrottle * n.backwardMultiplier, -s)) &&
      (-n.toleranceCm <= e <= n.toleranceCm ==> r == (0.0, s))
  {
    var r := Decide(n, frameWidth, ArucoKind, d);
    var s := BN.CalculateSteering(n.steering, frameWidth, d.centerX.value);
    var e := d.distanceMetric.value - n.targetDistanceCm;
    if e > n.toleranceCm && e > 0.0 {
      assert r == (n.baseThrottle, s);
    }
    if -e > n.toleranceCm && e <= 0.0 {
      assert Abs(e) > n.toleranceCm;
      assert r.1 == -s;
      assert r.0 == -n.baseThrottle * n.backwardMultiplier;
    }
    if -n.toleranceCm <= e <= n.toleranceCm {
      assert r == (0.0, s);
    }
  }

  /** The colour rule, case by case. */
  lemma ColorRule(n: NavParams, frameWidth: Option<int>, d: TD.Detection)
    requires n.steering.quantization != 0.0
    requires FromDetector(ColorKind, d) && d.detected
    ensures var r := Decide(n, frameWidth, ColorKind, d);
      var s := BN.CalculateSteering(n.steering, frameWidth, d.centerX.value);
      var e := d.info.targetAreaRatio - d.info.areaRatio;
      (e > 0.01 ==> r == (n.baseThrottle, s)) &&
      (e < -0.01 ==> r == (-n.baseThrottle * n.backwardMultiplier * 0.5, -s)) &&
      (-0.01 <= e <= 0.01 ==> r == (0.0, s))
  {
    var r := Decide(n, frameWidth, ColorKind, d);
    var s := BN.CalculateSteering(n.steering, frameWidth, d.centerX.value);
    var e := d.info.targetAreaRatio - d.info.areaRatio;
    if e < -0.01 {
      assert r.1 == -s;
      assert r.0 == -n.baseThrottle * n.backwardMultiplier * 0.5;
    }
  }

  /** With positive base throttle and multiplier, every detected case keeps
      the magnitude of the steering law's command, and its sign flips exactly
      when the car drives backward. */
  lemma SteeringFlipsOnlyBackward(n: NavParams, frameWidth: Option<int>, kind: nat, d: TD.Detection)
    requires n.steering.quantization != 0.0
    requires FromDetector(kind, d) && d.detected
    requires n.baseThrottle > 0.0 && n.backwardMultiplier > 0.0
    ensures var r := Decide(n, frameWidth, kind, d);
      var s := BN.CalculateSteering(n.steering, frameWidth, d.centerX.value);
      Abs(r.1) == Abs(s) && r.1 == (if r.0 < 0.0 then -s else s)
  {
    var s := BN.CalculateSteering(n.steering, frameWidth, d.centerX.value);
    assert n.baseThrottle * n.backwardMultiplier > 0.0;
    assert n.baseThrottle * n.backwardMultiplier * 0.5 > 0.0;
  }

  /** The unified controller: the base controller and the current detector. */
  class UnifiedController {
    var detectorIndex: nat
    const nav: BN.Controller
    const params: NavParams
    const frameWidth: Option<int>

    ghost predicate Valid()
      reads this, nav
    {
      detectorIndex < |DetectorTypes| && nav.Valid() && params.steering.quantization != 0.0
    }

    constructor (index: nat, params: NavParams, frameWidth: Option<int>)
      requires index < |DetectorTypes| && params.steering.quantization != 0.0
      ensures Valid() && fresh(nav)
      ensures detectorIndex == index && this.params == params && this.frameWidth == frameWidth
    {
      detectorIndex := index;
      this.params := params;
      this.frameWidth := frameWidth;
      nav := new BN.Controller();
    }

    /** Construction by name: an unknown initial detector raises (None). */
    static method Create(name: string, params: NavParams, frameWidth: Option<int>) returns (r: Option<UnifiedController>)
      requires params.steering.quantization != 0.0
      ensures r.Some? <==> name in DetectorTypes
      ensures r.Some? ==> (fresh(r.value) && fresh(r.value.nav) && r.value.Valid() &&
        DetectorTypes[r.value.detectorIndex] == name)
    {
      var i := DetectorIndex(name);
      if i.None? {
        return None;
      }
      var c := new UnifiedController(i.value, params, frameWidth);
      return Some(c);
    }

    /** `switch_detector`. */
    method SwitchDetector()
      requires Valid()
      modifies this
      ensures Valid()
      ensures detectorIndex == NextDetector(old(detectorIndex))
    {
      detectorIndex := (detectorIndex + 1) % |DetectorTypes|;
    }

    /** One frame of the unified loop: the current detector's detection is
        turned into the autonomous command, the base controller runs its
        frame step, and `t` switches the detector. */
    method Step(d: TD.Detection, key: int) returns (quit: bool)
      requires Valid() && FromDetector(detectorIndex, d)
      modifies this, nav
      ensures Valid()
      ensures quit <==> key == BN.KeyQ
      ensures detectorIndex == if key == KeyT then NextDetector(old(detectorIndex)) else old(detectorIndex)
      ensures (nav.currentThrottle, nav.currentSteering) ==
        (var c := BN.FrameCommand(BN.Modes(old(nav.autonomousMode), old(nav.manualMode)),
                                  BN.Manual(old(nav.manualThrottle), old(nav.manualSteering)),
                                  Decide(params, frameWidth, old(detectorIndex), d));
         (Clamp(c.0, -1.0, 1.0), Clamp(c.1, -1.0, 1.0)))
      ensures BN.Modes(nav.autonomousMode, nav.manualMode) == BN.ModeKey(BN.Modes(old(nav.autonomousMode), old(nav.manualMode)), key)
    {
      var autonomous := Decide(params, frameWidth, detectorIndex, d);
      quit := nav.Step(autonomous, key);
      if key == KeyT {
        SwitchDetector();
      }
    }
  }
}
